=== FILE: README.md ===
# auto_categorise: a verified model of the decision logic

The system files scanned real-estate project documents into a fixed catalogue
of document categories. Each document gets three signals against every
candidate category:
- a fuzzy match of its filename against the category's names;
- the share of the category's keywords found in its opening text;
- the cosine between its mean chunk embedding and the category's prototype.

These three are fused into one confidence score. A high-precision rule engine
(text detectors, a bank-statement router and filename-token hints) can
override or boost the winner. Three thresholds then turn the confidence into
"accepted", "needs_review" or "unassigned".

A second pass clusters the documents by the legal entity they belong to. The
entity is identified by PAN, GSTIN, LLPIN, CIN or normalised name. The pass
scores each cluster from the kinds of documents it holds and labels the
clusters developer entity, group entity or other entity.

The model is split into one Dafny module per part of the system:

| module | file | models |
|---|---|---|
| `Fusion` | fuse.dfy | `fuse_scores` |
| `Signals` | signals.dfy | `_norm01`, `score_filename`, `score_keywords`, `doc_vector_mean`, `cosine`, `score_embeddings`, `is_generic_filename` |
| `Rules` | rules.dfy | `_add_hit`, `_bank_router`, `rules_from_text_and_filename`, with the text-rule and filename-hint tables as data |
| `Catalogue` | catalogue.dfy | `_norm_state`, `_first_org`, `load_sot` (both file shapes, after parsing), `filter_by_state`, `by_slug`, `names_for_fuzzy` |
| `LegacyCatalogue` | legacy_catalogue.dfy | the older catalogue beside the resolver: upper-case-only state normalisation, its `filter_by_state` and list-only `load_sot` |
| `Resolver` | resolver.dfy | `categorize_document`: text window, filename weight, scoring loop, stable ranking, rule override, status and top-K preview |
| `EntityRoles` | entity_roles.dfy | `norm_name`, `extract_facts`, `entity_key`, `feature_from_slug`, `org_variant_from_slugs`, `score_role`, and the clustering and role assignment of `run` |
| `Ranking` | ranking.dfy | Python's `max(..., key=...)` and the stable `sort(key=..., reverse=True)` that the resolver and `run` use |
| `Common` | common.dfy | Python string helpers (`lower`, `upper`, `strip`, `replace`, slicing, the extension regex) |

**How the model takes its shape.** Loops in the source are Dafny methods with
loop invariants. Each method is proved equal to a specification function, and
the properties are proved as lemmas about those functions. The specification
functions are:
- the rule engine's `RuleHits`;
- the window `Window`;
- the ranking `Rank`;
- the per-document decision `Categorize`;
- the clustering's `RunSpec`.

Pure Python functions are Dafny functions. Several things the model cannot
inspect are passed in as function-valued parameters:
- the regular expressions, as `matches` and `search`;
- the rapidfuzz ratios, as a `FuzzMetrics` record;
- the vector norm.

Scores are `real`. Strings are ASCII.

**Where the code and its description differ, the model follows the code:**
- **`scan0001.pdf` is not generic.** Its only word is `scan0001`, which is not in the generic-token set. It has eight characters after cleaning, and digits are half of them. `Signals.Scan0001IsNotGeneric`
- **The text-rule layer never emits a hit.** A slug needs a local score of 0.8, which takes three matching detectors, and every slug in the shipped table has at most two. `Rules.TextLayerSilent`
  - A GSTIN in the text therefore produces no text-rule hit: the `dev_company_gst_pan` rule (rishabh_code/rules.py:56) never fires.
  - The bank router still counts a GSTIN as a corporate marker. With a bank-statement marker it yields the three entity bank slugs at 0.9 (`Rules.RouterHits`).
  - A filename containing "gst" still yields the GST slugs at 0.85 through the hint layer.
- **An empty candidate list is an error.** The source indexes `scored[0]` and fails. The model returns `Err(NoCandidates)` exactly when the filtered catalogue is empty.

## Model

| member | source | states |
|---|---|---|
| Fusion.Clip01 | fuse.py:5 | the result lies in [0,1]; a value in [0,1] is unchanged; below 0 gives 0, above 1 gives 1 |
| Fusion.FuseScores | fuse.py:2-5 | the fused score always lies in [0,1]; when the weighted sum lies in [0,1] it is exactly that sum; otherwise it is clipped to 0 or 1 |
| Fusion.FuseMonotone | fuse.py:3-5 | with non-negative weights, raising any of the three scores never lowers the fused score |
| Fusion.DefaultFusionUnclipped | fuse.py:2-5 | with the default weights (0.20, 0.35, 0.45) and scores in [0,1], the fused score is exactly 0.20·s1 + 0.35·s2 + 0.45·s3 |
| Signals.Norm01 | uploads_logic/signals.py:13-16 | zero when hi ≤ lo; otherwise in [0,1], 0 at or below lo, 1 at or above hi, and (x − lo)/(hi − lo) between |
| Signals.Norm01Monotone | uploads_logic/signals.py:13-16 | the rescaling never decreases as its input grows |
| Signals.AfterLastSlash | uploads_logic/signals.py:88 | `rsplit("/", 1)[-1]`: a slash-free suffix of the name, the whole name when it has no slash, and preceded by a slash otherwise |
| Signals.Words | uploads_logic/signals.py:90 | `_WORD.findall`: every word found is a non-empty run of ASCII letters and digits; `WordsAreRuns`, `WordsInOrder` and `RunsAreWords` state that the words are exactly the maximal such runs, left to right |
| Signals.WordsAreRuns | uploads_logic/signals.py:90 | each word is a maximal run of ASCII letters and digits (bounded by the string's ends or by other characters), found at its recorded start |
| Signals.WordsInOrder | uploads_logic/signals.py:90 | each word ends, and a non-alphanumeric character separates it, before the next word starts: the words appear in order of position |
| Signals.RunsAreWords | uploads_logic/signals.py:90 | every maximal run of letters and digits is one of the words, at its own start |
| Signals.NoGenericRun | uploads_logic/signals.py:90-92 | when no maximal alphanumeric run of the cleaned name is a generic token, no word is, so the generic-word test fails |
| Signals.CleanOfPlainName | uploads_logic/signals.py:88-89 | a name without a slash or a capital letter that ends in a known extension cleans to the name without that extension |
| Signals.LeadingRunIsFirstWord | uploads_logic/signals.py:90 | a maximal run at the start of a string is its first word, followed by the words of the rest |
| Signals.WordsEmptyIff | uploads_logic/signals.py:90-91 | no word is found exactly when no character is a letter or digit |
| Common.StripExtensionFacts | uploads_logic/signals.py:89 | the extension substitution leaves a name unchanged when no known extension ends it; otherwise it removes that extension, and, as `$` also matches before a final newline, an extension followed by one newline is removed with the newline kept |
| Signals.IsGenericFilename | uploads_logic/signals.py:87-97 | defined as the generic test on the last path segment, lower-cased and without its extension; `ShortNamesAreGeneric`, `NoGenericRun`, `Scan0001IsNotGeneric` and `CameraNameIsGeneric` state its behaviour |
| Signals.IsGenericBase | uploads_logic/signals.py:90-97 | defined as the four early returns: no word, a generic word, at most six characters, or more than 60% digits; the lemmas on `IsGenericFilename` state its cases |
| Signals.Scan0001IsNotGeneric | uploads_logic/signals.py:86-97 | "scan0001.pdf" is not a generic filename |
| Signals.CameraNameIsGeneric | uploads_logic/signals.py:86-92 | "img_2041.jpg" is generic, because its word "img" is a generic token |
| Signals.ShortNamesAreGeneric | uploads_logic/signals.py:88-93 | a bare filename whose lower-cased form, stripped of a known extension, has at most six characters is generic, and so is that filename behind any directory prefix |
| Signals.NotGenericBase | uploads_logic/signals.py:90-97 | a cleaned name with one non-generic word, more than six characters and digits at most 60% of it is not generic |
| Signals.MaxRatioIsMax | uploads_logic/signals.py:22-28 | the running best is non-negative, bounds every ratio of every fuzzy name, is zero or attained by some name, and is at most 100 when the ratios are |
| Signals.ScoreBase | uploads_logic/signals.py:22-29 | the loop over the fuzzy names returns the largest ratio over them divided by 100, and a value in [0,1] when every ratio lies in [0,100] |
| Signals.ScoreFilename | uploads_logic/signals.py:18-29 | `score_filename` is that maximum for the filename after the last slash, lower-cased and stripped of a known extension |
| Signals.Hits | uploads_logic/signals.py:37-43 | the number of keyword hits never exceeds the number of keywords |
| Signals.CountHits | uploads_logic/signals.py:37-43 | the loop counts exactly the non-empty entries found lower-cased in the text, skipping empty ones |
| Signals.ScoreKeywords | uploads_logic/signals.py:31-46 | the counting loop returns the keyword score of the hits among keywords followed by synonyms, over the lower-cased text of the first top_k chunks |
| Signals.KeywordScoreFacts | uploads_logic/signals.py:33-46 | the keyword score lies in [0,1], is 0 with no hits (so also with no keywords), and is 1 exactly when hits/len ≥ 0.6 |
| Signals.KeywordScoreMonotone | uploads_logic/signals.py:45-46 | more hits never lower the keyword score |
| Signals.OpeningTextIgnoresLaterChunks | uploads_logic/signals.py:36 | chunks after the first top_k do not change the text searched |
| Signals.Collected | uploads_logic/signals.py:49-64 | the vectors kept are non-empty and no more than the chunks |
| Signals.CollectedEmptyIff | uploads_logic/signals.py:49-64 | nothing is kept exactly when no chunk carries a non-empty list or array embedding |
| Signals.MeanOfCopies | uploads_logic/signals.py:65 | the component-wise mean of copies of one vector is that vector |
| Signals.DocVectorMean | uploads_logic/signals.py:48-65 | the loop returns None exactly when none of the first max_chunks chunks carries a non-empty vector, and otherwise the mean of the vectors kept |
| Signals.Cosine | uploads_logic/signals.py:67-71 | zero when the product of the norms is zero; otherwise the cosine times that product is the dot product |
| Signals.CosineSymmetric | uploads_logic/signals.py:67-71 | the cosine does not depend on the order of its arguments |
| Signals.ScoreEmbeddings | uploads_logic/signals.py:78-82 | zero when either vector is absent; always in [0,1]; 0 at a cosine of 0.2 or less, 1 at 0.9 or more, and (cosine − 0.2)/0.7 between |
| Rules.AddHit | rishabh_code/rules.py:115-116 | appends exactly one hit with the given slug and reason, scored min(0.95, score), so no hit exceeds 0.95 |
| Rules.Matched | rishabh_code/rules.py:137-140 | the matching detectors, never more than the detectors listed |
| Rules.Local | rishabh_code/rules.py:135-139 | the local score is non-negative and zero exactly when no detector matched |
| Rules.LocalClosedForm | rishabh_code/rules.py:135-141 | after n ≥ 1 matches the local score is 0.5 + 0.25·(n − 1), and it reaches 0.8 exactly when n ≥ 3 |
| Rules.LocalScore | rishabh_code/rules.py:135-140 | the inner loop yields the matching detectors in order and their local score |
| Rules.ApplyTextRules | rishabh_code/rules.py:133-142 | the loop over the text-rule table yields exactly the text-rule hits, slug by slug |
| Rules.ShortRulesNeverEmit | rishabh_code/rules.py:135-142 | a table whose every slug has at most two detectors emits no text hit |
| Rules.TextLayerSilent | rishabh_code/rules.py:53-98 | the shipped text-rule table emits no hit for any text |
| Rules.RouterHits | rishabh_code/rules.py:118-128 | no bank marker gives nothing; a bank marker with corporate markers, a GSTIN, a CIN or an LLPIN gives exactly the three entity bank slugs at 0.9; otherwise exactly the directors' statement slug at 0.9 |
| Rules.BankRouter | rishabh_code/rules.py:118-128 | `_bank_router` builds exactly the router's hits, ignoring the state |
| Rules.ApplyTokenHint | rishabh_code/rules.py:156-158 | a token found in the cleaned filename appends every slug mapped to its key at 0.85, in table order; otherwise nothing |
| Rules.ApplyFilenameHints | rishabh_code/rules.py:155-158 | the loop over the token map appends the hints of every token found, token by token |
| Rules.AccountStatementHintsTwice | rishabh_code/rules.py:111-112 | a filename containing "accountstatement" yields the four bank slugs twice at 0.85, as the last eight hints |
| Rules.FilenameScores | rishabh_code/rules.py:155-158 | every filename hint scores 0.85 |
| Rules.RuleHits | rishabh_code/rules.py:130-162 | defined as the text-rule hits, then the router's, then the filename hints'; `HitScoresInRange`, `TextLayerSilent` and `FilenameScores` state its properties |
| Rules.RulesFromTextAndFilename | rishabh_code/rules.py:130-162 | the text hits, then the router hits, then the filename hints of the lower-cased, extension-stripped filename, in that order; the state plays no part |
| Rules.HitScoresInRange | rishabh_code/rules.py:115-158 | every hit the engine returns scores between 0.8 and 0.95 |
| Ranking.FirstMaxIndex | rishabh_code/uploads_logic/resolver.py:84 | `max(..., key=...)` picks an element no other exceeds and that every earlier element falls strictly below |
| Ranking.InsertSorted | rishabh_code/uploads_logic/resolver.py:115 | inserting into a sequence sorted by descending key keeps it sorted |
| Ranking.InsertWithKey | rishabh_code/uploads_logic/resolver.py:115 | insertion places the new element after every element of the same key |
| Ranking.SortDescFacts | rishabh_code/uploads_logic/resolver.py:115 | the stable descending sort is a permutation, is sorted, and keeps the input order among elements of equal key |
| Ranking.SortDescHead | rishabh_code/uploads_logic/resolver.py:115-118 | the head of the sorted list is exactly the element `max` picks: the first of maximal key |
| Ranking.PermutationKeepsKeysDistinct | entity_role_infer.py:110 | sorting a list whose keys are distinct leaves them distinct |
| Resolver.Window | rishabh_code/uploads_logic/resolver.py:74-78 | defined as the window over the first twelve chunk texts from a running total of zero; `WindowCharacterised` states what it holds |
| Resolver.WindowStep | rishabh_code/uploads_logic/resolver.py:75-78 | one pass of the window loop either completes the window, when its text passes 20000 characters, or keeps the loop invariant |
| Resolver.WindowFromFacts | rishabh_code/uploads_logic/resolver.py:74-78 | the texts taken are a non-empty prefix; before each text is taken the running total is within 20000; stopping early means the total passed 20000 |
| Resolver.WindowCharacterised | rishabh_code/uploads_logic/resolver.py:74-79 | the rule window is a prefix of the first twelve chunk texts, non-empty when there are chunks, and stops right after the text whose length pushes the total past 20000 |
| Resolver.WindowOf | rishabh_code/uploads_logic/resolver.py:74-78 | the loop with its early break builds exactly that window |
| Resolver.TextWindow | rishabh_code/uploads_logic/resolver.py:74-78 | the window over the document's chunks |
| Resolver.FilenameWeight | rishabh_code/uploads_logic/resolver.py:95-103 | the filename weight is 0 exactly for a generic name or three or more copies, 0.20 exactly for two copies of a non-generic name, and 0.40 exactly for a unique non-generic name |
| Resolver.FilenameWeightAntitone | rishabh_code/uploads_logic/resolver.py:98-103 | more copies of a name never raise its filename weight |
| Resolver.ResolverFusionUnclipped | rishabh_code/uploads_logic/resolver.py:105-113 | with the resolver's weights (at most 0.40, 0.30, 0.30) and scores in [0,1], fusion never clips |
| Resolver.RuleBest | rishabh_code/uploads_logic/resolver.py:84 | none exactly when there are no hits; otherwise a hit of maximal score, the first such |
| Resolver.ScoreCandidate | rishabh_code/uploads_logic/resolver.py:110-114 | one category's three signals and their fusion under the resolver's weights, with the keyword signal over the first six chunks |
| Resolver.ScoreCandidates | rishabh_code/uploads_logic/resolver.py:108-114 | the scoring loop yields one candidate per category, in catalogue order |
| Resolver.FirstBest | rishabh_code/uploads_logic/resolver.py:115-118 | the first candidate, in catalogue order, whose fused score no other exceeds |
| Resolver.Rank | rishabh_code/uploads_logic/resolver.py:115 | the ranking is a permutation of the candidates, non-increasing in fused score, stable on ties, and headed by the first best candidate |
| Resolver.FirstWithSlug | rishabh_code/uploads_logic/resolver.py:126-127 | the first ranked candidate carrying the rule's slug, or none when no candidate carries it |
| Resolver.OverrideWithRule | rishabh_code/uploads_logic/resolver.py:121-138 | the override loop: a candidate rule slug takes over with final max(final, score); otherwise the slug stays and final becomes max(final, 0.9·score), marked partial |
| Resolver.RuleNeverLowersFinal | rishabh_code/uploads_logic/resolver.py:130-137 | rule handling never lowers the confidence, and without a rule hit it leaves the confidence unchanged |
| Resolver.StrongRuleLiftsFinal | rishabh_code/uploads_logic/resolver.py:122-138 | a hit scoring at least 0.8 lifts the confidence to at least 0.72; it takes over when its slug is a candidate and is partial otherwise |
| Resolver.StatusOf | rishabh_code/uploads_logic/resolver.py:141-146 | accepted exactly when final ≥ 0.70, needs_review exactly when 0.60 ≤ final < 0.70, unassigned exactly when final < 0.60 |
| Resolver.StatusMonotone | rishabh_code/uploads_logic/resolver.py:141-146 | a higher confidence never earns a worse status |
| Resolver.Preview | rishabh_code/uploads_logic/resolver.py:149-160 | min(topk, n) rows, ranked from 1, each carrying the ranked candidate at its position |
| Resolver.Categorize | rishabh_code/uploads_logic/resolver.py:56-179 | the decision is an error exactly when there is no candidate category |
| Resolver.CategorizeDocument | rishabh_code/uploads_logic/resolver.py:65-179 | the method computes exactly `Categorize` from the document, its chunks, the filtered catalogue and the name histogram |
| Resolver.CategorizeDecides | rishabh_code/uploads_logic/resolver.py:109-179 | a decision reads the ranked candidates of every category under the document's best rule hit and filename flags |
| Resolver.Decide | rishabh_code/uploads_logic/resolver.py:118-179 | defined as the decision record built from the ranked candidates and the rule override; `DecideKeepsWinner` and `DecideReports` state its properties |
| Resolver.DecideKeepsWinner | rishabh_code/uploads_logic/resolver.py:118-138 | s1, s2 and s3 are the fused winner's; the confidence is at least its fused score; without a rule hit the winner and its score stand |
| Resolver.WinnerIsFirstBest | rishabh_code/uploads_logic/resolver.py:109-138 | the reported signals are those of the first category in catalogue order with maximal fused score, and no candidate's fused score exceeds the confidence |
| Resolver.AnyRuleHitAccepts | rishabh_code/uploads_logic/resolver.py:83-146 | any rule hit at all makes the document accepted |
| Resolver.DecideReports | rishabh_code/uploads_logic/resolver.py:149-176 | the preview has min(topk_show, n) rows ranked from 1 with non-increasing scores; the duplicate flag is set from two copies on; the keyword and embedding weights are 0.30 |
| Resolver.PreviewAndFlags | rishabh_code/uploads_logic/resolver.py:149-176 | every decision reports as `DecideReports` states, with n the number of candidate categories |
| Catalogue.NormState | source_of_truth.py:67-79 | absent stays absent; a value that strips and upper-cases to "TELANGANA" or "TS" becomes "TS", to "KARNATAKA" or "KA" becomes "KA"; any other value is returned as given |
| Catalogue.NormStateFacts | source_of_truth.py:75-79 | absent stays absent; a present value becomes "TS", "KA" or stays as given; normalising twice is normalising once |
| Catalogue.NormStateFullName | source_of_truth.py:67-79 | a full state name in mixed case, "Karnataka", maps to "KA" |
| Catalogue.CodeIsFixed | source_of_truth.py:67-79 | the codes "TS" and "KA" map to themselves |
| Catalogue.NormStateUnknown | source_of_truth.py:79 | an unknown value ("ap") is returned as given, not upper-cased |
| Catalogue.PresentLowered | source_of_truth.py:85 | the non-empty organisation types, lower-cased, and nothing else |
| Catalogue.Dedup | source_of_truth.py:86 | the same values without repeats (their order is not stated) |
| Catalogue.FirstOrg | source_of_truth.py:81-87 | a value is returned only when every present entry lower-cases to it |
| Catalogue.FirstOrgSingle | source_of_truth.py:81-87 | a value is returned exactly when some entry is present and all present entries agree once lower-cased |
| Catalogue.FirstTruthy | source_of_truth.py:124-125 | the first truthy of the two fields, else the fallback |
| Catalogue.LowerAll | source_of_truth.py:128-129 | every entry lower-cased, in order |
| Catalogue.StringItems | source_of_truth.py:128-129 | a list field is accepted only when every entry is a string, and then yields those strings in order |
| Catalogue.LoweredList | source_of_truth.py:128-129 | an absent list field reads as the empty list |
| Catalogue.NewShapeDisplay | source_of_truth.py:124 | in the new shape the display name is `name`, else `display`, else the slug |
| Catalogue.LoadedWordsAreLowerCase | source_of_truth.py:128-138 | keywords and synonyms come out lower-case from either shape |
| Catalogue.MapNewRecord | source_of_truth.py:121-128 | a record without "slug" fails on it; a mapped record has the record's string slug, top_entity from `entity_type`, else `top_entity`, else "", its `state` normalised, its org_variant `FirstOrg` of `org_types`, and its keywords and synonyms lower-cased |
| Catalogue.MapListRecord | source_of_truth.py:130-138 | a record without "slug" fails on it; a mapped record has the record's string slug, display and top_entity, its `state_variant` normalised, its org_variant the string under `org_variant` when truthy and none otherwise (so "" becomes none), and its keywords and synonyms lower-cased |
| Catalogue.Shape | source_of_truth.py:109-117 | anything but a list or a mapping with "categories" is rejected before any record is read; a list is the old shape |
| Catalogue.LoadSot | source_of_truth.py:100-151 | a rejected shape fails with its error; a success maps every record in order; a failure is the first failing record's error |
| Catalogue.KeptIsSubsequence | source_of_truth.py:156-165 | the filter's output is an order-preserving subsequence of its input |
| Catalogue.KeptMembers | source_of_truth.py:156-165 | a category is kept exactly when it is in the input and the filter admits it |
| Catalogue.FilterNormalised | source_of_truth.py:156-165 | the loop keeps exactly the admitted categories, in order |
| Catalogue.FilterByState | source_of_truth.py:153-165 | categories outside approvals and land are always kept; approvals and land are kept exactly when the normalised state is present and equals their state; the output is an order-preserving subsequence |
| Catalogue.BySlug | source_of_truth.py:167-168 | every slug is a key, and each key maps to a category in the catalogue carrying that slug |
| Catalogue.BySlugLastWins | source_of_truth.py:167-168 | a repeated slug maps to its last category |
| Catalogue.NamesForFuzzy | source_of_truth.py:170-174 | exactly the lower-cased display name, the lower-cased slug with spaces for underscores, and the synonyms, as a set |
| Catalogue.FuzzyNamesAreLowerCase | source_of_truth.py:170-174 | for a loaded category every fuzzy-match name is lower-case |
| LegacyCatalogue.LegacyNormState | rishabh_code/uploads_logic/source_of_truth.py:38 | absent or empty becomes none; anything else is upper-cased |
| LegacyCatalogue.LegacyAgreesOnCodes | rishabh_code/uploads_logic/source_of_truth.py:38 | on a two-letter code in any case, the old and new normalisations agree |
| LegacyCatalogue.LegacyDiffersOnNames | rishabh_code/uploads_logic/source_of_truth.py:38 | on a full name ("telangana") they differ: "TELANGANA" against "TS" |
| LegacyCatalogue.FilterByState | rishabh_code/uploads_logic/source_of_truth.py:36-48 | other categories are always kept; approvals and land are kept exactly when the upper-cased state is present and equals theirs; order is preserved |
| LegacyCatalogue.NoStateDropsStateSpecific | rishabh_code/uploads_logic/source_of_truth.py:38-45 | with no state or an empty one, no approvals or land category survives |
| LegacyCatalogue.MapLegacyRecord | rishabh_code/uploads_logic/source_of_truth.py:24-33 | a non-record or a record without a slug fails; a success carries the stored slug, display, top entity, state and organisation unchanged |
| LegacyCatalogue.LegacyMatchesListShape | rishabh_code/uploads_logic/source_of_truth.py:18-34 | a record whose state is absent or a code, and whose organisation is not empty, loads the same as under the newer list-shape mapping |
| LegacyCatalogue.LoadSot | rishabh_code/uploads_logic/source_of_truth.py:18-34 | every element of the top level is mapped in order; the first failing one aborts the load |
| EntityRoles.ReplaceOthers | entity_role_infer.py:17 | the result uses only A–Z, digits, "&" and spaces |
| EntityRoles.CollapseShape | entity_role_infer.py:18 | collapsing whitespace leaves no two adjacent spaces and adds no other character |
| EntityRoles.TidyShape | entity_role_infer.py:17-18 | the last steps of `norm_name` give a well-formed name |
| EntityRoles.NormName | entity_role_infer.py:13-19 | defined as upper-casing, removing the legal suffixes, replacing other characters by spaces and collapsing and stripping spaces; `NormNameShape` states the shape of the result |
| EntityRoles.NormNameShape | entity_role_infer.py:13-19 | a normalised name uses only A–Z, digits, "&" and single spaces, with no space at either end |
| EntityRoles.ExtractFacts | entity_role_infer.py:22-34 | the found identifiers are kept; a PAN is derived as gstin[2:12] only when no PAN was found and the GSTIN has at least 12 characters; a name key exists exactly when a name does |
| EntityRoles.FirstKey | entity_role_infer.py:37-40 | none exactly when no identifier is filled; otherwise "k:v" for the first filled one |
| EntityRoles.EntityKey | entity_role_infer.py:36-40 | defined as the first filled identifier in the order PAN, GSTIN, LLPIN, CIN, name; `FirstKey` and `KeyPriority` state the priority |
| EntityRoles.KeyPriority | entity_role_infer.py:36-40 | a filled PAN decides the key; without one a filled GSTIN does; no key exactly when all five are unfilled |
| EntityRoles.GstinGivesPanKey | entity_role_infer.py:30-40 | with a GSTIN of at least 12 characters found, and any PAN found non-empty, the key is a PAN key |
| EntityRoles.FeatureFromSlug | entity_role_infer.py:46-60 | a reported feature is shown by the slug; a slug containing "directors" never yields the entity bank-statement feature |
| EntityRoles.FeatureFromSlugIsFirst | entity_role_infer.py:46-60 | the feature reported is the first in test order that the slug shows; none means it shows none |
| EntityRoles.OrgVariant | entity_role_infer.py:62-67 | always llp, partnership or company; llp exactly with LLP markers; partnership exactly with partnership markers and no LLP markers |
| EntityRoles.LlpAgreementWins | entity_role_infer.py:62-64 | one LLP-agreement slug makes the entity an LLP |
| EntityRoles.PartnershipUnlessLlp | entity_role_infer.py:62-65 | without LLP markers, one partnership slug makes it a partnership |
| EntityRoles.DevSplit | entity_role_infer.py:70-73 | the loop's developer sum is twice the strong counts plus the common counts |
| EntityRoles.ScoreRole | entity_role_infer.py:69-75 | defined as the (dev, group) sums over the feature counts; `ScoreRoleSplit` and `ScoreRoleAdd` state how they relate and grow |
| EntityRoles.ScoreRoleSplit | entity_role_infer.py:69-75 | dev = 2·(strong counts) + group, so 0 ≤ group ≤ dev |
| EntityRoles.ScoreRoleAdd | entity_role_infer.py:69-75 | one more document of a kind raises dev by 2 if strong and 1 if common, and group by 1 exactly if common |
| EntityRoles.StrongSumAdd | entity_role_infer.py:72 | one more feature raises the strong sum by one exactly when it is strong |
| EntityRoles.GroupSumAdd | entity_role_infer.py:74 | one more feature raises the group sum by one exactly when it is common |
| EntityRoles.DocInfoOf | entity_role_infer.py:83-88 | a document's key comes from the facts of its first three chunks joined by newlines; its slug is the stored slug lower-cased, or empty |
| EntityRoles.KeysInOrder | entity_role_infer.py:91-98 | the keys in order of first appearance, each once, exactly those some document carries |
| EntityRoles.ClusterRows | entity_role_infer.py:92-97 | a cluster holds exactly the rows of the documents with its key, with one slug per row |
| EntityRoles.ClusterOfAbsent | entity_role_infer.py:93-95 | a key no document carries has the empty cluster |
| EntityRoles.ClusterOfStep | entity_role_infer.py:92-98 | one more document changes only the cluster of its own key, appending its row, its slug and its feature |
| EntityRoles.SkipDocument | entity_role_infer.py:93-94 | a document without a key changes no cluster and records no key |
| EntityRoles.JoinDocument | entity_role_infer.py:95-98 | a keyed document's row, slug and feature are appended to its key's cluster, which is created empty, with its key recorded, on first sight |
| EntityRoles.ClusterByKey | entity_role_infer.py:91-98 | the loop builds a cluster for exactly the keys seen, in first-seen order, each equal to its specification |
| EntityRoles.Entries | entity_role_infer.py:105-109 | one scored cluster per key, in key order |
| EntityRoles.ScoreClusters | entity_role_infer.py:105-109 | the scoring loop yields exactly those entries |
| EntityRoles.Ranked | entity_role_infer.py:110 | the clusters sorted by (dev, group), highest first: a permutation of the entries in which clusters with equal scores keep their order of first appearance |
| EntityRoles.RankedFromKeys | entity_role_infer.py:105-110 | each ranked entry is the scored cluster of one of the keys |
| EntityRoles.RankedKeysDistinct | entity_role_infer.py:105-110 | no key is ranked twice |
| EntityRoles.KeyRanked | entity_role_infer.py:105-110 | every key's scored cluster is ranked |
| EntityRoles.FirstTop | entity_role_infer.py:110 | the position of the first entry whose score pair is the highest: no entry scores above it and every earlier entry scores strictly below it |
| EntityRoles.DeveloperIsFirstTop | entity_role_infer.py:105-117 | the developer is the first key, in order of first appearance, whose cluster has the highest (dev, group) pair |
| EntityRoles.RolesByRank | entity_role_infer.py:110-117 | the first ranked cluster is the developer, the second the group, the rest other; a lone cluster is the developer and no cluster is the group; the developer's score pair is the highest |
| EntityRoles.RowUpdates | entity_role_infer.py:118-127 | one update per document of a cluster, in order |
| EntityRoles.AllUpdatesMembers | entity_role_infer.py:116-127 | an update is written exactly when it is the update of some document of some ranked cluster under that cluster's role and variant |
| EntityRoles.AssignRoles | entity_role_infer.py:116-127 | the write-back loop emits exactly those updates, cluster by cluster |
| EntityRoles.RunSpec | entity_role_infer.py:91-127 | defined as nothing to assign without ranked clusters, otherwise the updates of every ranked cluster under its role; `NothingWithoutKeys`, `KeyedDocumentsUpdated` and `UpdatesAreForKeyedDocuments` state what it writes |
| EntityRoles.Run | entity_role_infer.py:91-127 | clustering, scoring, ranking and assignment produce exactly `RunSpec` |
| EntityRoles.NothingWithoutKeys | entity_role_infer.py:93-102 | nothing is written exactly when no document has a key |
| EntityRoles.KeyedDocumentsUpdated | entity_role_infer.py:116-127 | every document with a key is written back with its cluster's role and variant, its own slug, state and confidence, and its status or "unassigned" |
| EntityRoles.UpdatesAreForKeyedDocuments | entity_role_infer.py:92-127 | every update written belongs to a document with a key and carries its cluster's role and variant |

## Left out

- Regular expressions: every pattern (`PAN_RX`, `GSTIN_RX`, `NAME_RX`, the text-rule detectors) is an uninterpreted `matches` or `search` function passed in. The PAN, GSTIN, CIN and LLPIN shapes are not checked.
- Fuzzy matching: rapidfuzz's `token_set_ratio`, `partial_ratio` and `QRatio` are a `FuzzMetrics` record passed in. Their [0,100] range is the hypothesis `Bounded`, not a fact.
- Vector arithmetic: numpy's float32 conversion, `np.linalg.norm` and floating-point rounding are not modelled. The norm is a parameter, and vectors are sequences of reals.
- Signals.DocVectorMean: requires the collected vectors to have one length, and the resolver requires each category vector to match the document vector's length. Numpy raises on ragged or mismatched input, and the model does not represent those failures.
- `get_embedder` and `build_category_vectors` (a lazily loaded sentence-transformers model): category vectors are an input map, possibly empty.
- Storage and I/O: `get_documents`, `get_chunks`, `update_match` and `filename_counts`, JSON file reading, environment variables, `argparse` and all console output. Chunks and documents are inputs, and `run` returns its updates instead of writing them.
- EntityRoles.Run: the `apply` and `state` arguments of `run` are not modelled. The updates are always returned.
- The per-cluster facts stored by `run` are never read, and the model drops them.
- `round(..., 3)` and `round(..., 2)` in the returned record: scores are exact reals.
- Text: characters are ASCII. `lower`, `upper`, `strip` and `isdigit` are not modelled for other Unicode characters.
- Resolver.Rank and EntityRoles.Ranked: the in-place `list.sort` is a function on values. Its stability and ordering are proved, but not its in-place update.
- Resolver.Preview: `topk_show` is a natural number. Python's slicing with a negative count is not modelled.
- Resolver.CategorizeDocument: the source fails with an index error when no category survives the filter. The model returns `Err(NoCandidates)` instead.
- Catalogue.LoadSot and LegacyCatalogue.LoadSot: they start from the parsed JSON value. A mistyped field gives a load error where Python would store the value of the wrong type or fail later. A JSON object under `keywords`, `synonyms` or `org_types` is rejected as `NotAList`, whereas Python iterates over its keys; the model's objects are unordered maps, so that key order cannot be reproduced.

=== FILE: catalogue.dfy ===
/** The category catalogue ("source of truth"): the category record, loading
    it from parsed configuration in either of its two shapes, the
    jurisdiction filter and the lookup helpers. */
module Catalogue {
  import opened Common

  /** One document category. A field the configuration leaves out of the
      keyword or synonym list is the empty list. */
  datatype Category = Category(
    slug: string,
    display: string,
    topEntity: string,
    stateVariant: Option<string>,
    orgVariant: Option<string>,
    keywords: seq<string>,
    synonyms: seq<string>,
    prototype: Option<string>)

  /** A parsed JSON value. */
  datatype Json =
    | JNull
    | JBool(b: bool)
    | JNum(n: real)
    | JStr(s: string)
    | JArr(items: seq<Json>)
    | JObj(fields: map<string, Json>)

  /** Python truthiness of a parsed JSON value. */
  predicate Truthy(j: Json) {
    match j
    case JNull => false
    case JBool(b) => b
    case JNum(n) => n != 0.0
    case JStr(s) => s != []
    case JArr(xs) => xs != []
    case JObj(m) => m != map[]
  }

  /** Why loading fails: the source's ValueError for an unknown top level, and
      the KeyError, TypeError or AttributeError the record mapping raises. */
  datatype LoadError =
    | UnrecognizedShape
    | NotIterable
    | NotARecord
    | MissingKey(key: string)
    | NotAString(key: string)
    | NotAList(key: string)

  // ---------------------------------------------------------------------
  // Field helpers

  const StateCodes: map<string, string> :=
    map["TELANGANA" := "TS", "TS" := "TS", "KARNATAKA" := "KA", "KA" := "KA"]

  /** `_norm_state`: a known jurisdiction name or code, ignoring case and
      surrounding blanks, becomes its two-letter code; anything else is
      returned as it came. */
  function NormState(v: Option<string>): (r: Option<string>)
    ensures v.None? ==> r.None?
    ensures v.Some? && Upper(Strip(v.value)) in {"TELANGANA", "TS"} ==> r == Some("TS")
    ensures v.Some? && Upper(Strip(v.value)) in {"KARNATAKA", "KA"} ==> r == Some("KA")
    ensures v.Some? && Upper(Strip(v.value)) !in {"TELANGANA", "TS", "KARNATAKA", "KA"} ==> r == v
  {
    if v.None? then None
    else
      var s := Upper(Strip(v.value));
      if s in StateCodes then Some(StateCodes[s]) else v
  }

  /** A two-letter code normalises to itself. */
  lemma CodeIsFixed(c: string)
    requires c == "TS" || c == "KA"
    ensures NormState(Some(c)) == Some(c)
  {
    StripUnpadded(c);
  }

  /** Absent stays absent; a present state is either mapped to a code or kept
      unchanged, and normalising twice changes nothing more. */
  lemma NormStateFacts(v: Option<string>)
    ensures NormState(v).None? <==> v.None?
    ensures NormState(v) == v || NormState(v) == Some("TS") || NormState(v) == Some("KA")
    ensures NormState(NormState(v)) == NormState(v)
  {
    if v.Some? {
      var s := Upper(Strip(v.value));
      if s in StateCodes {
        assert StateCodes[s] == "TS" || StateCodes[s] == "KA";
        CodeIsFixed(StateCodes[s]);
      }
    }
  }

  /** A full state name in any case maps to its code. */
  lemma NormStateFullName(t: string)
    requires t == "Karnataka"
    ensures NormState(Some(t)) == Some("KA")
  {
    StripUnpadded(t);
    assert Upper(t) == "KARNATAKA" by {
      var u := Upper(t);
      assert u[0] == 'K' && u[1] == 'A' && u[2] == 'R' && u[3] == 'N' && u[4] == 'A';
      assert u[5] == 'T' && u[6] == 'A' && u[7] == 'K' && u[8] == 'A';
    }
  }

  /** An unknown jurisdiction is returned exactly as given, not upper-cased. */
  lemma NormStateUnknown(a: string)
    requires a == "ap"
    ensures NormState(Some(a)) == Some(a)
  {
    StripUnpadded(a);
    var u := Upper(a);
    assert u[0] == 'A' && u[1] == 'P';
    assert u !in StateCodes;
  }

  /** The non-empty entries of an organisation-type list, lower-cased. */
  function PresentLowered(xs: seq<Option<string>>): (r: seq<string>)
    ensures forall i :: 0 <= i < |r| ==> r[i] != []
    ensures forall o :: o in r <==> exists x :: x in xs && x.Some? && x.value != [] && o == Lower(x.value)
  {
    if xs == [] then []
    else if xs[0].Some? && xs[0].value != [] then [Lower(xs[0].value)] + PresentLowered(xs[1..])
    else PresentLowered(xs[1..])
  }

  /** `list(dict.fromkeys(xs))`: the distinct values. Their order (that of
      first occurrence) is not stated, as only their number is used. */
  function Dedup(xs: seq<string>): (r: seq<string>)
    ensures forall o :: o in r <==> o in xs
    ensures forall i, j :: 0 <= i < j < |r| ==> r[i] != r[j]
  {
    if xs == [] then []
    else
      var rest := Dedup(xs[..|xs| - 1]);
      if xs[|xs| - 1] in rest then rest else rest + [xs[|xs| - 1]]
  }

  /** An organisation-type entry `_first_org` keeps: present and non-empty. */
  predicate PresentOrg(x: Option<string>) { x.Some? && x.value != [] }

  /** `_first_org`: the organisation type when exactly one distinct non-empty
      value is listed, lower-cased; nothing when none or several are. */
  function FirstOrg(orgTypes: Option<seq<Option<string>>>): (r: Option<string>)
    ensures r.Some? ==> orgTypes.Some? && forall x :: x in orgTypes.value && PresentOrg(x) ==> Lower(x.value) == r.value
  {
    if orgTypes.None? || orgTypes.value == [] then None
    else
      var uniq := Dedup(PresentLowered(orgTypes.value));
      if |uniq| == 1 then
        assert forall x :: x in orgTypes.value && PresentOrg(x) ==> Lower(x.value) in uniq;
        Some(uniq[0])
      else None
  }

  /** `_first_org` yields a value exactly when some entry is present and all
      present entries agree once lower-cased. */
  lemma FirstOrgSingle(orgTypes: Option<seq<Option<string>>>)
    ensures FirstOrg(orgTypes).Some? <==>
      orgTypes.Some? && (exists x :: x in orgTypes.value && PresentOrg(x))
      && forall x, y :: x in orgTypes.value && y in orgTypes.value && PresentOrg(x) && PresentOrg(y) ==> Lower(x.value) == Lower(y.value)
  {
    if orgTypes.Some? && orgTypes.value != [] {
      var xs := orgTypes.value;
      var uniq := Dedup(PresentLowered(xs));
      if |uniq| == 0 {
        assert forall x :: x in xs && PresentOrg(x) ==> Lower(x.value) in uniq;
      } else if |uniq| >= 2 {
        assert uniq[0] != uniq[1];
        assert uniq[0] in PresentLowered(xs) && uniq[1] in PresentLowered(xs);
        var x :| x in xs && x.Some? && x.value != [] && uniq[0] == Lower(x.value);
        var y :| y in xs && y.Some? && y.value != [] && uniq[1] == Lower(y.value);
        assert PresentOrg(x) && PresentOrg(y);
      } else {
        assert uniq[0] in PresentLowered(xs);
        var x :| x in xs && x.Some? && x.value != [] && uniq[0] == Lower(x.value);
        assert PresentOrg(x);
      }
    }
  }

  // ---------------------------------------------------------------------
  // Loading

  /** `d.get(key)`: an absent key reads as null. */
  function Get(d: map<string, Json>, key: string): Json {
    if key in d then d[key] else JNull
  }

  /** `d[key]` for a field that must be present and a string. */
  function Required(d: map<string, Json>, key: string): Result<string, LoadError> {
    if key !in d then Err(MissingKey(key))
    else if d[key].JStr? then Ok(d[key].s)
    else Err(NotAString(key))
  }

  /** `d.get(k1) or d.get(k2) or fallback`, where the chosen value must be a
      string. */
  function FirstTruthy(d: map<string, Json>, k1: string, k2: string, fallback: string): (r: Result<string, LoadError>)
    ensures Truthy(Get(d, k1)) && Get(d, k1).JStr? ==> r == Ok(Get(d, k1).s)
    ensures !Truthy(Get(d, k1)) && Truthy(Get(d, k2)) && Get(d, k2).JStr? ==> r == Ok(Get(d, k2).s)
    ensures !Truthy(Get(d, k1)) && !Truthy(Get(d, k2)) ==> r == Ok(fallback)
  {
    if Truthy(Get(d, k1)) then (if Get(d, k1).JStr? then Ok(Get(d, k1).s) else Err(NotAString(k1)))
    else if Truthy(Get(d, k2)) then (if Get(d, k2).JStr? then Ok(Get(d, k2).s) else Err(NotAString(k2)))
    else Ok(fallback)
  }

  /** `d.get(key)` for an optional string field: absent and null read as none. */
  function OptionalString(d: map<string, Json>, key: string): Result<Option<string>, LoadError> {
    match Get(d, key)
    case JNull => Ok(None)
    case JStr(s) => Ok(Some(s))
    case _ => Err(NotAString(key))
  }

  /** `d.get(key) or None`: every falsy value reads as none. */
  function TruthyString(d: map<string, Json>, key: string): Result<Option<string>, LoadError> {
    if !Truthy(Get(d, key)) then Ok(None)
    else if Get(d, key).JStr? then Ok(Some(Get(d, key).s))
    else Err(NotAString(key))
  }

  /** The one-character strings Python yields when it iterates over `s`. */
  function Chars(s: string): (r: seq<string>)
    ensures |r| == |s|
    ensures forall i :: 0 <= i < |s| ==> r[i] == [s[i]]
  {
    if s == [] then [] else [[s[0]]] + Chars(s[1..])
  }

  function LowerAll(xs: seq<string>): (r: seq<string>)
    ensures |r| == |xs|
    ensures forall i :: 0 <= i < |xs| ==> r[i] == Lower(xs[i])
  {
    if xs == [] then [] else [Lower(xs[0])] + LowerAll(xs[1..])
  }

  function StringItems(xs: seq<Json>, key: string): (r: Result<seq<string>, LoadError>)
    ensures r.Ok? ==> |r.value| == |xs| && forall i :: 0 <= i < |xs| ==> xs[i] == JStr(r.value[i])
  {
    if xs == [] then Ok([])
    else if !xs[0].JStr? then Err(NotAString(key))
    else
      var rest :- StringItems(xs[1..], key);
      Ok([xs[0].s] + rest)
  }

  /** `[k.lower() for k in d.get(key, [])]`. A string is iterated character
      by character, as Python does. */
  function LoweredList(d: map<string, Json>, key: string): (r: Result<seq<string>, LoadError>)
    ensures key !in d ==> r == Ok([])
  {
    if key !in d then Ok([])
    else match d[key]
      case JArr(xs) =>
        var items :- StringItems(xs, key);
        Ok(LowerAll(items))
      case JStr(s) => Ok(LowerAll(Chars(s)))
      case _ => Err(NotAList(key))
  }

  /** `d.get("prototype", "")`: absent reads as empty text, null as none. */
  function Prototype(d: map<string, Json>): Result<Option<string>, LoadError> {
    if "prototype" !in d then Ok(Some(""))
    else OptionalString(d, "prototype")
  }

  /** The organisation-type list `_first_org` receives, with every falsy entry
      read as none; a truthy entry that is not a string has no `lower`. */
  function OrgTypes(d: map<string, Json>): Result<Option<seq<Option<string>>>, LoadError> {
    var j := Get(d, "org_types");
    if !Truthy(j) then Ok(None)
    else match j
      case JArr(xs) =>
        var entries :- OrgEntries(xs);
        Ok(Some(entries))
      case JStr(s) => Ok(Some(SomeAll(Chars(s))))
      case _ => Err(NotAList("org_types"))
  }

  function OrgEntries(xs: seq<Json>): Result<seq<Option<string>>, LoadError> {
    if xs == [] then Ok([])
    else
      var first :- if !Truthy(xs[0]) then Ok(None)
                   else if xs[0].JStr? then Ok(Some(xs[0].s))
                   else Err(NotAString("org_types"));
      var rest :- OrgEntries(xs[1..]);
      Ok([first] + rest)
  }

  function SomeAll(xs: seq<string>): seq<Option<string>> {
    if xs == [] then [] else [Some(xs[0])] + SomeAll(xs[1..])
  }

  /** The field mapping of the dictionary-with-"categories" shape. */
  function MapNewRecord(d: map<string, Json>): (r: Result<Category, LoadError>)
    ensures "slug" !in d ==> r == Err(MissingKey("slug"))
    ensures r.Ok? ==> Get(d, "slug") == JStr(r.value.slug)
                      && OptionalString(d, "state").Ok?
                      && r.value.stateVariant == NormState(OptionalString(d, "state").value)
                      && OrgTypes(d).Ok? && r.value.orgVariant == FirstOrg(OrgTypes(d).value)
                      && LoweredList(d, "keywords") == Ok(r.value.keywords)
                      && LoweredList(d, "synonyms") == Ok(r.value.synonyms)
    ensures r.Ok? && Truthy(Get(d, "entity_type")) ==>
              Get(d, "entity_type").JStr? && r.value.topEntity == Get(d, "entity_type").s
    ensures r.Ok? && !Truthy(Get(d, "entity_type")) && Truthy(Get(d, "top_entity")) ==>
              Get(d, "top_entity").JStr? && r.value.topEntity == Get(d, "top_entity").s
    ensures r.Ok? && !Truthy(Get(d, "entity_type")) && !Truthy(Get(d, "top_entity")) ==> r.value.topEntity == ""
  {
    var slug :- Required(d, "slug");
    var display :- FirstTruthy(d, "name", "display", slug);
    var topEntity :- FirstTruthy(d, "entity_type", "top_entity", "");
    var state :- OptionalString(d, "state");
    var orgTypes :- OrgTypes(d);
    var keywords :- LoweredList(d, "keywords");
    var synonyms :- LoweredList(d, "synonyms");
    var prototype :- Prototype(d);
    Ok(Category(slug, display, topEntity, NormState(state), FirstOrg(orgTypes), keywords, synonyms, prototype))
  }

  /** The field mapping of the list shape. */
  function MapListRecord(d: map<string, Json>): (r: Result<Category, LoadError>)
    ensures "slug" !in d ==> r == Err(MissingKey("slug"))
    ensures r.Ok? ==> Get(d, "slug") == JStr(r.value.slug) && Get(d, "display") == JStr(r.value.display)
                      && Get(d, "top_entity") == JStr(r.value.topEntity)
                      && OptionalString(d, "state_variant").Ok?
                      && r.value.stateVariant == NormState(OptionalString(d, "state_variant").value)
                      && (Truthy(Get(d, "org_variant")) ==>
                            Get(d, "org_variant").JStr? && r.value.orgVariant == Some(Get(d, "org_variant").s))
                      && (!Truthy(Get(d, "org_variant")) ==> r.value.orgVariant == None)
                      && LoweredList(d, "keywords") == Ok(r.value.keywords)
                      && LoweredList(d, "synonyms") == Ok(r.value.synonyms)
  {
    var slug :- Required(d, "slug");
    var display :- Required(d, "display");
    var topEntity :- Required(d, "top_entity");
    var state :- OptionalString(d, "state_variant");
    var org :- TruthyString(d, "org_variant");
    var keywords :- LoweredList(d, "keywords");
    var synonyms :- LoweredList(d, "synonyms");
    var prototype :- Prototype(d);
    Ok(Category(slug, display, topEntity, NormState(state), org, keywords, synonyms, prototype))
  }

  function MapRecord(item: Json, newShape: bool): Result<Category, LoadError> {
    if !item.JObj? then Err(NotARecord)
    else if newShape then MapNewRecord(item.fields)
    else MapListRecord(item.fields)
  }

  /** What `for d in value` walks over. An empty string or mapping yields
      nothing; a non-empty one yields strings, which are not records. */
  function Iterate(j: Json): Result<seq<Json>, LoadError> {
    match j
    case JArr(xs) => Ok(xs)
    case JStr(s) => if s == [] then Ok([]) else Err(NotARecord)
    case JObj(m) => if m == map[] then Ok([]) else Err(NotARecord)
    case _ => Err(NotIterable)
  }

  /** The accepted top levels: a mapping with "categories" (new shape) or a
      list (old shape). Anything else is rejected before any record is read. */
  function Shape(raw: Json): (r: Result<(seq<Json>, bool), LoadError>)
    ensures !(raw.JObj? && "categories" in raw.fields) && !raw.JArr? ==> r == Err(UnrecognizedShape)
    ensures raw.JArr? ==> r == Ok((raw.items, false))
  {
    if raw.JObj? && "categories" in raw.fields then
      var items :- Iterate(raw.fields["categories"]);
      Ok((items, true))
    else if raw.JArr? then Ok((raw.items, false))
    else Err(UnrecognizedShape)
  }

  /** `load_sot` after the file is parsed: the whole catalogue, or the first
      error met. */
  method LoadSot(raw: Json) returns (r: Result<seq<Category>, LoadError>)
    ensures Shape(raw).Err? ==> r == Err(Shape(raw).error)
    ensures r.Ok? ==> Shape(raw).Ok?
    ensures r.Ok? ==> var (items, newShape) := Shape(raw).value;
      |r.value| == |items| && forall i :: 0 <= i < |items| ==> MapRecord(items[i], newShape) == Ok(r.value[i])
    ensures Shape(raw).Ok? && r.Err? ==> var (items, newShape) := Shape(raw).value;
      exists i :: 0 <= i < |items| && MapRecord(items[i], newShape) == Err(r.error)
        && forall j :: 0 <= j < i ==> MapRecord(items[j], newShape).Ok?
  {
    var shape := Shape(raw);
    if shape.Err? {
      return Err(shape.error);
    }
    var (items, newShape) := shape.value;
    var cats: seq<Category> := [];
    for i := 0 to |items|
      invariant |cats| == i
      invariant forall k :: 0 <= k < i ==> MapRecord(items[k], newShape) == Ok(cats[k])
    {
      var c := MapRecord(items[i], newShape);
      if c.Err? {
        return Err(c.error);
      }
      cats := cats + [c.value];
    }
    return Ok(cats);
  }

  lemma LowerIdempotent(s: string)
    ensures Lower(Lower(s)) == Lower(s)
  {
  }

  lemma {:induction false} LoweredListIsLower(d: map<string, Json>, key: string)
    requires LoweredList(d, key).Ok?
    ensures forall k :: k in LoweredList(d, key).value ==> Lower(k) == k
  {
    forall k | k in LoweredList(d, key).value ensures Lower(k) == k {
      var i :| 0 <= i < |LoweredList(d, key).value| && LoweredList(d, key).value[i] == k;
      if d[key].JArr? {
        var items := StringItems(d[key].items, key).value;
        LowerIdempotent(items[i]);
      } else {
        LowerIdempotent(Chars(d[key].s)[i]);
      }
    }
  }

  /** Keywords and synonyms come out lower-cased from either shape. */
  lemma LoadedWordsAreLowerCase(item: Json, newShape: bool)
    requires MapRecord(item, newShape).Ok?
    ensures forall k :: k in MapRecord(item, newShape).value.keywords ==> Lower(k) == k
    ensures forall k :: k in MapRecord(item, newShape).value.synonyms ==> Lower(k) == k
  {
    LoweredListIsLower(item.fields, "keywords");
    LoweredListIsLower(item.fields, "synonyms");
  }

  /** In the new shape the display name is `name`, else `display`, else the
      slug, whichever is the first to be a non-empty string. */
  lemma NewShapeDisplay(d: map<string, Json>)
    requires MapNewRecord(d).Ok?
    ensures Truthy(Get(d, "name")) ==> MapNewRecord(d).value.display == Get(d, "name").s
    ensures !Truthy(Get(d, "name")) && Truthy(Get(d, "display")) ==> MapNewRecord(d).value.display == Get(d, "display").s
    ensures !Truthy(Get(d, "name")) && !Truthy(Get(d, "display")) ==> MapNewRecord(d).value.display == d["slug"].s
  {
  }

  // ---------------------------------------------------------------------
  // Jurisdiction filter

  /** Approvals and land documents differ by jurisdiction. */
  predicate IsStateSpecific(c: Category) {
    c.topEntity == "project_approvals_documents" || c.topEntity == "project_land_documents"
  }

  /** Whether the filter keeps `c` for the already-normalised state `st`. */
  predicate Keeps(c: Category, st: Option<string>) {
    !IsStateSpecific(c) || (st.Some? && c.stateVariant == st)
  }

  /** The categories `Keeps` admits, in catalogue order. */
  function Kept(cats: seq<Category>, st: Option<string>): seq<Category> {
    if cats == [] then []
    else
      var last := cats[|cats| - 1];
      Kept(cats[..|cats| - 1], st) + (if Keeps(last, st) then [last] else [])
  }

  /** `a` is `b` with some elements left out and the rest in order. */
  predicate IsSubsequence<T(==)>(a: seq<T>, b: seq<T>) {
    if b == [] then a == []
    else (a != [] && a[|a| - 1] == b[|b| - 1] && IsSubsequence(a[..|a| - 1], b[..|b| - 1]))
         || IsSubsequence(a, b[..|b| - 1])
  }

  lemma {:induction false} KeptIsSubsequence(cats: seq<Category>, st: Option<string>)
    ensures IsSubsequence(Kept(cats, st), cats)
  {
    if cats != [] {
      var p := cats[..|cats| - 1];
      KeptIsSubsequence(p, st);
      var k := Kept(cats, st);
      if Keeps(cats[|cats| - 1], st) {
        assert k == Kept(p, st) + [cats[|cats| - 1]];
        assert k[..|k| - 1] == Kept(p, st);
        assert k[|k| - 1] == cats[|cats| - 1];
      } else {
        assert k == Kept(p, st);
      }
    }
  }

  /** The filter keeps exactly the admitted categories. */
  lemma {:induction false} KeptMembers(cats: seq<Category>, st: Option<string>)
    ensures forall c :: c in Kept(cats, st) <==> c in cats && Keeps(c, st)
  {
    if cats != [] {
      var p := cats[..|cats| - 1];
      KeptMembers(p, st);
      assert cats == p + [cats[|cats| - 1]];
    }
  }

  /** The loop both versions of `filter_by_state` run once the state is
      normalised. */
  method FilterNormalised(cats: seq<Category>, st: Option<string>) returns (out: seq<Category>)
    ensures out == Kept(cats, st)
  {
    out := [];
    for i := 0 to |cats|
      invariant out == Kept(cats[..i], st)
    {
      var c := cats[i];
      assert cats[..i + 1][..i] == cats[..i];
      if IsStateSpecific(c) {
        if st.None? {
          continue;
        }
        if c.stateVariant == st {
          out := out + [c];
        }
      } else {
        out := out + [c];
      }
    }
    assert cats[..|cats|] == cats;
  }

  /** `filter_by_state`: categories that do not depend on the jurisdiction are
      always kept; approvals and land categories are kept when their recorded
      jurisdiction equals the normalised requested one. */
  method FilterByState(cats: seq<Category>, state: Option<string>) returns (out: seq<Category>)
    ensures out == Kept(cats, NormState(state))
    ensures IsSubsequence(out, cats)
    ensures forall c :: c in cats && !IsStateSpecific(c) ==> c in out
    ensures forall c :: c in cats && IsStateSpecific(c) ==>
              (c in out <==> NormState(state).Some? && c.stateVariant == NormState(state))
  {
    out := FilterNormalised(cats, NormState(state));
    KeptIsSubsequence(cats, NormState(state));
    KeptMembers(cats, NormState(state));
  }

  // ---------------------------------------------------------------------
  // Lookups

  /** `by_slug`: a map from every slug in the catalogue to a category
      carrying it. */
  function BySlug(cats: seq<Category>): (m: map<string, Category>)
    ensures forall c :: c in cats ==> c.slug in m
    ensures forall s :: s in m ==> m[s] in cats && m[s].slug == s
  {
    if cats == [] then map[]
    else
      var last := cats[|cats| - 1];
      assert cats == cats[..|cats| - 1] + [last];
      BySlug(cats[..|cats| - 1])[last.slug := last]
  }

  /** When a slug repeats, the last category carrying it wins. */
  lemma {:induction false} BySlugLastWins(cats: seq<Category>, i: nat)
    requires i < |cats|
    requires forall j :: i < j < |cats| ==> cats[j].slug != cats[i].slug
    ensures BySlug(cats)[cats[i].slug] == cats[i]
  {
    if i < |cats| - 1 {
      BySlugLastWins(cats[..|cats| - 1], i);
    }
  }

  /** `names_for_fuzzy`: the lower-cased display name, the lower-cased slug
      with underscores as spaces, and the synonyms as stored. */
  function NamesForFuzzy(c: Category): (names: set<string>)
    ensures Lower(c.display) in names
    ensures Lower(ReplaceChar(c.slug, '_', ' ')) in names
    ensures forall s :: s in c.synonyms ==> s in names
    ensures forall n :: n in names ==> n == Lower(c.display) || n == Lower(ReplaceChar(c.slug, '_', ' ')) || n in c.synonyms
  {
    {Lower(c.display), Lower(ReplaceChar(c.slug, '_', ' '))} + set s | s in c.synonyms
  }

  /** For a loaded category every fuzzy-match name is lower-case. */
  lemma FuzzyNamesAreLowerCase(item: Json, newShape: bool)
    requires MapRecord(item, newShape).Ok?
    ensures forall n :: n in NamesForFuzzy(MapRecord(item, newShape).value) ==> Lower(n) == n
  {
    var c := MapRecord(item, newShape).value;
    LoadedWordsAreLowerCase(item, newShape);
    LowerIdempotent(c.display);
    LowerIdempotent(ReplaceChar(c.slug, '_', ' '));
  }
}

=== FILE: common.dfy ===
/** Values and string helpers shared by every part of the categoriser model.
    Strings are sequences of characters; case mapping, whitespace and digit
    tests cover the ASCII range only. */
module Common {

  datatype Option<+T> = None | Some(value: T)

  /** A value or the error the source raises instead of returning one. */
  datatype Result<+T, +E> = Ok(value: T) | Err(error: E) {
    predicate IsFailure() { Err? }
    function PropagateFailure<U>(): Result<U, E> requires Err? { Err(error) }
    function Extract(): T requires Ok? { value }
  }

  /** The character Python's `str.lower` yields for an ASCII character. */
  function LowerChar(c: char): char {
    if 'A' <= c <= 'Z' then (c as int + 32) as char else c
  }

  /** The character Python's `str.upper` yields for an ASCII character. */
  function UpperChar(c: char): char {
    if 'a' <= c <= 'z' then (c as int - 32) as char else c
  }

  function Lower(s: string): (r: string)
    ensures |r| == |s|
    ensures forall i :: 0 <= i < |s| ==> r[i] == LowerChar(s[i])
  {
    if s == [] then [] else [LowerChar(s[0])] + Lower(s[1..])
  }

  lemma LowerWithoutCapitals(s: string)
    requires forall i :: 0 <= i < |s| ==> !('A' <= s[i] <= 'Z')
    ensures Lower(s) == s
  {
  }

  function Upper(s: string): (r: string)
    ensures |r| == |s|
    ensures forall i :: 0 <= i < |s| ==> r[i] == UpperChar(s[i])
  {
    if s == [] then [] else [UpperChar(s[0])] + Upper(s[1..])
  }

  predicate IsDigit(c: char) { '0' <= c <= '9' }

  predicate IsAsciiLetter(c: char) { 'a' <= c <= 'z' || 'A' <= c <= 'Z' }

  /** The character class `[A-Za-z0-9]`. */
  predicate IsAlnum(c: char) { IsAsciiLetter(c) || IsDigit(c) }

  /** Whitespace as Python's `str.strip` and `\s` see it, restricted to
      ASCII: blank, tab, the line breaks \n \v \f \r and the separators
      \x1c-\x1f. */
  predicate IsSpace(c: char) {
    c == ' ' || c == '\t' || c == '\n' || c == '\r' || c == 11 as char || c == 12 as char
    || (28 as char <= c <= 31 as char)
  }

  predicate StartsWith(s: string, prefix: string) {
    |prefix| <= |s| && s[..|prefix|] == prefix
  }

  predicate EndsWith(s: string, suffix: string) {
    |suffix| <= |s| && s[|s| - |suffix|..] == suffix
  }

  /** Python's `needle in hay` on strings. */
  predicate Contains(hay: string, needle: string) {
    exists i {:trigger OccursAt(hay, needle, i)} | 0 <= i <= |hay| - |needle| :: OccursAt(hay, needle, i)
  }

  /** `needle` occurs in `hay` starting at index `i`. */
  predicate OccursAt(hay: string, needle: string, i: int) {
    0 <= i <= |hay| - |needle| && hay[i..i + |needle|] == needle
  }

  /** Python's `str.strip()`. */
  function Strip(s: string): (r: string)
    ensures |r| <= |s|
    ensures r != [] ==> !IsSpace(r[0]) && !IsSpace(r[|r| - 1])
  {
    StripRight(StripLeft(s))
  }

  function StripLeft(s: string): (r: string)
    ensures |r| <= |s| && r == s[|s| - |r|..]
    ensures r != [] ==> !IsSpace(r[0])
  {
    if s != [] && IsSpace(s[0]) then
      var r := StripLeft(s[1..]);
      assert s[1..][|s[1..]| - |r|..] == s[|s| - |r|..];
      r
    else s
  }

  function StripRight(s: string): (r: string)
    ensures |r| <= |s| && r == s[..|r|]
    ensures r != [] ==> !IsSpace(r[|r| - 1])
  {
    if s != [] && IsSpace(s[|s| - 1]) then StripRight(s[..|s| - 1]) else s
  }

  /** A string with no blank at either end is its own strip. */
  lemma StripUnpadded(s: string)
    requires s != [] ==> !IsSpace(s[0]) && !IsSpace(s[|s| - 1])
    ensures Strip(s) == s
  {
    assert StripLeft(s) == s;
    assert StripRight(s) == s;
  }

  /** Python's `s.replace(pat, repl)` for a non-empty `pat`: left to right,
      non-overlapping. */
  function ReplaceAll(s: string, pat: string, repl: string): string
    requires pat != []
    decreases |s|
  {
    if |s| < |pat| then s
    else if s[..|pat|] == pat then repl + ReplaceAll(s[|pat|..], pat, repl)
    else [s[0]] + ReplaceAll(s[1..], pat, repl)
  }

  /** Python's `s.replace(a, b)` for single characters. */
  function ReplaceChar(s: string, a: char, b: char): (r: string)
    ensures |r| == |s|
    ensures forall i :: 0 <= i < |s| ==> r[i] == if s[i] == a then b else s[i]
  {
    if s == [] then [] else [if s[0] == a then b else s[0]] + ReplaceChar(s[1..], a, b)
  }

  /** Python's `sep.join(parts)`. */
  function Join(sep: string, parts: seq<string>): string {
    if parts == [] then []
    else if |parts| == 1 then parts[0]
    else parts[0] + sep + Join(sep, parts[1..])
  }

  /** Python's `xs[:n]` for a non-negative `n`. */
  function Take<T>(xs: seq<T>, n: nat): (r: seq<T>)
    ensures |r| == if n < |xs| then n else |xs|
    ensures r == xs[..|r|]
  {
    if n < |xs| then xs[..n] else xs
  }

  /** The file-type suffixes `\.(pdf|png|jpg|jpeg|tif|tiff|docx?)$` removes. */
  const KnownExtensions: seq<string> := [".pdf", ".png", ".jpg", ".jpeg", ".tif", ".tiff", ".doc", ".docx"]

  /** `re.sub(r"\.(pdf|png|jpg|jpeg|tif|tiff|docx?)$", "", s)`: removes a
      known extension at the end, or just before a final newline, where `$`
      also matches. */
  function StripExtension(s: string): string {
    if s != [] && s[|s| - 1] == '\n' then StripFirstOf(s[..|s| - 1], KnownExtensions) + "\n"
    else StripFirstOf(s, KnownExtensions)
  }

  /** What the substitution leaves: the string itself when no known
      extension ends it, with or without a final newline; otherwise the
      string without that extension, its final newline kept. */
  lemma StripExtensionFacts(s: string)
    ensures (forall e :: e in KnownExtensions ==> !EndsWith(s, e) && !EndsWith(s, e + "\n")) ==> StripExtension(s) == s
    ensures forall e :: e in KnownExtensions && EndsWith(s, e) ==> StripExtension(s) == s[..|s| - |e|]
    ensures forall e :: e in KnownExtensions && EndsWith(s, e + "\n") ==>
              StripExtension(s) == s[..|s| - |e| - 1] + "\n"
  {
    KnownExtensionsAreExtensions();
    if s != [] && s[|s| - 1] == '\n' {
      StripBeforeNewline(s, KnownExtensions);
    } else {
      StripAtEnd(s, KnownExtensions);
    }
  }

  /** The first suffix in `exts` that `s` ends with, removed. */
  function StripFirstOf(s: string, exts: seq<string>): (r: string)
    ensures r == s || exists e :: e in exts && EndsWith(s, e) && r == s[..|s| - |e|]
    ensures (forall e :: e in exts ==> !EndsWith(s, e)) ==> r == s
  {
    if exts == [] then s
    else if EndsWith(s, exts[0]) then s[..|s| - |exts[0]|]
    else StripFirstOf(s, exts[1..])
  }

  /** When some suffix of the list ends `s`, one that does is removed. */
  lemma {:induction false} StripFirstOfFound(s: string, exts: seq<string>, e: string)
    requires e in exts && EndsWith(s, e)
    ensures exists e' :: e' in exts && EndsWith(s, e') && StripFirstOf(s, exts) == s[..|s| - |e'|]
  {
    if !EndsWith(s, exts[0]) {
      StripFirstOfFound(s, exts[1..], e);
      var e' :| e' in exts[1..] && EndsWith(s, e') && StripFirstOf(s, exts[1..]) == s[..|s| - |e'|];
      assert e' in exts;
    }
  }

  /** A file extension: a dot, no other dot, and not ending in a newline. */
  predicate IsExtension(e: string) {
    |e| > 1 && e[0] == '.' && e[|e| - 1] != '\n' && forall i :: 0 < i < |e| ==> e[i] != '.'
  }

  lemma KnownExtensionsAreExtensions()
    ensures forall e :: e in KnownExtensions ==> IsExtension(e)
  {
  }

  /** Two extensions that end one string are the same: the shorter one's
      dot sits in the longer one, where only its first character may be a
      dot. */
  lemma SuffixExtensionsAgree(s: string, e: string, e': string)
    requires IsExtension(e) && IsExtension(e') && EndsWith(s, e) && EndsWith(s, e')
    ensures e == e'
  {
    var m := if |e| < |e'| then |e| else |e'|;
    assert e[|e| - m] == s[|s| - m] == e'[|e'| - m];
    assert |e| == |e'|;
  }

  /** A string ends with at most one extension of the list, so the one
      removed is the one it ends with. */
  lemma StripFirstOfUnique(s: string, exts: seq<string>)
    requires forall e :: e in exts ==> IsExtension(e)
    ensures forall e :: e in exts && EndsWith(s, e) ==> StripFirstOf(s, exts) == s[..|s| - |e|]
  {
    forall e | e in exts && EndsWith(s, e) ensures StripFirstOf(s, exts) == s[..|s| - |e|] {
      StripFirstOfFound(s, exts, e);
      var e' :| e' in exts && EndsWith(s, e') && StripFirstOf(s, exts) == s[..|s| - |e'|];
      SuffixExtensionsAgree(s, e, e');
    }
  }

  /** Without a final newline, `$` matches only at the very end. */
  lemma StripAtEnd(s: string, exts: seq<string>)
    requires forall e :: e in exts ==> IsExtension(e)
    requires s == [] || s[|s| - 1] != '\n'
    ensures var r := StripFirstOf(s, exts);
      && ((forall e :: e in exts ==> !EndsWith(s, e) && !EndsWith(s, e + "\n")) ==> r == s)
      && (forall e :: e in exts && EndsWith(s, e) ==> r == s[..|s| - |e|])
      && (forall e :: e in exts ==> !EndsWith(s, e + "\n"))
  {
    forall e | e in exts ensures !EndsWith(s, e + "\n") {
      if |e| + 1 <= |s| {
        assert s[|s| - |e| - 1..][|e|] == s[|s| - 1];
      }
    }
    StripFirstOfUnique(s, exts);
  }

  /** With a final newline, `$` matches just before it. */
  lemma StripBeforeNewline(s: string, exts: seq<string>)
    requires forall e :: e in exts ==> IsExtension(e)
    requires s != [] && s[|s| - 1] == '\n'
    ensures var r := StripFirstOf(s[..|s| - 1], exts) + "\n";
      && ((forall e :: e in exts ==> !EndsWith(s, e) && !EndsWith(s, e + "\n")) ==> r == s)
      && (forall e :: e in exts ==> !EndsWith(s, e))
      && (forall e :: e in exts && EndsWith(s, e + "\n") ==> r == s[..|s| - |e| - 1] + "\n")
  {
    var t := s[..|s| - 1];
    assert s == t + [s[|s| - 1]] && [s[|s| - 1]] == "\n";
    forall e | e in exts
      ensures !EndsWith(s, e) && (EndsWith(s, e + "\n") <==> EndsWith(t, e))
      ensures EndsWith(s, e + "\n") ==> t[..|t| - |e|] == s[..|s| - |e| - 1]
    {
      NewlineSuffix(s, e);
    }
    StripFirstOfUnique(t, exts);
    if forall e :: e in exts ==> !EndsWith(t, e) {
      assert StripFirstOf(t, exts) + "\n" == s;
    }
  }

  /** One extension against a string ending in a newline. */
  lemma NewlineSuffix(s: string, e: string)
    requires IsExtension(e) && s != [] && s[|s| - 1] == '\n'
    ensures !EndsWith(s, e)
    ensures EndsWith(s, e + "\n") <==> EndsWith(s[..|s| - 1], e)
    ensures EndsWith(s, e + "\n") ==> s[..|s| - 1][..|s| - 1 - |e|] == s[..|s| - |e| - 1]
  {
    var t := s[..|s| - 1];
    if |e| <= |s| {
      assert s[|s| - |e|..][|e| - 1] == s[|s| - 1];
    }
    if |e| + 1 <= |s| {
      assert s[|s| - |e| - 1..] == t[|t| - |e|..] + "\n";
    }
  }

  function Max(a: real, b: real): real { if a < b then b else a }

  function Min(a: real, b: real): real { if a < b then a else b }
}

=== FILE: entity_roles.dfy ===
/** Entity-role inference: documents are tied to a legal entity through the
    identifiers found in their opening text, grouped by entity, and each
    entity is labelled developer, group or other from the kinds of documents
    filed under it. The identifier regular expressions are supplied by the
    caller as search functions; the document store is replaced by input rows
    and returned updates. */
module EntityRoles {
  import opened Common
  import opened Ranking
  import Rules

  // ---------------------------------------------------------------------
  // Name normalisation

  /** The legal-form suffixes removed from a name, in removal order. */
  const LegalSuffixes: seq<string> :=
    [" PRIVATE LIMITED", " PVT LTD", " LTD", " LIMITED", " LLP", " PARTNERSHIP FIRM", " FIRM", " COMPANY"]

  /** Removes every occurrence of each token in turn. */
  function RemoveAll(s: string, tokens: seq<string>): string
    requires forall i :: 0 <= i < |tokens| ==> tokens[i] != []
    decreases |tokens|
  {
    if tokens == [] then s else RemoveAll(ReplaceAll(s, tokens[0], ""), tokens[1..])
  }

  /** The characters `[A-Z0-9& ]` a normalised name is made of. */
  predicate NameChar(c: char) {
    'A' <= c <= 'Z' || '0' <= c <= '9' || c == '&' || c == ' '
  }

  /** Drops the leading characters outside `[A-Z0-9& ]`. */
  function DropOthers(s: string): (r: string)
    ensures |r| <= |s| && r == s[|s| - |r|..]
    ensures r != [] ==> NameChar(r[0])
  {
    if s != [] && !NameChar(s[0]) then
      var r := DropOthers(s[1..]);
      assert s[1..][|s[1..]| - |r|..] == s[|s| - |r|..];
      r
    else s
  }

  /** Strings made only of `[A-Z0-9& ]`. */
  predicate NameChars(s: string) {
    forall i :: 0 <= i < |s| ==> NameChar(s[i])
  }

  /** Strings with no two adjacent spaces. */
  predicate SingleSpaced(s: string) {
    forall i :: 0 <= i < |s| - 1 ==> s[i] != ' ' || s[i + 1] != ' '
  }

  /** `re.sub(r"[^A-Z0-9& ]+", " ", s)`: each run of other characters becomes
      one space. */
  function ReplaceOthers(s: string): (r: string)
    ensures NameChars(r)
    decreases |s|
  {
    if s == [] then []
    else if NameChar(s[0]) then [s[0]] + ReplaceOthers(s[1..])
    else " " + ReplaceOthers(DropOthers(s[1..]))
  }

  /** `re.sub(r"\s+", " ", s)`: each run of whitespace becomes one space. */
  function CollapseSpaces(s: string): (r: string)
    ensures s == [] <==> r == []
    ensures s != [] && !IsSpace(s[0]) ==> r[0] == s[0]
    decreases |s|
  {
    if s == [] then []
    else if IsSpace(s[0]) then " " + CollapseSpaces(StripLeft(s[1..]))
    else [s[0]] + CollapseSpaces(s[1..])
  }

  lemma SuffixNameChars(s: string, k: nat)
    requires k <= |s| && NameChars(s)
    ensures NameChars(s[k..])
  {
    forall i | 0 <= i < |s| - k ensures NameChar(s[k..][i]) {
      assert s[k..][i] == s[k + i];
    }
  }

  lemma ConsShape(c: char, t: string)
    requires NameChar(c) && NameChars(t) && SingleSpaced(t)
    requires c == ' ' && t != [] ==> t[0] != ' '
    ensures NameChars([c] + t) && SingleSpaced([c] + t)
  {
    var r := [c] + t;
    forall i | 0 <= i < |r| ensures NameChar(r[i]) {
      if i > 0 {
        assert r[i] == t[i - 1];
      }
    }
    forall i | 0 <= i < |r| - 1 ensures r[i] != ' ' || r[i + 1] != ' ' {
      if i > 0 {
        assert r[i] == t[i - 1] && r[i + 1] == t[i];
      }
    }
  }

  /** Collapsing leaves no two adjacent spaces and adds no character but the
      space. */
  lemma {:induction false} CollapseShape(s: string)
    requires NameChars(s)
    ensures NameChars(CollapseSpaces(s)) && SingleSpaced(CollapseSpaces(s))
    decreases |s|, 1
  {
    if s != [] {
      if IsSpace(s[0]) {
        CollapseShapeAfterSpace(s);
      } else {
        SuffixNameChars(s, 1);
        CollapseShape(s[1..]);
        ConsShape(s[0], CollapseSpaces(s[1..]));
      }
    }
  }

  lemma {:induction false} CollapseShapeAfterSpace(s: string)
    requires s != [] && IsSpace(s[0]) && NameChars(s)
    ensures NameChars(CollapseSpaces(s)) && SingleSpaced(CollapseSpaces(s))
    decreases |s|, 0
  {
    var t := StripLeft(s[1..]);
    SuffixNameChars(s, |s| - |t|);
    CollapseShape(t);
    ConsShape(' ', CollapseSpaces(t));
  }

  /** The last three steps of `norm_name`: other characters to spaces,
      whitespace collapsed, ends stripped. */
  function Tidy(s: string): string {
    Strip(CollapseSpaces(ReplaceOthers(s)))
  }

  /** `norm_name`: upper-case, legal suffixes removed, then tidied. */
  function NormName(s: string): string {
    assert forall i :: 0 <= i < |LegalSuffixes| ==> LegalSuffixes[i] != [];
    Tidy(RemoveAll(Upper(s), LegalSuffixes))
  }

  /** A slice of a string made of `[A-Z0-9& ]` with no two adjacent spaces
      keeps both properties. */
  lemma SliceKeepsShape(s: string, a: nat, b: nat)
    requires a <= b <= |s|
    requires NameChars(s) && SingleSpaced(s)
    ensures NameChars(s[a..b]) && SingleSpaced(s[a..b])
  {
    forall i | 0 <= i < b - a ensures NameChar(s[a..b][i]) {
      assert s[a..b][i] == s[a + i];
    }
    forall i | 0 <= i < b - a - 1 ensures s[a..b][i] != ' ' || s[a..b][i + 1] != ' ' {
      assert s[a..b][i] == s[a + i] && s[a..b][i + 1] == s[a + i + 1];
    }
  }

  /** Names made of `[A-Z0-9& ]` with single spaces and no space at either
      end. */
  predicate WellFormedName(r: string) {
    NameChars(r) && SingleSpaced(r) && (r != [] ==> r[0] != ' ' && r[|r| - 1] != ' ')
  }

  /** Stripping a string made of `[A-Z0-9& ]` with single spaces leaves a
      well-formed name. */
  lemma StripShape(c: string)
    requires NameChars(c) && SingleSpaced(c)
    ensures WellFormedName(Strip(c))
  {
    var l := StripLeft(c);
    SliceKeepsShape(c, |c| - |l|, |c|);
    assert l == c[|c| - |l|..|c|];
    var r := StripRight(l);
    SliceKeepsShape(l, 0, |r|);
    assert r == l[0..|r|];
  }

  /** A tidied string is well formed. */
  lemma TidyShape(s: string)
    ensures WellFormedName(Tidy(s))
  {
    var c := CollapseSpaces(ReplaceOthers(s));
    CollapseShape(ReplaceOthers(s));
    StripShape(c);
  }

  /** A normalised name is upper-case: made of `A`-`Z`, digits, `&` and single
      spaces, with no space at either end. */
  lemma NormNameShape(s: string)
    ensures WellFormedName(NormName(s))
  {
    assert forall i :: 0 <= i < |LegalSuffixes| ==> LegalSuffixes[i] != [];
    TidyShape(RemoveAll(Upper(s), LegalSuffixes));
  }

  // ---------------------------------------------------------------------
  // Identifier facts and the entity key

  /** The identifiers found in a document's opening text. */
  datatype Facts = Facts(
    pan: Option<string>,
    gstin: Option<string>,
    cin: Option<string>,
    llpin: Option<string>,
    name: Option<string>,
    nameKey: Option<string>)

  /** `extract_facts`. `search(rx, text)` is the whole first match of an
      identifier pattern and `findName(text)` the captured name of the first
      "Name:"-style label. A PAN is derived from characters 3 to 12 of the
      GSTIN only when no PAN was found. */
  function ExtractFacts(text: string, search: (Rules.Pattern, string) -> Option<string>,
                        findName: string -> Option<string>): (f: Facts)
    ensures f.gstin == search(Rules.GstinRx, text) && f.cin == search(Rules.CinRx, text)
            && f.llpin == search(Rules.LlpinRx, text)
    ensures search(Rules.PanRx, text).Some? ==> f.pan == search(Rules.PanRx, text)
    ensures search(Rules.PanRx, text).None? ==>
              (f.pan.Some? <==> f.gstin.Some? && |f.gstin.value| >= 12)
              && (f.pan.Some? ==> f.pan.value == f.gstin.value[2..12])
    ensures f.name.Some? <==> findName(text).Some?
    ensures f.nameKey.Some? <==> f.name.Some?
    ensures f.name.Some? ==> f.name.value == Strip(findName(text).value) && f.nameKey.value == NormName(f.name.value)
  {
    var found := search(Rules.PanRx, text);
    var gstin := search(Rules.GstinRx, text);
    var pan := if found.None? && gstin.Some? && |gstin.value| >= 12 then Some(gstin.value[2..12]) else found;
    var name := if findName(text).Some? then Some(Strip(findName(text).value)) else None;
    var nameKey := if name.Some? then Some(NormName(name.value)) else None;
    Facts(pan, gstin, search(Rules.CinRx, text), search(Rules.LlpinRx, text), name, nameKey)
  }

  /** The identifier fields, strongest first. */
  function Identifiers(f: Facts): seq<(string, Option<string>)> {
    [("pan", f.pan), ("gstin", f.gstin), ("llpin", f.llpin), ("cin", f.cin), ("name_key", f.nameKey)]
  }

  predicate Filled(v: Option<string>) { v.Some? && v.value != [] }

  /** `"k:v"` for the first filled identifier. */
  function FirstKey(ids: seq<(string, Option<string>)>): (k: Option<string>)
    ensures k.None? <==> forall i :: 0 <= i < |ids| ==> !Filled(ids[i].1)
    ensures k.Some? ==> exists i :: 0 <= i < |ids| && Filled(ids[i].1)
                          && k.value == ids[i].0 + ":" + ids[i].1.value
                          && forall j :: 0 <= j < i ==> !Filled(ids[j].1)
  {
    if ids == [] then None
    else if Filled(ids[0].1) then Some(ids[0].0 + ":" + ids[0].1.value)
    else
      var k := FirstKey(ids[1..]);
      assert forall i :: 1 <= i < |ids| ==> ids[i] == ids[1..][i - 1];
      k
  }

  /** `entity_key`: the strongest filled identifier, PAN first, then GSTIN,
      LLPIN, CIN and the normalised name. */
  function EntityKey(f: Facts): Option<string> {
    FirstKey(Identifiers(f))
  }

  /** Without a filled PAN, a filled GSTIN decides the key. */
  lemma KeyPriority(f: Facts)
    ensures Filled(f.pan) ==> EntityKey(f) == Some("pan:" + f.pan.value)
    ensures !Filled(f.pan) && Filled(f.gstin) ==> EntityKey(f) == Some("gstin:" + f.gstin.value)
    ensures EntityKey(f).None? <==>
              (!Filled(f.pan) && !Filled(f.gstin) && !Filled(f.llpin) && !Filled(f.cin) && !Filled(f.nameKey))
  {
    var ids := Identifiers(f);
    assert ids[0] == ("pan", f.pan) && ids[1] == ("gstin", f.gstin) && ids[2] == ("llpin", f.llpin);
    assert ids[3] == ("cin", f.cin) && ids[4] == ("name_key", f.nameKey);
    assert "pan" + ":" == "pan:" && "gstin" + ":" == "gstin:";
    if Filled(f.pan) {
      assert FirstKey(ids) == Some(ids[0].0 + ":" + ids[0].1.value);
    } else if Filled(f.gstin) {
      assert FirstKey(ids) == FirstKey(ids[1..]);
      assert ids[1..][0] == ("gstin", f.gstin);
      assert FirstKey(ids[1..]) == Some(ids[1].0 + ":" + ids[1].1.value);
    }
  }

  /** Whenever a GSTIN of at least twelve characters is found, and any PAN
      found is non-empty, the key is a PAN key. */
  lemma GstinGivesPanKey(text: string, search: (Rules.Pattern, string) -> Option<string>,
                         findName: string -> Option<string>)
    requires search(Rules.GstinRx, text).Some? && |search(Rules.GstinRx, text).value| >= 12
    requires search(Rules.PanRx, text).None? || search(Rules.PanRx, text).value != []
    ensures EntityKey(ExtractFacts(text, search, findName)).Some?
    ensures StartsWith(EntityKey(ExtractFacts(text, search, findName)).value, "pan:")
  {
    var f := ExtractFacts(text, search, findName);
    assert Filled(f.pan);
    KeyPriority(f);
    var k := "pan:" + f.pan.value;
    assert k[..4] == "pan:";
  }

  // ---------------------------------------------------------------------
  // Features

  /** The document kinds that tell a developer from a group company. */
  datatype Feature =
    | Tan | Msme | Lei | SanctionSoa | Cibil | BankStmtEntity
    | GstPan | Financials3y | Itrs3y | CoiMoaAoa | PartnershipDeed | LlpAgreement

  /** Features only the developer entity is expected to file. */
  predicate IsStrong(f: Feature) {
    f.Tan? || f.Msme? || f.Lei? || f.SanctionSoa? || f.Cibil? || f.BankStmtEntity?
  }

  /** Features both developer and group companies file. */
  predicate IsCommon(f: Feature) { !IsStrong(f) }

  /** The position of each feature's test in `feature_from_slug`. */
  function TestOrder(f: Feature): nat {
    match f
    case Tan => 0
    case Msme => 1
    case Lei => 2
    case SanctionSoa => 3
    case Cibil => 4
    case BankStmtEntity => 5
    case GstPan => 6
    case Financials3y => 7
    case Itrs3y => 8
    case CoiMoaAoa => 9
    case PartnershipDeed => 10
    case LlpAgreement => 11
  }

  /** Whether the lower-cased slug `s` shows feature `f`. */
  predicate Shows(s: string, f: Feature) {
    match f
    case Tan => Contains(s, "tan")
    case Msme => Contains(s, "msme")
    case Lei => Contains(s, "lei")
    case SanctionSoa => Contains(s, "sanction") || Contains(s, "soa")
    case Cibil => Contains(s, "cibil")
    case BankStmtEntity => Contains(s, "bank_stmt") && !Contains(s, "directors")
    case GstPan => Contains(s, "gst_pan")
    case Financials3y => Contains(s, "financial")
    case Itrs3y => Contains(s, "itrs")
    case CoiMoaAoa => Contains(s, "moa_aoa") || Contains(s, "incorp")
    case PartnershipDeed => Contains(s, "partnership_deed")
    case LlpAgreement => Contains(s, "llp_agreement")
  }

  /** `feature_from_slug`: the substring tests in their fixed order. */
  function FeatureFromSlug(slug: string): (r: Option<Feature>)
    ensures r.Some? ==> Shows(Lower(slug), r.value)
    ensures Contains(Lower(slug), "directors") ==> r != Some(BankStmtEntity)
  {
    var s := Lower(slug);
    if Contains(s, "tan") then Some(Tan)
    else if Contains(s, "msme") then Some(Msme)
    else if Contains(s, "lei") then Some(Lei)
    else if Contains(s, "sanction") || Contains(s, "soa") then Some(SanctionSoa)
    else if Contains(s, "cibil") then Some(Cibil)
    else if Contains(s, "bank_stmt") && !Contains(s, "directors") then Some(BankStmtEntity)
    else if Contains(s, "gst_pan") then Some(GstPan)
    else if Contains(s, "financial") then Some(Financials3y)
    else if Contains(s, "itrs") then Some(Itrs3y)
    else if Contains(s, "moa_aoa") || Contains(s, "incorp") then Some(CoiMoaAoa)
    else if Contains(s, "partnership_deed") then Some(PartnershipDeed)
    else if Contains(s, "llp_agreement") then Some(LlpAgreement)
    else None
  }

  // ---------------------------------------------------------------------
  // Organisation variant

  lemma ContainsLeft(a: string, b: string, n: string)
    requires Contains(a, n)
    ensures Contains(a + b, n)
  {
    var i :| 0 <= i <= |a| - |n| && OccursAt(a, n, i);
    assert (a + b)[i..i + |n|] == a[i..i + |n|];
    assert OccursAt(a + b, n, i);
  }

  lemma ContainsRight(a: string, b: string, n: string)
    requires Contains(b, n)
    ensures Contains(a + b, n)
  {
    var i :| 0 <= i <= |b| - |n| && OccursAt(b, n, i);
    assert (a + b)[|a| + i..|a| + i + |n|] == b[i..i + |n|];
    assert OccursAt(a + b, n, |a| + i);
  }

  /** A substring of one joined part is a substring of the whole. */
  lemma {:induction false} ContainsJoin(sep: string, parts: seq<string>, i: nat, n: string)
    requires i < |parts| && Contains(parts[i], n)
    ensures Contains(Join(sep, parts), n)
  {
    if |parts| > 1 {
      assert Join(sep, parts) == parts[0] + sep + Join(sep, parts[1..]);
      if i == 0 {
        ContainsLeft(parts[0] + sep, Join(sep, parts[1..]), n) by {
          ContainsLeft(parts[0], sep, n);
        }
      } else {
        ContainsJoin(sep, parts[1..], i - 1, n);
        ContainsRight(parts[0] + sep, Join(sep, parts[1..]), n);
      }
    }
  }

  predicate LlpMarked(s: string) { Contains(s, "llp_agreement") || Contains(s, " llp ") }

  predicate PartnershipMarked(s: string) { Contains(s, "partnership_deed") || Contains(s, "partnership") }

  /** `org_variant_from_slugs`: LLP over partnership over company, which is
      also the default. */
  function OrgVariant(slugs: seq<string>): (v: string)
    ensures v == "llp" || v == "partnership" || v == "company"
    ensures v == "llp" <==> LlpMarked(Join(" ", slugs))
    ensures v == "partnership" <==> !LlpMarked(Join(" ", slugs)) && PartnershipMarked(Join(" ", slugs))
  {
    var s := Join(" ", slugs);
    if LlpMarked(s) then "llp"
    else if PartnershipMarked(s) then "partnership"
    else if Contains(s, "moa_aoa") || Contains(s, "incorp") || Contains(s, "coi") then "company"
    else "company"
  }

  /** One LLP agreement among an entity's documents makes it an LLP. */
  lemma LlpAgreementWins(slugs: seq<string>, i: nat)
    requires i < |slugs| && Contains(slugs[i], "llp_agreement")
    ensures OrgVariant(slugs) == "llp"
  {
    ContainsJoin(" ", slugs, i, "llp_agreement");
  }

  /** Without LLP markers, one partnership document makes it a partnership. */
  lemma PartnershipUnlessLlp(slugs: seq<string>, i: nat)
    requires i < |slugs| && Contains(slugs[i], "partnership")
    requires !LlpMarked(Join(" ", slugs))
    ensures OrgVariant(slugs) == "partnership"
  {
    ContainsJoin(" ", slugs, i, "partnership");
  }

  // ---------------------------------------------------------------------
  // Role scores

  /** Every feature, once each. */
  const AllFeatures: seq<Feature> :=
    [Tan, Msme, Lei, SanctionSoa, Cibil, BankStmtEntity, GstPan, Financials3y, Itrs3y, CoiMoaAoa, PartnershipDeed, LlpAgreement]

  /** `score_role`'s loop: each feature adds twice its count when strong and
      its count when common. */
  function DevSum(fs: seq<Feature>, counts: multiset<Feature>): nat {
    if fs == [] then 0
    else DevSum(fs[..|fs| - 1], counts) + (if IsStrong(fs[|fs| - 1]) then 2 else 1) * counts[fs[|fs| - 1]]
  }

  /** The counts of the common features in `fs`. */
  function GroupSum(fs: seq<Feature>, counts: multiset<Feature>): nat {
    if fs == [] then 0
    else GroupSum(fs[..|fs| - 1], counts) + (if IsCommon(fs[|fs| - 1]) then counts[fs[|fs| - 1]] else 0)
  }

  /** The counts of the strong features in `fs`. */
  function StrongSum(fs: seq<Feature>, counts: multiset<Feature>): nat {
    if fs == [] then 0
    else StrongSum(fs[..|fs| - 1], counts) + (if IsStrong(fs[|fs| - 1]) then counts[fs[|fs| - 1]] else 0)
  }

  /** `score_role`: the developer and the group score of an entity's
      feature counts. */
  function ScoreRole(counts: multiset<Feature>): (nat, nat) {
    (DevSum(AllFeatures, counts), GroupSum(AllFeatures, counts))
  }

  lemma {:induction false} DevSplit(fs: seq<Feature>, c: multiset<Feature>)
    ensures DevSum(fs, c) == 2 * StrongSum(fs, c) + GroupSum(fs, c)
  {
    if fs != [] {
      DevSplit(fs[..|fs| - 1], c);
    }
  }

  /** Dropping the last element of a list without repeats: membership
      splits, the last element is not among the rest, and the rest has no
      repeats. */
  lemma DistinctInit(fs: seq<Feature>, f: Feature)
    requires fs != []
    requires forall i, j :: 0 <= i < j < |fs| ==> fs[i] != fs[j]
    ensures var p := fs[..|fs| - 1];
      (f in fs <==> f in p || f == fs[|fs| - 1])
      && (f == fs[|fs| - 1] ==> f !in p)
      && (forall i, j :: 0 <= i < j < |p| ==> p[i] != p[j])
  {
    var p := fs[..|fs| - 1];
    assert fs == p + [fs[|fs| - 1]];
    if f == fs[|fs| - 1] {
      forall i | 0 <= i < |p| ensures p[i] != f {
        assert p[i] == fs[i];
      }
    }
  }

  /** Adding one feature to the counts raises the strong sum by one exactly
      when the feature is listed (once) and strong. */
  lemma {:induction false} StrongSumAdd(fs: seq<Feature>, c: multiset<Feature>, f: Feature)
    requires forall i, j :: 0 <= i < j < |fs| ==> fs[i] != fs[j]
    ensures StrongSum(fs, c + multiset{f}) == StrongSum(fs, c) + (if f in fs && IsStrong(f) then 1 else 0)
  {
    if fs != [] {
      var p, x := fs[..|fs| - 1], fs[|fs| - 1];
      DistinctInit(fs, f);
      StrongSumAdd(p, c, f);
      assert (c + multiset{f})[x] == c[x] + (if x == f then 1 else 0);
    }
  }

  /** Adding one feature to the counts raises the group sum by one exactly
      when the feature is listed (once) and common. */
  lemma {:induction false} GroupSumAdd(fs: seq<Feature>, c: multiset<Feature>, f: Feature)
    requires forall i, j :: 0 <= i < j < |fs| ==> fs[i] != fs[j]
    ensures GroupSum(fs, c + multiset{f}) == GroupSum(fs, c) + (if f in fs && IsCommon(f) then 1 else 0)
  {
    if fs != [] {
      var p, x := fs[..|fs| - 1], fs[|fs| - 1];
      DistinctInit(fs, f);
      GroupSumAdd(p, c, f);
      assert (c + multiset{f})[x] == c[x] + (if x == f then 1 else 0);
    }
  }

  lemma AllFeaturesOnce()
    ensures forall f :: f in AllFeatures
    ensures forall i, j :: 0 <= i < j < |AllFeatures| ==> AllFeatures[i] != AllFeatures[j]
  {
    forall f ensures f in AllFeatures {
      assert AllFeatures[TestOrder(f)] == f;
    }
  }

  /** dev = 2·(strong counts) + group and group = the common counts, so
      0 <= group <= dev. */
  lemma ScoreRoleSplit(c: multiset<Feature>)
    ensures ScoreRole(c).0 == 2 * StrongSum(AllFeatures, c) + ScoreRole(c).1
    ensures ScoreRole(c).1 <= ScoreRole(c).0
  {
    DevSplit(AllFeatures, c);
  }

  /** Filing one more document of a kind raises the developer score by 2 for
      a strong kind and 1 for a common one, and the group score by 1 exactly
      for a common kind. */
  lemma ScoreRoleAdd(c: multiset<Feature>, f: Feature)
    ensures ScoreRole(c + multiset{f}).0 == ScoreRole(c).0 + (if IsStrong(f) then 2 else 1)
    ensures ScoreRole(c + multiset{f}).1 == ScoreRole(c).1 + (if IsCommon(f) then 1 else 0)
  {
    AllFeaturesOnce();
    StrongSumAdd(AllFeatures, c, f);
    GroupSumAdd(AllFeatures, c, f);
    DevSplit(AllFeatures, c);
    DevSplit(AllFeatures, c + multiset{f});
  }

  // ---------------------------------------------------------------------
  // Clustering and role assignment

  /** The stored fields of a document that `run` reads and writes back. */
  datatype Row = Row(id: int, canonicalSlug: Option<string>, stateVariant: Option<string>,
                     confidence: Option<real>, status: Option<string>)

  /** A document with its entity key and lower-cased category slug. */
  datatype DocInfo = DocInfo(row: Row, key: Option<string>, slug: string)

  /** The first pass of `run` for one document: facts from its first three
      chunks joined by newlines, their key, and its lower-cased slug. */
  function DocInfoOf(row: Row, chunkTexts: seq<string>, search: (Rules.Pattern, string) -> Option<string>,
                     findName: string -> Option<string>): (d: DocInfo)
    ensures d.row == row
    ensures d.key == EntityKey(ExtractFacts(Join("\n", Take(chunkTexts, 3)), search, findName))
    ensures row.canonicalSlug.Some? ==> d.slug == Lower(row.canonicalSlug.value)
    ensures row.canonicalSlug.None? ==> d.slug == []
  {
    var text := Join("\n", Take(chunkTexts, 3));
    var slug := if row.canonicalSlug.Some? then row.canonicalSlug.value else "";
    DocInfo(row, EntityKey(ExtractFacts(text, search, findName)), Lower(slug))
  }

  /** The key a document clusters under; an empty key counts as none. */
  function KeyOf(d: DocInfo): Option<string> {
    if d.key.Some? && d.key.value != [] then d.key else None
  }

  /** An entity's documents, their slugs and its feature counts. */
  datatype Cluster = Cluster(docs: seq<Row>, slugs: seq<string>, features: multiset<Feature>)

  const EmptyCluster := Cluster([], [], multiset{})

  function FeatureBag(slug: string): multiset<Feature> {
    if FeatureFromSlug(slug).Some? then multiset{FeatureFromSlug(slug).value} else multiset{}
  }

  /** The feature reported is the first one in test order that the slug
      shows; no feature at all means the slug shows none. */
  lemma FeatureFromSlugIsFirst(slug: string)
    ensures FeatureFromSlug(slug).None? ==> forall f :: !Shows(Lower(slug), f)
    ensures FeatureFromSlug(slug).Some? ==>
              forall f :: TestOrder(f) < TestOrder(FeatureFromSlug(slug).value) ==> !Shows(Lower(slug), f)
  {
    var r := FeatureFromSlug(slug);
    var n := if r.Some? then TestOrder(r.value) else 12;
    forall f | TestOrder(f) < n ensures !Shows(Lower(slug), f) {
    }
  }

  /** The cluster of key `k` after the documents `infos`. */
  function ClusterOf(infos: seq<DocInfo>, k: string): Cluster {
    if infos == [] then EmptyCluster
    else
      var c := ClusterOf(infos[..|infos| - 1], k);
      var d := infos[|infos| - 1];
      if KeyOf(d) == Some(k) then Cluster(c.docs + [d.row], c.slugs + [d.slug], c.features + FeatureBag(d.slug))
      else c
  }

  /** One more document changes only the cluster of its own key. */
  lemma ClusterOfStep(infos: seq<DocInfo>, i: nat)
    requires i < |infos|
    ensures forall k :: KeyOf(infos[i]) != Some(k) ==> ClusterOf(infos[..i + 1], k) == ClusterOf(infos[..i], k)
    ensures KeyOf(infos[i]).Some? ==>
              var c := ClusterOf(infos[..i], KeyOf(infos[i]).value);
              ClusterOf(infos[..i + 1], KeyOf(infos[i]).value)
                == Cluster(c.docs + [infos[i].row], c.slugs + [infos[i].slug], c.features + FeatureBag(infos[i].slug))
  {
    assert infos[..i + 1][..i] == infos[..i];
  }

  /** One more document adds its key to the key order if it is new. */
  lemma KeysStep(infos: seq<DocInfo>, i: nat)
    requires i < |infos|
    ensures KeysInOrder(infos[..i + 1])
              == if KeyOf(infos[i]).Some? && KeyOf(infos[i]).value !in KeysInOrder(infos[..i])
                 then KeysInOrder(infos[..i]) + [KeyOf(infos[i]).value] else KeysInOrder(infos[..i])
  {
    assert infos[..i + 1][..i] == infos[..i];
  }

  /** The keys in order of first appearance, each once. */
  function KeysInOrder(infos: seq<DocInfo>): (ks: seq<string>)
    ensures forall i, j :: 0 <= i < j < |ks| ==> ks[i] != ks[j]
    ensures forall k :: k in ks <==> exists d :: d in infos && KeyOf(d) == Some(k)
  {
    if infos == [] then []
    else
      var ks := KeysInOrder(infos[..|infos| - 1]);
      var d := infos[|infos| - 1];
      assert forall e :: e in infos <==> e in infos[..|infos| - 1] || e == d;
      if KeyOf(d).Some? && KeyOf(d).value !in ks then ks + [KeyOf(d).value] else ks
  }

  /** A cluster holds exactly the rows of the documents with its key. */
  lemma {:induction false} ClusterRows(infos: seq<DocInfo>, k: string)
    ensures forall r :: r in ClusterOf(infos, k).docs <==> exists d :: d in infos && KeyOf(d) == Some(k) && d.row == r
    ensures |ClusterOf(infos, k).docs| == |ClusterOf(infos, k).slugs|
  {
    if infos != [] {
      var p := infos[..|infos| - 1];
      ClusterRows(p, k);
      assert forall e :: e in infos <==> e in p || e == infos[|infos| - 1];
    }
  }

  /** A key no document carries has the empty cluster. */
  lemma {:induction false} ClusterOfAbsent(infos: seq<DocInfo>, k: string)
    requires forall d :: d in infos ==> KeyOf(d) != Some(k)
    ensures ClusterOf(infos, k) == EmptyCluster
  {
    if infos != [] {
      ClusterOfAbsent(infos[..|infos| - 1], k);
    }
  }

  /** A scored cluster. */
  datatype Entry = Entry(key: string, dev: nat, group: nat, variant: string, docs: seq<Row>)

  function EntryOf(k: string, c: Cluster): Entry {
    Entry(k, ScoreRole(c.features).0, ScoreRole(c.features).1, OrgVariant(c.slugs), c.docs)
  }

  /** The scored clusters in key order. */
  function Entries(infos: seq<DocInfo>, ks: seq<string>): (es: seq<Entry>)
    ensures |es| == |ks|
    ensures forall i :: 0 <= i < |ks| ==> es[i] == EntryOf(ks[i], ClusterOf(infos, ks[i]))
  {
    if ks == [] then []
    else Entries(infos, ks[..|ks| - 1]) + [EntryOf(ks[|ks| - 1], ClusterOf(infos, ks[|ks| - 1]))]
  }

  /** The ranking key: developer score, then group score. */
  function Scores(e: Entry): (int, int) { (e.dev, e.group) }

  /** Lexicographic order on score pairs. */
  predicate PairLe(a: (int, int), b: (int, int)) {
    a.0 < b.0 || (a.0 == b.0 && a.1 <= b.1)
  }

  lemma PairLeIsTotalOrder()
    ensures TotalOrder(PairLe)
  {
  }

  /** The clusters sorted by (developer, group) score, highest first, ties in
      order of first appearance. */
  function Ranked(infos: seq<DocInfo>): (ranked: seq<Entry>)
    ensures |ranked| == |KeysInOrder(infos)|
    ensures multiset(ranked) == multiset(Entries(infos, KeysInOrder(infos)))
    ensures forall i, j :: 0 <= i < j < |ranked| ==> PairLe(Scores(ranked[j]), Scores(ranked[i]))
    ensures forall p :: WithKey(ranked, Scores, p) == WithKey(Entries(infos, KeysInOrder(infos)), Scores, p)
  {
    PairLeIsTotalOrder();
    SortDescFacts(Entries(infos, KeysInOrder(infos)), Scores, PairLe);
    SortDesc(Entries(infos, KeysInOrder(infos)), Scores, PairLe)
  }

  /** The first scored cluster, in key order, whose (developer, group)
      score no other cluster exceeds. */
  function FirstTop(es: seq<Entry>): (p: nat)
    requires es != []
    ensures p < |es| && forall j :: 0 <= j < |es| ==> PairLe(Scores(es[j]), Scores(es[p]))
    ensures forall j :: 0 <= j < p ==> !PairLe(Scores(es[p]), Scores(es[j]))
  {
    PairLeIsTotalOrder();
    FirstMaxIndex(es, Scores, PairLe)
  }

  datatype Role = DeveloperEntity | GroupEntity | OtherEntity

  function RoleOf(k: string, devKey: string, grpKey: string): Role {
    if k == devKey then DeveloperEntity else if k == grpKey then GroupEntity else OtherEntity
  }

  /** What is written back for one document. */
  datatype Update = Update(id: int, slug: Option<string>, topEntity: Role, orgVariant: string,
                           stateVariant: Option<string>, confidence: Option<real>, status: string)

  /** The stored status, or "unassigned" when it is absent or empty. */
  function StatusOrDefault(status: Option<string>): string {
    if status.Some? && status.value != [] then status.value else "unassigned"
  }

  function UpdateOf(row: Row, role: Role, variant: string): Update {
    Update(row.id, row.canonicalSlug, role, variant, row.stateVariant, row.confidence, StatusOrDefault(row.status))
  }

  function RowUpdates(rows: seq<Row>, role: Role, variant: string): (us: seq<Update>)
    ensures |us| == |rows|
    ensures forall i :: 0 <= i < |rows| ==> us[i] == UpdateOf(rows[i], role, variant)
  {
    if rows == [] then [] else RowUpdates(rows[..|rows| - 1], role, variant) + [UpdateOf(rows[|rows| - 1], role, variant)]
  }

  /** The updates for the ranked clusters, cluster by cluster. */
  function AllUpdates(ranked: seq<Entry>, devKey: string, grpKey: string): seq<Update> {
    if ranked == [] then []
    else
      var e := ranked[|ranked| - 1];
      AllUpdates(ranked[..|ranked| - 1], devKey, grpKey) + RowUpdates(e.docs, RoleOf(e.key, devKey, grpKey), e.variant)
  }

  /** The outcome of `run`. */
  datatype Outcome = NothingToAssign | Assigned(updates: seq<Update>)

  /** The developer key and the group key: the first two ranked clusters, or
      the developer twice when there is only one. */
  function RoleKeys(ranked: seq<Entry>): (string, string)
    requires ranked != []
  {
    (ranked[0].key, if |ranked| > 1 then ranked[1].key else ranked[0].key)
  }

  /** What `run` writes back. */
  function RunSpec(infos: seq<DocInfo>): Outcome {
    var ranked := Ranked(infos);
    if ranked == [] then NothingToAssign
    else Assigned(AllUpdates(ranked, RoleKeys(ranked).0, RoleKeys(ranked).1))
  }

  /** `keys` and `clusters` hold the clustering of `infos`. */
  ghost predicate Clustered(infos: seq<DocInfo>, keys: seq<string>, clusters: map<string, Cluster>) {
    && keys == KeysInOrder(infos)
    && (forall k :: k in clusters <==> k in keys)
    && (forall k :: k in clusters ==> clusters[k] == ClusterOf(infos, k))
  }

  /** A document without a key leaves the clustering as it is. */
  lemma SkipDocument(infos: seq<DocInfo>, i: nat, keys: seq<string>, clusters: map<string, Cluster>)
    requires i < |infos| && KeyOf(infos[i]).None?
    requires Clustered(infos[..i], keys, clusters)
    ensures Clustered(infos[..i + 1], keys, clusters)
  {
    ClusterOfStep(infos, i);
    KeysStep(infos, i);
  }

  /** A document with key `k` joins its cluster, created empty and its key
      recorded on first sight. */
  lemma JoinDocument(infos: seq<DocInfo>, i: nat, keys: seq<string>, clusters: map<string, Cluster>, k: string)
    requires i < |infos| && KeyOf(infos[i]) == Some(k)
    requires Clustered(infos[..i], keys, clusters)
    ensures var c := if k in clusters then clusters[k] else EmptyCluster;
      var d := infos[i];
      Clustered(infos[..i + 1], if k in clusters then keys else keys + [k],
                clusters[k := Cluster(c.docs + [d.row], c.slugs + [d.slug], c.features + FeatureBag(d.slug))])
  {
    var d := infos[i];
    var c := if k in clusters then clusters[k] else EmptyCluster;
    var joined := clusters[k := Cluster(c.docs + [d.row], c.slugs + [d.slug], c.features + FeatureBag(d.slug))];
    var ks := if k in clusters then keys else keys + [k];
    JoinedKeys(infos, i, keys, clusters, k);
    JoinedClusters(infos, i, keys, clusters, k);
    forall j ensures j in joined <==> j in ks {
    }
  }

  /** The keys recorded after a keyed document: `k` is appended when new. */
  lemma JoinedKeys(infos: seq<DocInfo>, i: nat, keys: seq<string>, clusters: map<string, Cluster>, k: string)
    requires i < |infos| && KeyOf(infos[i]) == Some(k)
    requires Clustered(infos[..i], keys, clusters)
    ensures (if k in clusters then keys else keys + [k]) == KeysInOrder(infos[..i + 1])
  {
    KeysStep(infos, i);
  }

  /** The clusters after a keyed document: each is the cluster of its key
      over the documents seen so far. */
  lemma JoinedClusters(infos: seq<DocInfo>, i: nat, keys: seq<string>, clusters: map<string, Cluster>, k: string)
    requires i < |infos| && KeyOf(infos[i]) == Some(k)
    requires Clustered(infos[..i], keys, clusters)
    ensures var c := if k in clusters then clusters[k] else EmptyCluster;
      var d := infos[i];
      var joined := clusters[k := Cluster(c.docs + [d.row], c.slugs + [d.slug], c.features + FeatureBag(d.slug))];
      forall j :: j in joined ==> joined[j] == ClusterOf(infos[..i + 1], j)
  {
    var d := infos[i];
    var c := if k in clusters then clusters[k] else EmptyCluster;
    var joined := clusters[k := Cluster(c.docs + [d.row], c.slugs + [d.slug], c.features + FeatureBag(d.slug))];
    ClusterOfStep(infos, i);
    if k !in clusters {
      ClusterOfAbsent(infos[..i], k);
    }
    assert c == ClusterOf(infos[..i], k);
    forall j | j in joined ensures joined[j] == ClusterOf(infos[..i + 1], j) {
      if j != k {
        assert joined[j] == clusters[j];
      }
    }
  }

  /** The clustering loop: documents without a key are skipped; each keyed
      document joins its key's cluster, created on first sight. */
  method ClusterByKey(infos: seq<DocInfo>) returns (keys: seq<string>, clusters: map<string, Cluster>)
    ensures keys == KeysInOrder(infos)
    ensures forall k :: k in clusters <==> k in keys
    ensures forall k :: k in clusters ==> clusters[k] == ClusterOf(infos, k)
  {
    keys := [];
    clusters := map[];
    for i := 0 to |infos|
      invariant Clustered(infos[..i], keys, clusters)
    {
      var d := infos[i];
      if d.key.Some? && d.key.value != [] {
        var k := d.key.value;
        JoinDocument(infos, i, keys, clusters, k);
        if k !in clusters {
          keys := keys + [k];
        }
        // `setdefault`: the key's cluster, or a fresh empty one
        var c := if k in clusters then clusters[k] else EmptyCluster;
        var f := FeatureFromSlug(d.slug);
        var features := if f.Some? then c.features + multiset{f.value} else c.features;
        assert features == c.features + FeatureBag(d.slug);
        clusters := clusters[k := Cluster(c.docs + [d.row], c.slugs + [d.slug], features)];
      } else {
        SkipDocument(infos, i, keys, clusters);
      }
    }
    assert infos[..|infos|] == infos;
  }

  /** The scoring loop over the clusters in key order. */
  method ScoreClusters(keys: seq<string>, clusters: map<string, Cluster>, ghost infos: seq<DocInfo>)
    returns (entries: seq<Entry>)
    requires forall k :: k in keys ==> k in clusters && clusters[k] == ClusterOf(infos, k)
    ensures entries == Entries(infos, keys)
  {
    entries := [];
    for j := 0 to |keys|
      invariant entries == Entries(infos, keys[..j])
    {
      var c := clusters[keys[j]];
      var scores := ScoreRole(c.features);
      assert keys[..j + 1][..j] == keys[..j];
      entries := entries + [Entry(keys[j], scores.0, scores.1, OrgVariant(c.slugs), c.docs)];
    }
    assert keys[..|keys|] == keys;
  }

  /** The write-back loop: every document of every ranked cluster gets the
      cluster's role and variant. */
  method AssignRoles(ranked: seq<Entry>, devKey: string, grpKey: string) returns (updates: seq<Update>)
    ensures updates == AllUpdates(ranked, devKey, grpKey)
  {
    updates := [];
    for j := 0 to |ranked|
      invariant updates == AllUpdates(ranked[..j], devKey, grpKey)
    {
      var e := ranked[j];
      var role := RoleOf(e.key, devKey, grpKey);
      ghost var before := updates;
      for m := 0 to |e.docs|
        invariant updates == before + RowUpdates(e.docs[..m], role, e.variant)
      {
        assert e.docs[..m + 1][..m] == e.docs[..m];
        updates := updates + [UpdateOf(e.docs[m], role, e.variant)];
      }
      assert e.docs[..|e.docs|] == e.docs;
      assert ranked[..j + 1][..j] == ranked[..j];
    }
    assert ranked[..|ranked|] == ranked;
  }

  /** `run` after the first pass: cluster, score, rank, assign. */
  method Run(infos: seq<DocInfo>) returns (out: Outcome)
    ensures out == RunSpec(infos)
  {
    var keys, clusters := ClusterByKey(infos);
    if |keys| == 0 {
      return NothingToAssign;
    }
    var entries := ScoreClusters(keys, clusters, infos);
    var ranked := SortDesc(entries, Scores, PairLe);
    assert ranked == Ranked(infos);
    var devKey := ranked[0].key;
    var grpKey := if |ranked| > 1 then ranked[1].key else devKey;
    var updates := AssignRoles(ranked, devKey, grpKey);
    out := Assigned(updates);
  }

  // ---------------------------------------------------------------------
  // Properties of the role assignment

  /** Nothing is written exactly when no document has a key. */
  lemma NothingWithoutKeys(infos: seq<DocInfo>)
    ensures RunSpec(infos) == NothingToAssign <==> forall d :: d in infos ==> KeyOf(d).None?
  {
    var ks := KeysInOrder(infos);
    if ks != [] {
      assert ks[0] in ks;
    }
    if exists d :: d in infos && KeyOf(d).Some? {
      var d :| d in infos && KeyOf(d).Some?;
      assert KeyOf(d).value in ks;
    }
  }

  lemma {:induction false} AllUpdatesMembers(ranked: seq<Entry>, devKey: string, grpKey: string, u: Update)
    ensures u in AllUpdates(ranked, devKey, grpKey) <==>
      exists j, m :: 0 <= j < |ranked| && 0 <= m < |ranked[j].docs|
                     && u == UpdateOf(ranked[j].docs[m], RoleOf(ranked[j].key, devKey, grpKey), ranked[j].variant)
  {
    if ranked != [] {
      var p := ranked[..|ranked| - 1];
      var e := ranked[|ranked| - 1];
      AllUpdatesMembers(p, devKey, grpKey, u);
      var rows := RowUpdates(e.docs, RoleOf(e.key, devKey, grpKey), e.variant);
      assert u in AllUpdates(ranked, devKey, grpKey) <==> u in AllUpdates(p, devKey, grpKey) || u in rows;
      if u in rows {
        var m :| 0 <= m < |rows| && rows[m] == u;
        assert ranked[|ranked| - 1] == e;
      }
      if exists j, m :: 0 <= j < |ranked| && 0 <= m < |ranked[j].docs|
                        && u == UpdateOf(ranked[j].docs[m], RoleOf(ranked[j].key, devKey, grpKey), ranked[j].variant) {
        var j, m :| 0 <= j < |ranked| && 0 <= m < |ranked[j].docs|
                    && u == UpdateOf(ranked[j].docs[m], RoleOf(ranked[j].key, devKey, grpKey), ranked[j].variant);
        if j < |ranked| - 1 {
          assert p[j] == ranked[j];
        } else {
          assert rows[m] == u;
        }
      }
    }
  }

  /** Each ranked cluster is the scored cluster of one of the keys. */
  lemma RankedFromKeys(infos: seq<DocInfo>)
    ensures forall i :: 0 <= i < |Ranked(infos)| ==>
      Ranked(infos)[i].key in KeysInOrder(infos)
      && Ranked(infos)[i] == EntryOf(Ranked(infos)[i].key, ClusterOf(infos, Ranked(infos)[i].key))
  {
    var ks := KeysInOrder(infos);
    var es := Entries(infos, ks);
    var r := Ranked(infos);
    forall i | 0 <= i < |r|
      ensures r[i].key in ks && r[i] == EntryOf(r[i].key, ClusterOf(infos, r[i].key))
    {
      assert r[i] in multiset(es);
      var p :| 0 <= p < |es| && es[p] == r[i];
    }
  }

  /** No key is ranked twice. */
  lemma RankedKeysDistinct(infos: seq<DocInfo>)
    ensures forall i, j :: 0 <= i < j < |Ranked(infos)| ==> Ranked(infos)[i].key != Ranked(infos)[j].key
  {
    var ks := KeysInOrder(infos);
    var es := Entries(infos, ks);
    assert forall p :: 0 <= p < |es| ==> es[p].key == ks[p];
    PermutationKeepsKeysDistinct(es, Ranked(infos), (e: Entry) => e.key);
  }

  /** The highest-ranked cluster is the developer, the next the group, every
      other cluster "other"; a lone cluster is the developer and no one is
      the group. The developer's (developer, group) score is the highest. */
  lemma RolesByRank(infos: seq<DocInfo>)
    requires Ranked(infos) != []
    ensures var r := Ranked(infos); var ks := RoleKeys(r);
      RoleOf(r[0].key, ks.0, ks.1) == DeveloperEntity
      && (|r| > 1 ==> RoleOf(r[1].key, ks.0, ks.1) == GroupEntity)
      && (forall i :: 2 <= i < |r| ==> RoleOf(r[i].key, ks.0, ks.1) == OtherEntity)
      && (|r| == 1 ==> forall i :: 0 <= i < |r| ==> RoleOf(r[i].key, ks.0, ks.1) != GroupEntity)
      && (forall i :: 0 <= i < |r| ==> PairLe(Scores(r[i]), Scores(r[0])))
  {
    RankedKeysDistinct(infos);
  }

  /** The developer is the first key, in order of first appearance, whose
      (developer, group) score is the largest: ties go to the earlier
      cluster, as Python's stable sort leaves them. */
  lemma DeveloperIsFirstTop(infos: seq<DocInfo>)
    requires Ranked(infos) != []
    ensures var ks := KeysInOrder(infos);
      RoleKeys(Ranked(infos)).0 == ks[FirstTop(Entries(infos, ks))]
  {
    var ks := KeysInOrder(infos);
    var es := Entries(infos, ks);
    PairLeIsTotalOrder();
    SortDescHead(es, Scores, PairLe);
    var p := FirstTop(es);
    assert Ranked(infos)[0] == es[p];
    assert es[p].key == ks[p];
  }

  /** Every key's scored cluster is ranked. */
  lemma KeyRanked(infos: seq<DocInfo>, k: string)
    requires k in KeysInOrder(infos)
    ensures exists j :: 0 <= j < |Ranked(infos)| && Ranked(infos)[j] == EntryOf(k, ClusterOf(infos, k))
  {
    var keys := KeysInOrder(infos);
    var es := Entries(infos, keys);
    var p :| 0 <= p < |keys| && keys[p] == k;
    assert es[p] in multiset(Ranked(infos));
  }

  /** Every document with a key is written back with its cluster's role and
      organisation variant, its own slug, state and confidence, and its
      status or "unassigned". */
  lemma KeyedDocumentsUpdated(infos: seq<DocInfo>, i: nat)
    requires i < |infos| && KeyOf(infos[i]).Some?
    ensures RunSpec(infos).Assigned?
    ensures var k := KeyOf(infos[i]).value; var r := Ranked(infos); var ks := RoleKeys(r);
      UpdateOf(infos[i].row, RoleOf(k, ks.0, ks.1), OrgVariant(ClusterOf(infos, k).slugs)) in RunSpec(infos).updates
  {
    var k := KeyOf(infos[i]).value;
    assert k in KeysInOrder(infos) by {
      assert infos[i] in infos;
    }
    KeyRanked(infos, k);
    var r := Ranked(infos);
    var c := ClusterOf(infos, k);
    var j :| 0 <= j < |r| && r[j] == EntryOf(k, c);
    ClusterRows(infos, k);
    assert infos[i].row in c.docs;
    var m :| 0 <= m < |c.docs| && c.docs[m] == infos[i].row;
    var ks := RoleKeys(r);
    var u := UpdateOf(infos[i].row, RoleOf(k, ks.0, ks.1), OrgVariant(c.slugs));
    assert u == UpdateOf(r[j].docs[m], RoleOf(r[j].key, ks.0, ks.1), r[j].variant);
    AllUpdatesMembers(r, ks.0, ks.1, u);
  }

  /** Every update belongs to a document with a key, and carries its
      cluster's role and variant. */
  lemma UpdatesAreForKeyedDocuments(infos: seq<DocInfo>, u: Update)
    requires RunSpec(infos).Assigned? && u in RunSpec(infos).updates
    ensures var r := Ranked(infos); var ks := RoleKeys(r);
      exists d :: d in infos && KeyOf(d).Some?
        && u == UpdateOf(d.row, RoleOf(KeyOf(d).value, ks.0, ks.1), OrgVariant(ClusterOf(infos, KeyOf(d).value).slugs))
  {
    var r := Ranked(infos);
    var ks := RoleKeys(r);
    AllUpdatesMembers(r, ks.0, ks.1, u);
    var j, m :| 0 <= j < |r| && 0 <= m < |r[j].docs| && u == UpdateOf(r[j].docs[m], RoleOf(r[j].key, ks.0, ks.1), r[j].variant);
    RankedFromKeys(infos);
    var k := r[j].key;
    ClusterRows(infos, k);
    assert r[j].docs[m] in ClusterOf(infos, k).docs;
    var d :| d in infos && KeyOf(d) == Some(k) && d.row == r[j].docs[m];
  }
}

=== FILE: fuse.dfy ===
/** Score fusion: a clipped weighted sum of the filename, keyword and
    embedding scores. */
module Fusion {

  /** Weights for (filename, keyword, embedding) scores. */
  datatype Weights = Weights(filename: real, keyword: real, embedding: real)

  /** The weights used when the caller passes none. */
  const DefaultWeights: Weights := Weights(0.20, 0.35, 0.45)

  /** `max(0.0, min(1.0, x))`. */
  function Clip01(x: real): (r: real)
    ensures 0.0 <= r <= 1.0
    ensures 0.0 <= x <= 1.0 ==> r == x
    ensures x < 0.0 ==> r == 0.0
    ensures x > 1.0 ==> r == 1.0
  {
    if x < 0.0 then 0.0 else if x > 1.0 then 1.0 else x
  }

  function WeightedSum(s1: real, s2: real, s3: real, w: Weights): real {
    w.filename * s1 + w.keyword * s2 + w.embedding * s3
  }

  /** The fused confidence of one candidate category. */
  function FuseScores(s1: real, s2: real, s3: real, w: Weights := DefaultWeights): (r: real)
    ensures 0.0 <= r <= 1.0
    ensures 0.0 <= WeightedSum(s1, s2, s3, w) <= 1.0 ==> r == WeightedSum(s1, s2, s3, w)
    ensures WeightedSum(s1, s2, s3, w) <= 0.0 ==> r == 0.0
    ensures WeightedSum(s1, s2, s3, w) >= 1.0 ==> r == 1.0
  {
    Clip01(WeightedSum(s1, s2, s3, w))
  }

  lemma ScaleMonotone(w: real, s: real, t: real)
    requires w >= 0.0 && s <= t
    ensures w * s <= w * t
  {
    assert w * t - w * s == w * (t - s);
  }

  lemma SumMonotone(a1: real, a2: real, a3: real, b1: real, b2: real, b3: real)
    requires a1 <= b1 && a2 <= b2 && a3 <= b3
    ensures a1 + a2 + a3 <= b1 + b2 + b3
  {
  }

  /** With non-negative weights, raising any score never lowers the fused score. */
  lemma FuseMonotone(s1: real, s2: real, s3: real, t1: real, t2: real, t3: real, w: Weights)
    requires w.filename >= 0.0 && w.keyword >= 0.0 && w.embedding >= 0.0
    requires s1 <= t1 && s2 <= t2 && s3 <= t3
    ensures FuseScores(s1, s2, s3, w) <= FuseScores(t1, t2, t3, w)
  {
    ScaleMonotone(w.filename, s1, t1);
    ScaleMonotone(w.keyword, s2, t2);
    ScaleMonotone(w.embedding, s3, t3);
    SumMonotone(w.filename * s1, w.keyword * s2, w.embedding * s3,
                w.filename * t1, w.keyword * t2, w.embedding * t3);
    assert WeightedSum(s1, s2, s3, w) <= WeightedSum(t1, t2, t3, w);
  }

  /** With the default weights, which sum to one, scores in [0,1] need no
      clipping. */
  lemma DefaultFusionUnclipped(s1: real, s2: real, s3: real)
    requires 0.0 <= s1 <= 1.0 && 0.0 <= s2 <= 1.0 && 0.0 <= s3 <= 1.0
    ensures FuseScores(s1, s2, s3) == 0.20 * s1 + 0.35 * s2 + 0.45 * s3
  {
    assert WeightedSum(s1, s2, s3, DefaultWeights) == 0.20 * s1 + 0.35 * s2 + 0.45 * s3;
  }
}

=== FILE: legacy_catalogue.dfy ===
/** The older copy of the category catalogue kept beside the resolver. It
    reads only the list shape, stores state and organisation fields exactly as
    given, and normalises the requested jurisdiction by upper-casing alone.
    Its `by_slug` and `names_for_fuzzy` are the same as the newer catalogue's
    and are modelled there. */
module LegacyCatalogue {
  import opened Common
  import opened Catalogue

  /** `(state or "").upper() or None`. */
  function LegacyNormState(state: Option<string>): (r: Option<string>)
    ensures r.None? <==> state.None? || state.value == []
    ensures r.Some? ==> r.value == Upper(state.value)
  {
    if state.None? || state.value == [] then None else Some(Upper(state.value))
  }

  /** On a bare two-letter code, in any case, both versions normalise alike;
      on a full name they differ. */
  lemma LegacyAgreesOnCodes(s: string)
    requires Upper(s) == "TS" || Upper(s) == "KA"
    ensures LegacyNormState(Some(s)) == NormState(Some(s))
  {
    assert !IsSpace(s[0]) && !IsSpace(s[1]) by {
      assert Upper(s)[0] == UpperChar(s[0]) && Upper(s)[1] == UpperChar(s[1]);
    }
    StripUnpadded(s);
  }

  lemma LegacyDiffersOnNames(t: string)
    requires t == "telangana"
    ensures LegacyNormState(Some(t)) == Some("TELANGANA")
    ensures NormState(Some(t)) == Some("TS")
  {
    assert Upper(t) == "TELANGANA" by {
      var u := Upper(t);
      assert u[0] == 'T' && u[1] == 'E' && u[2] == 'L' && u[3] == 'A' && u[4] == 'N';
      assert u[5] == 'G' && u[6] == 'A' && u[7] == 'N' && u[8] == 'A';
    }
    StripUnpadded(t);
  }

  /** The legacy `filter_by_state`: the same loop as the newer version, run on
      the upper-cased request. */
  method FilterByState(cats: seq<Category>, state: Option<string>) returns (out: seq<Category>)
    ensures out == Kept(cats, LegacyNormState(state))
    ensures IsSubsequence(out, cats)
    ensures forall c :: c in cats && !IsStateSpecific(c) ==> c in out
    ensures forall c :: c in cats && IsStateSpecific(c) ==>
              (c in out <==> LegacyNormState(state).Some? && c.stateVariant == LegacyNormState(state))
  {
    out := FilterNormalised(cats, LegacyNormState(state));
    KeptIsSubsequence(cats, LegacyNormState(state));
    KeptMembers(cats, LegacyNormState(state));
  }

  /** With no jurisdiction, or an empty one, no approvals or land category
      survives. */
  lemma NoStateDropsStateSpecific(cats: seq<Category>, state: Option<string>)
    requires state.None? || state == Some("")
    ensures forall c :: c in Kept(cats, LegacyNormState(state)) ==> !IsStateSpecific(c)
  {
    KeptMembers(cats, LegacyNormState(state));
  }

  /** The record mapping of the legacy loader: every field as stored, except
      that keywords and synonyms are lower-cased. */
  function MapLegacyRecord(item: Json): (r: Result<Category, LoadError>)
    ensures !item.JObj? ==> r == Err(NotARecord)
    ensures item.JObj? && "slug" !in item.fields ==> r == Err(MissingKey("slug"))
    ensures r.Ok? ==> item.JObj? && Get(item.fields, "slug") == JStr(r.value.slug)
                      && Get(item.fields, "display") == JStr(r.value.display)
                      && Get(item.fields, "top_entity") == JStr(r.value.topEntity)
                      && OptionalString(item.fields, "state_variant") == Ok(r.value.stateVariant)
                      && OptionalString(item.fields, "org_variant") == Ok(r.value.orgVariant)
  {
    if !item.JObj? then Err(NotARecord)
    else
      var d := item.fields;
      var slug :- Required(d, "slug");
      var display :- Required(d, "display");
      var topEntity :- Required(d, "top_entity");
      var state :- OptionalString(d, "state_variant");
      var org :- OptionalString(d, "org_variant");
      var keywords :- LoweredList(d, "keywords");
      var synonyms :- LoweredList(d, "synonyms");
      var prototype :- Prototype(d);
      Ok(Category(slug, display, topEntity, state, org, keywords, synonyms, prototype))
  }

  /** A record whose state is absent or already a code, and whose
      organisation type is not the empty string, loads the same under both
      versions' list-shape mapping. */
  lemma LegacyMatchesListShape(item: Json)
    requires MapLegacyRecord(item).Ok?
    requires MapLegacyRecord(item).value.stateVariant.None?
             || MapLegacyRecord(item).value.stateVariant == Some("TS")
             || MapLegacyRecord(item).value.stateVariant == Some("KA")
    requires MapLegacyRecord(item).value.orgVariant != Some("")
    ensures MapRecord(item, false) == MapLegacyRecord(item)
  {
    var c := MapLegacyRecord(item).value;
    var d := item.fields;
    if c.stateVariant.Some? {
      CodeIsFixed(c.stateVariant.value);
    }
    LegacyFields(item);
    NonEmptyIsTruthy(d, "org_variant", c.orgVariant);
  }

  /** An optional string that is present and non-empty reads the same when
      falsy values count as absent. */
  lemma NonEmptyIsTruthy(d: map<string, Json>, key: string, o: Option<string>)
    requires OptionalString(d, key) == Ok(o) && o != Some("")
    ensures TruthyString(d, key) == Ok(o)
  {
  }

  /** The field readings behind a record the legacy mapping accepts. */
  lemma LegacyFields(item: Json)
    requires MapLegacyRecord(item).Ok?
    ensures var c, d := MapLegacyRecord(item).value, item.fields;
      && Required(d, "slug") == Ok(c.slug)
      && Required(d, "display") == Ok(c.display)
      && Required(d, "top_entity") == Ok(c.topEntity)
      && OptionalString(d, "state_variant") == Ok(c.stateVariant)
      && OptionalString(d, "org_variant") == Ok(c.orgVariant)
      && LoweredList(d, "keywords") == Ok(c.keywords)
      && LoweredList(d, "synonyms") == Ok(c.synonyms)
      && Prototype(d) == Ok(c.prototype)
  {
  }

  /** The legacy `load_sot` after the file is parsed: each element of the top
      level is mapped in order; the first failing one aborts the load. */
  method LoadSot(raw: Json) returns (r: Result<seq<Category>, LoadError>)
    ensures Iterate(raw).Err? ==> r == Err(Iterate(raw).error)
    ensures r.Ok? ==> Iterate(raw).Ok? && |r.value| == |Iterate(raw).value|
                      && forall i :: 0 <= i < |r.value| ==> MapLegacyRecord(Iterate(raw).value[i]) == Ok(r.value[i])
    ensures Iterate(raw).Ok? && r.Err? ==>
      exists i :: 0 <= i < |Iterate(raw).value| && MapLegacyRecord(Iterate(raw).value[i]) == Err(r.error)
        && forall j :: 0 <= j < i ==> MapLegacyRecord(Iterate(raw).value[j]).Ok?
  {
    var data := Iterate(raw);
    if data.Err? {
      return Err(data.error);
    }
    var items := data.value;
    var cats: seq<Category> := [];
    for i := 0 to |items|
      invariant |cats| == i
      invariant forall k :: 0 <= k < i ==> MapLegacyRecord(items[k]) == Ok(cats[k])
    {
      var c := MapLegacyRecord(items[i]);
      if c.Err? {
        return Err(c.error);
      }
      cats := cats + [c.value];
    }
    return Ok(cats);
  }
}

=== FILE: ranking.dfy ===
/** Python's `max(xs, key=...)` and stable `list.sort(key=..., reverse=True)`,
    over any element type with a key drawn from a total order. Both the
    resolver (ranking candidates by fused score) and the role inference
    (ranking clusters by developer and group score) use them. */
module Ranking {

  /** `le` is a total order: reflexive, antisymmetric, transitive, total. */
  ghost predicate TotalOrder<K(!new)>(le: (K, K) -> bool) {
    && (forall a, b :: le(a, b) && le(b, a) ==> a == b)
    && (forall a, b, c :: le(a, b) && le(b, c) ==> le(a, c))
    && (forall a, b :: le(a, b) || le(b, a))
  }

  /** Keys never increase along `s`. */
  ghost predicate SortedDesc<T, K>(s: seq<T>, key: T -> K, le: (K, K) -> bool) {
    forall i, j :: 0 <= i < j < |s| ==> le(key(s[j]), key(s[i]))
  }

  /** The elements of `s` whose key is `k`, in their order in `s`. */
  function WithKey<T, K(==)>(s: seq<T>, key: T -> K, k: K): seq<T> {
    if s == [] then []
    else (if key(s[0]) == k then [s[0]] else []) + WithKey(s[1..], key, k)
  }

  /** The index Python's `max(s, key=key)` picks: the first element whose key
      no other element exceeds. */
  function FirstMaxIndex<T, K(!new)>(s: seq<T>, key: T -> K, le: (K, K) -> bool): (i: nat)
    requires s != []
    requires TotalOrder(le)
    ensures i < |s|
    ensures forall j :: 0 <= j < |s| ==> le(key(s[j]), key(s[i]))
    ensures forall j :: 0 <= j < i ==> !le(key(s[i]), key(s[j]))
  {
    if |s| == 1 then 0
    else
      var i := FirstMaxIndex(s[..|s| - 1], key, le);
      // a later element replaces the running maximum only when strictly greater
      if le(key(s[|s| - 1]), key(s[i])) then i else |s| - 1
  }

  /** Places `x` after every element of `s` whose key is at least `x`'s. */
  function Insert<T, K>(x: T, s: seq<T>, key: T -> K, le: (K, K) -> bool): seq<T> {
    if s == [] then [x]
    else if le(key(x), key(s[0])) then [s[0]] + Insert(x, s[1..], key, le)
    else [x] + s
  }

  /** Stable sort by descending key: equal keys keep their input order. */
  function SortDesc<T, K>(s: seq<T>, key: T -> K, le: (K, K) -> bool): seq<T> {
    if s == [] then [] else Insert(s[|s| - 1], SortDesc(s[..|s| - 1], key, le), key, le)
  }

  lemma {:induction false} WithKeyAppend<T, K(!new)>(a: seq<T>, b: seq<T>, key: T -> K, k: K)
    ensures WithKey(a + b, key, k) == WithKey(a, key, k) + WithKey(b, key, k)
  {
    if a == [] {
      assert a + b == b;
    } else {
      var h := if key(a[0]) == k then [a[0]] else [];
      assert (a + b)[0] == a[0] && (a + b)[1..] == a[1..] + b;
      assert WithKey(a + b, key, k) == h + WithKey(a[1..] + b, key, k);
      WithKeyAppend(a[1..], b, key, k);
    }
  }

  lemma {:induction false} WithKeyNone<T, K(!new)>(s: seq<T>, key: T -> K, k: K)
    requires forall i :: 0 <= i < |s| ==> key(s[i]) != k
    ensures WithKey(s, key, k) == []
  {
    if s != [] {
      WithKeyNone(s[1..], key, k);
    }
  }

  lemma {:induction false} InsertMultiset<T, K>(x: T, s: seq<T>, key: T -> K, le: (K, K) -> bool)
    ensures multiset(Insert(x, s, key, le)) == multiset(s) + multiset{x}
  {
    if s != [] && le(key(x), key(s[0])) {
      InsertMultiset(x, s[1..], key, le);
      assert s == [s[0]] + s[1..];
    }
  }

  lemma SortedTail<T, K>(s: seq<T>, key: T -> K, le: (K, K) -> bool)
    requires s != [] && SortedDesc(s, key, le)
    ensures SortedDesc(s[1..], key, le)
  {
    forall i, j | 0 <= i < j < |s[1..]| ensures le(key(s[1..][j]), key(s[1..][i])) {
      assert s[1..][j] == s[j + 1] && s[1..][i] == s[i + 1];
    }
  }

  /** Inserting an element below a bound into a sequence below that bound
      keeps everything below it. */
  lemma {:induction false} InsertBelow<T, K>(x: T, s: seq<T>, key: T -> K, le: (K, K) -> bool, b: K)
    requires le(key(x), b)
    requires forall i :: 0 <= i < |s| ==> le(key(s[i]), b)
    ensures forall i :: 0 <= i < |Insert(x, s, key, le)| ==> le(key(Insert(x, s, key, le)[i]), b)
  {
    if s != [] && le(key(x), key(s[0])) {
      var t := Insert(x, s[1..], key, le);
      forall i | 0 <= i < |s[1..]| ensures le(key(s[1..][i]), b) {
        assert s[1..][i] == s[i + 1];
      }
      InsertBelow(x, s[1..], key, le, b);
      assert Insert(x, s, key, le) == [s[0]] + t;
    }
  }

  lemma {:induction false} InsertSorted<T, K(!new)>(x: T, s: seq<T>, key: T -> K, le: (K, K) -> bool)
    requires TotalOrder(le)
    requires SortedDesc(s, key, le)
    ensures SortedDesc(Insert(x, s, key, le), key, le)
  {
    var r := Insert(x, s, key, le);
    if s == [] {
    } else if le(key(x), key(s[0])) {
      var t := Insert(x, s[1..], key, le);
      SortedTail(s, key, le);
      InsertSorted(x, s[1..], key, le);
      assert r == [s[0]] + t;
      // every element of t is x or an element of s[1..], so none exceeds s[0]
      forall j | 0 <= j < |s[1..]| ensures le(key(s[1..][j]), key(s[0])) {
        assert s[1..][j] == s[j + 1];
      }
      InsertBelow(x, s[1..], key, le, key(s[0]));
      forall i, j | 0 <= i < j < |r| ensures le(key(r[j]), key(r[i])) {
        assert r[j] == t[j - 1];
        if i > 0 {
          assert r[i] == t[i - 1];
        }
      }
    } else {
      assert r == [x] + s;
      forall i, j | 0 <= i < j < |r| ensures le(key(r[j]), key(r[i])) {
        assert r[j] == s[j - 1];
        if i == 0 {
          assert le(key(s[j - 1]), key(s[0]));
        } else {
          assert r[i] == s[i - 1];
        }
      }
    }
  }

  lemma {:induction false} InsertWithKey<T, K(!new)>(x: T, s: seq<T>, key: T -> K, le: (K, K) -> bool, k: K)
    requires forall a :: le(a, a)
    requires SortedDesc(s, key, le)
    ensures WithKey(Insert(x, s, key, le), key, k) == WithKey(s, key, k) + (if key(x) == k then [x] else [])
  {
    var r := Insert(x, s, key, le);
    if s == [] {
      assert r == [x] && r[1..] == [];
    } else if le(key(x), key(s[0])) {
      var t := Insert(x, s[1..], key, le);
      SortedTail(s, key, le);
      InsertWithKey(x, s[1..], key, le, k);
      assert r[0] == s[0] && r[1..] == t;
      var h := if key(s[0]) == k then [s[0]] else [];
      assert WithKey(r, key, k) == h + WithKey(t, key, k);
      assert WithKey(s, key, k) == h + WithKey(s[1..], key, k);
    } else {
      assert r == [x] + s;
      assert r[0] == x && r[1..] == s;
      if key(x) == k {
        // everything in s lies strictly below x's key
        forall i | 0 <= i < |s| ensures key(s[i]) != k {
          if i > 0 {
            assert le(key(s[i]), key(s[0]));
          } else {
            assert le(key(s[0]), key(s[0]));
          }
        }
        WithKeyNone(s, key, k);
      }
    }
  }


  lemma {:induction false} SortDescFacts<T, K(!new)>(s: seq<T>, key: T -> K, le: (K, K) -> bool)
    requires TotalOrder(le)
    ensures |SortDesc(s, key, le)| == |s|
    ensures multiset(SortDesc(s, key, le)) == multiset(s)
    ensures SortedDesc(SortDesc(s, key, le), key, le)
    ensures forall k :: WithKey(SortDesc(s, key, le), key, k) == WithKey(s, key, k)
  {
    if s != [] {
      var p := s[..|s| - 1];
      var x := s[|s| - 1];
      SortDescFacts(p, key, le);
      InsertMultiset(x, SortDesc(p, key, le), key, le);
      InsertSorted(x, SortDesc(p, key, le), key, le);
      assert s == p + [x];
      forall k ensures WithKey(SortDesc(s, key, le), key, k) == WithKey(s, key, k) {
        InsertWithKey(x, SortDesc(p, key, le), key, le, k);
        WithKeyAppend(p, [x], key, k);
        assert WithKey([x], key, k) == (if key(x) == k then [x] else []) by {
          assert [x][1..] == [];
        }
      }
      assert |multiset(SortDesc(s, key, le))| == |multiset(s)|;
    }
  }

  lemma {:induction false} WithKeyHead<T, K(!new)>(s: seq<T>, key: T -> K, i: nat)
    requires i < |s|
    requires forall j :: 0 <= j < i ==> key(s[j]) != key(s[i])
    ensures WithKey(s, key, key(s[i])) != [] && WithKey(s, key, key(s[i]))[0] == s[i]
  {
    if i > 0 {
      WithKeyHead(s[1..], key, i - 1);
      assert s[1..][i - 1] == s[i];
    }
  }

  /** The head of the stable descending sort is exactly what Python's `max`
      picks: the first element of maximal key. */
  lemma SortDescHead<T, K(!new)>(s: seq<T>, key: T -> K, le: (K, K) -> bool)
    requires TotalOrder(le)
    requires s != []
    ensures SortDesc(s, key, le) != []
    ensures SortDesc(s, key, le)[0] == s[FirstMaxIndex(s, key, le)]
  {
    var r := SortDesc(s, key, le);
    SortDescFacts(s, key, le);
    var i := FirstMaxIndex(s, key, le);
    var k := key(s[i]);
    // r[0] has the largest key in r, hence the same key as s[i]
    assert r[0] in multiset(s);
    assert s[i] in multiset(r);
    var a :| 0 <= a < |s| && s[a] == r[0];
    var b :| 0 <= b < |r| && r[b] == s[i];
    assert le(key(r[0]), k);
    assert b == 0 || le(key(r[b]), key(r[0]));
    assert key(r[0]) == k;
    forall j | 0 <= j < i ensures key(s[j]) != key(s[i]) {
      assert !le(key(s[i]), key(s[j]));
    }
    WithKeyHead(s, key, i);
    WithKeyHead(r, key, 0);
  }

  lemma CountAtLeastTwo<T>(s: seq<T>, i: nat, j: nat)
    requires i < j < |s| && s[i] == s[j]
    ensures multiset(s)[s[i]] >= 2
  {
    assert s == s[..i] + [s[i]] + s[i + 1..j] + [s[j]] + s[j + 1..];
  }

  lemma CountOne<T>(s: seq<T>, p: nat)
    requires p < |s|
    requires forall q :: 0 <= q < |s| && s[q] == s[p] ==> q == p
    ensures multiset(s)[s[p]] == 1
  {
    var a, b := s[..p], s[p + 1..];
    assert s == a + [s[p]] + b;
    assert s[p] !in a by {
      forall q | 0 <= q < |a| ensures a[q] != s[p] {
        assert a[q] == s[q];
      }
    }
    assert s[p] !in b by {
      forall q | 0 <= q < |b| ensures b[q] != s[p] {
        assert b[q] == s[p + 1 + q];
      }
    }
  }

  /** Reordering a sequence whose elements have pairwise distinct keys keeps
      the keys pairwise distinct. */
  lemma PermutationKeepsKeysDistinct<T, K>(es: seq<T>, r: seq<T>, key: T -> K)
    requires multiset(r) == multiset(es)
    requires forall p, q :: 0 <= p < q < |es| ==> key(es[p]) != key(es[q])
    ensures forall i, j :: 0 <= i < j < |r| ==> key(r[i]) != key(r[j])
  {
    forall i, j | 0 <= i < j < |r| ensures key(r[i]) != key(r[j]) {
      assert r[i] in multiset(es) && r[j] in multiset(es);
      var p :| 0 <= p < |es| && es[p] == r[i];
      var q :| 0 <= q < |es| && es[q] == r[j];
      if p == q {
        CountAtLeastTwo(r, i, j);
        CountOne(es, p);
        assert false;
      }
    }
  }
}

=== FILE: resolver.dfy ===
/** The per-document decision: every candidate category is scored on the
    three signals, the scores are fused with weights that depend on how
    informative the filename is, candidates are ranked, a rule hit may
    override or boost the winner, and the final confidence decides the
    status. Chunks, category vectors and filename counts are inputs; the
    regular expressions, fuzzy ratios and vector norm are supplied by the
    caller. */
module Resolver {
  import opened Common
  import opened Catalogue
  import opened Signals
  import opened Fusion
  import opened Rules
  import opened Ranking

  /** The document record the resolver reads. */
  datatype DocRow = DocRow(id: int, documentName: string)

  /** One scored category: its fused score and the three signals. */
  datatype Candidate = Candidate(slug: string, final: real, s1: real, s2: real, s3: real, cat: Category)

  function FinalOf(c: Candidate): real { c.final }

  function ScoreOf(h: Hit): real { h.score }

  predicate RealLe(a: real, b: real) { a <= b }

  lemma RealLeIsTotalOrder()
    ensures TotalOrder(RealLe)
  {
  }

  // ---------------------------------------------------------------------
  // Text window

  const WindowChunks: nat := 12
  const WindowChars: nat := 20000

  /** `sum(len(t) for t in ts)`. */
  function TotalLength(ts: seq<string>): nat {
    if ts == [] then 0 else |ts[0]| + TotalLength(ts[1..])
  }

  lemma {:induction false} TotalLengthAppend(ts: seq<string>, t: string)
    ensures TotalLength(ts + [t]) == TotalLength(ts) + |t|
  {
    if ts == [] {
      assert ts + [t] == [t];
      assert [t][1..] == [];
    } else {
      assert (ts + [t])[1..] == ts[1..] + [t];
      TotalLengthAppend(ts[1..], t);
    }
  }

  /** The texts taken after `acc` characters are already in the window: each
      next text is taken, and taking stops once the total passes the
      character budget. */
  function WindowFrom(ts: seq<string>, acc: nat): seq<string> {
    if ts == [] then []
    else if acc + |ts[0]| > WindowChars then [ts[0]]
    else [ts[0]] + WindowFrom(ts[1..], acc + |ts[0]|)
  }

  /** The text window the rules read. */
  function Window(chunks: seq<Chunk>): seq<string> {
    WindowFrom(Texts(Take(chunks, WindowChunks)), 0)
  }

  lemma {:induction false} WindowFromFacts(ts: seq<string>, acc: nat)
    requires acc <= WindowChars
    ensures var w := WindowFrom(ts, acc);
      |w| <= |ts| && w == ts[..|w|]
      && (ts != [] ==> w != [])
      && (forall k :: 0 <= k < |w| ==> acc + TotalLength(w[..k]) <= WindowChars)
      && (|w| < |ts| ==> acc + TotalLength(w) > WindowChars)
  {
    if ts != [] {
      var w := WindowFrom(ts, acc);
      if acc + |ts[0]| > WindowChars {
        assert w[..0] == [];
        assert TotalLength([ts[0]]) == |ts[0]| by {
          assert [ts[0]][1..] == [];
        }
      } else {
        var rest := WindowFrom(ts[1..], acc + |ts[0]|);
        WindowFromFacts(ts[1..], acc + |ts[0]|);
        assert w == [ts[0]] + rest;
        forall k | 0 <= k < |w| ensures acc + TotalLength(w[..k]) <= WindowChars {
          if k > 0 {
            assert w[..k][1..] == rest[..k - 1];
          }
        }
        assert w[1..] == rest;
      }
    }
  }

  /** The window is a prefix of the first twelve chunk texts, is non-empty
      when there are chunks, takes every text while the running total stays
      within 20000 characters and stops right after the text that passes
      it. */
  lemma WindowCharacterised(chunks: seq<Chunk>)
    ensures var ts := Texts(Take(chunks, WindowChunks)); var w := Window(chunks);
      |w| <= |ts| <= WindowChunks && w == ts[..|w|]
      && (chunks != [] ==> w != [])
      && (forall k :: 0 <= k < |w| ==> TotalLength(w[..k]) <= WindowChars)
      && (|w| < |ts| ==> TotalLength(w) > WindowChars)
  {
    WindowFromFacts(Texts(Take(chunks, WindowChunks)), 0);
  }

  /** The window-building loop over the chunk texts. */
  method WindowOf(ts: seq<string>) returns (texts: seq<string>)
    ensures texts == WindowFrom(ts, 0)
  {
    texts := [];
    for i := 0 to |ts|
      invariant texts + WindowFrom(ts[i..], TotalLength(texts)) == WindowFrom(ts, 0)
    {
      var acc := TotalLength(texts);
      WindowStep(ts, i, texts);
      texts := texts + [ts[i]];
      if acc + |ts[i]| > WindowChars {
        return;
      }
    }
    assert ts[|ts|..] == [];
  }

  /** One iteration of the window loop keeps its invariant, or completes the
      window when the text taken passes the limit. */
  lemma WindowStep(ts: seq<string>, i: nat, texts: seq<string>)
    requires i < |ts|
    requires texts + WindowFrom(ts[i..], TotalLength(texts)) == WindowFrom(ts, 0)
    ensures TotalLength(texts) + |ts[i]| > WindowChars ==> texts + [ts[i]] == WindowFrom(ts, 0)
    ensures TotalLength(texts) + |ts[i]| <= WindowChars ==>
      (texts + [ts[i]]) + WindowFrom(ts[i + 1..], TotalLength(texts + [ts[i]])) == WindowFrom(ts, 0)
  {
    var acc := TotalLength(texts);
    WindowFromStep(ts, i, acc);
    TotalLengthAppend(texts, ts[i]);
    if acc + |ts[i]| <= WindowChars {
      var rest := WindowFrom(ts[i + 1..], acc + |ts[i]|);
      assert (texts + [ts[i]]) + rest == texts + ([ts[i]] + rest);
    }
  }

  lemma WindowFromStep(ts: seq<string>, i: nat, acc: nat)
    requires i < |ts|
    ensures WindowFrom(ts[i..], acc) ==
      if acc + |ts[i]| > WindowChars then [ts[i]] else [ts[i]] + WindowFrom(ts[i + 1..], acc + |ts[i]|)
  {
    assert ts[i..][0] == ts[i] && ts[i..][1..] == ts[i + 1..];
  }

  /** The text window: the first twelve chunk texts, cut after the one that
      passes 20000 characters. */
  method TextWindow(chunks: seq<Chunk>) returns (texts: seq<string>)
    ensures texts == Window(chunks)
  {
    texts := WindowOf(Texts(Take(chunks, WindowChunks)));
  }

  // ---------------------------------------------------------------------
  // Weights

  /** The filename weight: none for a generic or widely shared name, a light
      touch for a name used twice, full weight otherwise. */
  function FilenameWeight(generic: bool, dupCount: int): (w: real)
    ensures w == 0.0 <==> generic || dupCount >= 3
    ensures w == 0.20 <==> !generic && dupCount == 2
    ensures w == 0.40 <==> !generic && dupCount < 2
  {
    if generic || dupCount >= 3 then 0.0
    else if dupCount == 2 then 0.20
    else 0.40
  }

  /** The fusion weights: the filename weight, then 0.30 for keywords and
      0.30 for embeddings. */
  function ResolverWeights(generic: bool, dupCount: int): Weights {
    Weights(FilenameWeight(generic, dupCount), 0.30, 0.30)
  }

  /** More copies of a name never give its filename more weight. */
  lemma FilenameWeightAntitone(generic: bool, d1: int, d2: int)
    requires d1 <= d2
    ensures FilenameWeight(generic, d2) <= FilenameWeight(generic, d1)
  {
  }

  /** The resolver's weights are non-negative and sum to at most one, so
      fusing signals in [0, 1] needs no clipping. */
  lemma ResolverFusionUnclipped(s1: real, s2: real, s3: real, generic: bool, dupCount: int)
    requires 0.0 <= s1 <= 1.0 && 0.0 <= s2 <= 1.0 && 0.0 <= s3 <= 1.0
    ensures FuseScores(s1, s2, s3, ResolverWeights(generic, dupCount)) == WeightedSum(s1, s2, s3, ResolverWeights(generic, dupCount))
  {
    var w := ResolverWeights(generic, dupCount);
    if generic || dupCount >= 3 {
      assert WeightedSum(s1, s2, s3, w) == 0.0 * s1 + 0.30 * s2 + 0.30 * s3;
    } else if dupCount == 2 {
      assert WeightedSum(s1, s2, s3, w) == 0.20 * s1 + 0.30 * s2 + 0.30 * s3;
    } else {
      assert WeightedSum(s1, s2, s3, w) == 0.40 * s1 + 0.30 * s2 + 0.30 * s3;
    }
  }

  /** How many stored documents share the lower-cased name. */
  function DupCount(fnameCounts: map<string, int>, name: string): int {
    if Lower(name) in fnameCounts then fnameCounts[Lower(name)] else 0
  }

  // ---------------------------------------------------------------------
  // Rule selection

  /** `max(rule_hits, key=score)`: the first hit of maximal score. */
  function RuleBest(hits: seq<Hit>): (b: Option<Hit>)
    ensures b.None? <==> hits == []
    ensures b.Some? ==> exists i :: 0 <= i < |hits| && hits[i] == b.value
                          && (forall j :: 0 <= j < |hits| ==> hits[j].score <= b.value.score)
                          && (forall j :: 0 <= j < i ==> hits[j].score < b.value.score)
  {
    if hits == [] then None
    else
      RealLeIsTotalOrder();
      var i := FirstMaxIndex(hits, ScoreOf, RealLe);
      assert forall j :: 0 <= j < |hits| ==> RealLe(ScoreOf(hits[j]), ScoreOf(hits[i]));
      Some(hits[i])
  }

  // ---------------------------------------------------------------------
  // Candidates

  function Lookup(m: map<string, seq<real>>, k: string): Option<seq<real>> {
    if k in m then Some(m[k]) else None
  }

  /** Every category vector has the document vector's length (numpy rejects
      others). */
  predicate VectorsAgree(docVec: Option<seq<real>>, catVecs: map<string, seq<real>>) {
    docVec.Some? ==> forall s :: s in catVecs ==> |catVecs[s]| == |docVec.value|
  }

  /** The scored candidate for one category, given the cleaned filename
      `base`. The keyword signal reads the first six chunks. */
  ghost function CandidateOf(c: Category, base: string, chunks: seq<Chunk>, docVec: Option<seq<real>>,
                             catVecs: map<string, seq<real>>, w: Weights, fz: FuzzMetrics, norm: seq<real> -> real): (cand: Candidate)
    requires VectorsAgree(docVec, catVecs)
    ensures cand.slug == c.slug && cand.cat == c
  {
    var kws := c.keywords + c.synonyms;
    var s1 := FilenameScore(base, c, fz);
    var s2 := KeywordScore(Hits(kws, OpeningText(chunks, 6)), |kws|);
    var s3 := ScoreEmbeddings(docVec, Lookup(catVecs, c.slug), norm);
    Candidate(c.slug, FuseScores(s1, s2, s3, w), s1, s2, s3, c)
  }

  ghost function Candidates(cats: seq<Category>, base: string, chunks: seq<Chunk>, docVec: Option<seq<real>>,
                            catVecs: map<string, seq<real>>, w: Weights, fz: FuzzMetrics, norm: seq<real> -> real): (cs: seq<Candidate>)
    requires VectorsAgree(docVec, catVecs)
    ensures |cs| == |cats|
    ensures forall i :: 0 <= i < |cats| ==> cs[i].slug == cats[i].slug
  {
    if cats == [] then []
    else
      Candidates(cats[..|cats| - 1], base, chunks, docVec, catVecs, w, fz, norm)
      + [CandidateOf(cats[|cats| - 1], base, chunks, docVec, catVecs, w, fz, norm)]
  }

  lemma CandidatesSnoc(cats: seq<Category>, i: nat, base: string, chunks: seq<Chunk>, docVec: Option<seq<real>>,
                       catVecs: map<string, seq<real>>, w: Weights, fz: FuzzMetrics, norm: seq<real> -> real)
    requires i < |cats| && VectorsAgree(docVec, catVecs)
    ensures Candidates(cats[..i + 1], base, chunks, docVec, catVecs, w, fz, norm)
            == Candidates(cats[..i], base, chunks, docVec, catVecs, w, fz, norm)
               + [CandidateOf(cats[i], base, chunks, docVec, catVecs, w, fz, norm)]
  {
    assert cats[..i + 1][..i] == cats[..i];
  }

  /** The three signals and their fusion for one category. */
  method ScoreCandidate(c: Category, fileName: string, ghost base: string, chunks: seq<Chunk>, docVec: Option<seq<real>>,
                        catVecs: map<string, seq<real>>, w: Weights, fz: FuzzMetrics, norm: seq<real> -> real)
    returns (cand: Candidate)
    requires base == CleanFilename(fileName)
    requires VectorsAgree(docVec, catVecs)
    ensures cand == CandidateOf(c, base, chunks, docVec, catVecs, w, fz, norm)
  {
    var s1 := ScoreFilename(fileName, c, fz);
    var s2 := ScoreKeywords(chunks, c, 6);
    var s3 := ScoreEmbeddings(docVec, Lookup(catVecs, c.slug), norm);
    cand := Candidate(c.slug, FuseScores(s1, s2, s3, w), s1, s2, s3, c);
  }

  /** The scoring loop, in category order. */
  method ScoreCandidates(cats: seq<Category>, fileName: string, ghost base: string, chunks: seq<Chunk>, docVec: Option<seq<real>>,
                         catVecs: map<string, seq<real>>, w: Weights, fz: FuzzMetrics, norm: seq<real> -> real)
    returns (scored: seq<Candidate>)
    requires base == CleanFilename(fileName)
    requires VectorsAgree(docVec, catVecs)
    ensures scored == Candidates(cats, base, chunks, docVec, catVecs, w, fz, norm)
  {
    scored := [];
    for i := 0 to |cats|
      invariant scored == Candidates(cats[..i], base, chunks, docVec, catVecs, w, fz, norm)
    {
      var cand := ScoreCandidate(cats[i], fileName, base, chunks, docVec, catVecs, w, fz, norm);
      CandidatesSnoc(cats, i, base, chunks, docVec, catVecs, w, fz, norm);
      scored := scored + [cand];
    }
    assert cats[..|cats|] == cats;
  }

  /** The first candidate, in catalogue order, with a maximal fused score. */
  function FirstBest(cs: seq<Candidate>): (i: nat)
    requires cs != []
    ensures i < |cs| && (forall j :: 0 <= j < |cs| ==> cs[j].final <= cs[i].final)
    ensures forall j :: 0 <= j < i ==> cs[j].final < cs[i].final
  {
    RealLeIsTotalOrder();
    var i := FirstMaxIndex(cs, FinalOf, RealLe);
    assert forall j :: 0 <= j < |cs| ==> RealLe(FinalOf(cs[j]), FinalOf(cs[i]));
    i
  }

  /** The stable descending sort on the fused score: a permutation, in
      non-increasing order, candidates of equal score keeping their
      catalogue order, headed by the first best candidate. */
  function Rank(cs: seq<Candidate>): (ranked: seq<Candidate>)
    ensures |ranked| == |cs| && multiset(ranked) == multiset(cs)
    ensures forall i, j :: 0 <= i < j < |ranked| ==> ranked[j].final <= ranked[i].final
    ensures forall k :: WithKey(ranked, FinalOf, k) == WithKey(cs, FinalOf, k)
    ensures cs != [] ==> ranked[0] == cs[FirstBest(cs)]
  {
    RealLeIsTotalOrder();
    SortDescFacts(cs, FinalOf, RealLe);
    var r := SortDesc(cs, FinalOf, RealLe);
    assert forall i, j :: 0 <= i < j < |r| ==> RealLe(FinalOf(r[j]), FinalOf(r[i]));
    if cs == [] then r
    else
      SortDescHead(cs, FinalOf, RealLe);
      r
  }

  // ---------------------------------------------------------------------
  // Rule override

  /** What the decision records about the rule it used. */
  datatype RuleApplied = RuleApplied(slug: string, score: real, why: Why, partial: bool)

  /** The chosen category, its confidence and the rule record. */
  datatype Pick = Pick(slug: string, cat: Category, final: real, rule: Option<RuleApplied>)

  /** The first ranked candidate carrying `slug`, if any. */
  function FirstWithSlug(ranked: seq<Candidate>, slug: string): (i: Option<nat>)
    ensures i.Some? ==> i.value < |ranked| && ranked[i.value].slug == slug
                        && forall j :: 0 <= j < i.value ==> ranked[j].slug != slug
    ensures i.None? ==> forall j :: 0 <= j < |ranked| ==> ranked[j].slug != slug
  {
    if ranked == [] then None
    else if ranked[0].slug == slug then Some(0)
    else
      var r := FirstWithSlug(ranked[1..], slug);
      if r.Some? then Some(r.value + 1) else None
  }

  /** The rule step: a rule whose slug is a candidate takes over with the
      larger of the two scores; otherwise the fused winner stays and the rule
      can only lift its confidence, at 90% of its score. */
  function ApplyRule(ranked: seq<Candidate>, best: Option<Hit>): Pick
    requires ranked != []
  {
    var top := ranked[0];
    if best.None? then Pick(top.slug, top.cat, top.final, None)
    else
      var r := best.value;
      var i := FirstWithSlug(ranked, r.slug);
      if i.Some? then
        Pick(r.slug, ranked[i.value].cat, Max(top.final, r.score), Some(RuleApplied(r.slug, r.score, r.why, false)))
      else
        Pick(top.slug, top.cat, Max(top.final, r.score * 0.9), Some(RuleApplied(r.slug, r.score * 0.9, r.why, true)))
  }

  /** The override loop over the ranked candidates. */
  method OverrideWithRule(ranked: seq<Candidate>, best: Option<Hit>) returns (pick: Pick)
    requires ranked != []
    ensures pick == ApplyRule(ranked, best)
  {
    var top := ranked[0];
    pick := Pick(top.slug, top.cat, top.final, None);
    if best.None? {
      return;
    }
    var r := best.value;
    var found := false;
    for i := 0 to |ranked|
      invariant forall j :: 0 <= j < i ==> ranked[j].slug != r.slug
    {
      if ranked[i].slug == r.slug {
        pick := Pick(r.slug, ranked[i].cat, Max(pick.final, r.score), Some(RuleApplied(r.slug, r.score, r.why, false)));
        found := true;
        assert FirstWithSlug(ranked, r.slug) == Some(i);
        return;
      }
    }
    pick := Pick(top.slug, top.cat, Max(pick.final, r.score * 0.9), Some(RuleApplied(r.slug, r.score * 0.9, r.why, true)));
  }

  /** Applying a rule never lowers the confidence of the fused winner. */
  lemma RuleNeverLowersFinal(ranked: seq<Candidate>, best: Option<Hit>)
    requires ranked != []
    ensures ApplyRule(ranked, best).final >= ranked[0].final
    ensures best.None? ==> ApplyRule(ranked, best).final == ranked[0].final
  {
  }

  /** A rule hit scoring at least 0.8 lifts the confidence to at least 0.72,
      whether it takes over or only boosts. */
  lemma StrongRuleLiftsFinal(ranked: seq<Candidate>, best: Option<Hit>)
    requires ranked != [] && best.Some? && best.value.score >= 0.8
    ensures ApplyRule(ranked, best).final >= 0.72
    ensures (exists j :: 0 <= j < |ranked| && ranked[j].slug == best.value.slug) ==> ApplyRule(ranked, best).slug == best.value.slug
    ensures (forall j :: 0 <= j < |ranked| ==> ranked[j].slug != best.value.slug) ==>
              ApplyRule(ranked, best).slug == ranked[0].slug && ApplyRule(ranked, best).rule.value.partial
  {
    var r := best.value;
    assert r.score * 0.9 >= 0.72;
    var i := FirstWithSlug(ranked, r.slug);
    if exists j :: 0 <= j < |ranked| && ranked[j].slug == r.slug {
      assert i.Some?;
    }
  }

  // ---------------------------------------------------------------------
  // Status and preview

  datatype Status = Accepted | NeedsReview | Unassigned

  /** The agreed thresholds, on the unrounded confidence. */
  function StatusOf(final: real): (s: Status)
    ensures s == Accepted <==> final >= 0.70
    ensures s == NeedsReview <==> 0.60 <= final < 0.70
    ensures s == Unassigned <==> final < 0.60
  {
    if final >= 0.70 then Accepted
    else if final >= 0.60 then NeedsReview
    else Unassigned
  }

  /** Statuses ordered from worst to best. */
  function StatusRank(s: Status): nat {
    match s
    case Unassigned => 0
    case NeedsReview => 1
    case Accepted => 2
  }

  /** A higher confidence never earns a worse status. */
  lemma StatusMonotone(f1: real, f2: real)
    requires f1 <= f2
    ensures StatusRank(StatusOf(f1)) <= StatusRank(StatusOf(f2))
  {
  }

  /** One row of the top-K preview. */
  datatype PreviewRow = PreviewRow(rank: nat, slug: string, score: real, s1: real, s2: real, s3: real,
                                   display: string, topEntity: string,
                                   stateVariant: Option<string>, orgVariant: Option<string>)

  function RowOf(rank: nat, c: Candidate): PreviewRow {
    PreviewRow(rank, c.slug, c.final, c.s1, c.s2, c.s3, c.cat.display, c.cat.topEntity, c.cat.stateVariant, c.cat.orgVariant)
  }

  /** The first `topk` ranked candidates, ranked from 1. */
  function Preview(ranked: seq<Candidate>, topk: nat): (rows: seq<PreviewRow>)
    ensures |rows| == if topk < |ranked| then topk else |ranked|
    ensures forall i :: 0 <= i < |rows| ==> rows[i].rank == i + 1 && rows[i].slug == ranked[i].slug
                                             && rows[i].score == ranked[i].final
  {
    seq(|Take(ranked, topk)|, i requires 0 <= i < |Take(ranked, topk)| => RowOf(i + 1, ranked[i]))
  }

  // ---------------------------------------------------------------------
  // The decision

  datatype ResolveError = NoCandidates

  /** The decision and the debugging detail returned for one document. */
  datatype Decision = Decision(
    docId: int,
    documentName: string,
    bestSlug: string,
    bestDisplay: string,
    topEntity: string,
    stateVariant: Option<string>,
    orgVariant: Option<string>,
    final: real,
    s1: real,
    s2: real,
    s3: real,
    status: Status,
    topk: seq<PreviewRow>,
    rule: Option<RuleApplied>,
    weights: Weights,
    isDupName: bool,
    nameDupCount: int,
    isGenericName: bool)

  /** The decision built from the ranked candidates and the best rule hit:
      the signals are the fused winner's, the category and confidence come
      from the rule step. */
  function Decide(doc: DocRow, ranked: seq<Candidate>, best: Option<Hit>, dup: int, generic: bool, topkShow: nat): Decision
    requires ranked != []
  {
    var top := ranked[0];
    var pick := ApplyRule(ranked, best);
    Decision(doc.id, doc.documentName, pick.slug, pick.cat.display, pick.cat.topEntity,
             pick.cat.stateVariant, pick.cat.orgVariant, pick.final, top.s1, top.s2, top.s3,
             StatusOf(pick.final), Preview(ranked, topkShow), pick.rule, ResolverWeights(generic, dup),
             dup >= 2, dup, generic)
  }

  /** The best rule hit on the text window and the filename. */
  function BestRule(doc: DocRow, chunks: seq<Chunk>, matches: (Pattern, string) -> bool): Option<Hit> {
    RuleBest(RuleHits(Join("\n", Window(chunks)), doc.documentName, matches))
  }

  /** The chunk vectors all have one length and every category vector has
      it too. */
  predicate WellShaped(chunks: seq<Chunk>, catVecs: map<string, seq<real>>) {
    SameLength(Collected(Take(chunks, 8))) && VectorsAgree(DocVector(chunks, 8), catVecs)
  }

  /** The candidates of a document, scored with its filename weights. */
  ghost function DocCandidates(doc: DocRow, chunks: seq<Chunk>, cats: seq<Category>, catVecs: map<string, seq<real>>,
                               fnameCounts: map<string, int>, fz: FuzzMetrics, norm: seq<real> -> real): (cs: seq<Candidate>)
    requires WellShaped(chunks, catVecs)
    ensures |cs| == |cats|
  {
    var w := ResolverWeights(IsGenericFilename(doc.documentName), DupCount(fnameCounts, doc.documentName));
    Candidates(cats, CleanFilename(doc.documentName), chunks, DocVector(chunks, 8), catVecs, w, fz, norm)
  }

  /** What `categorize_document` returns for one document. */
  ghost function Categorize(doc: DocRow, chunks: seq<Chunk>, cats: seq<Category>, catVecs: map<string, seq<real>>,
                            fnameCounts: map<string, int>, topkShow: nat,
                            matches: (Pattern, string) -> bool, fz: FuzzMetrics, norm: seq<real> -> real): (r: Result<Decision, ResolveError>)
    requires WellShaped(chunks, catVecs)
    ensures r.Err? <==> cats == []
  {
    if cats == [] then Err(NoCandidates)
    else
      Ok(Decide(doc, Rank(DocCandidates(doc, chunks, cats, catVecs, fnameCounts, fz, norm)), BestRule(doc, chunks, matches),
                DupCount(fnameCounts, doc.documentName), IsGenericFilename(doc.documentName), topkShow))
  }

  /** `categorize_document` over the document's chunks. The state is passed
      to the rule engine, which ignores it. */
  method CategorizeDocument(doc: DocRow, chunks: seq<Chunk>, cats: seq<Category>, catVecs: map<string, seq<real>>,
                            fnameCounts: map<string, int>, stateVariant: Option<string>, topkShow: nat,
                            matches: (Pattern, string) -> bool, fz: FuzzMetrics, norm: seq<real> -> real)
    returns (r: Result<Decision, ResolveError>)
    requires WellShaped(chunks, catVecs)
    ensures r == Categorize(doc, chunks, cats, catVecs, fnameCounts, topkShow, matches, fz, norm)
  {
    var fname := doc.documentName;
    var docVec := DocVectorMean(chunks, 8);
    var texts := TextWindow(chunks);
    var fullText := Join("\n", texts);
    var ruleHits := RulesFromTextAndFilename(fullText, fname, stateVariant, matches);
    var ruleBest := RuleBest(ruleHits);
    assert ruleBest == BestRule(doc, chunks, matches);
    var dup := DupCount(fnameCounts, fname);
    var generic := IsGenericFilename(fname);
    var weights := ResolverWeights(generic, dup);
    var scored := ScoreCandidates(cats, fname, CleanFilename(fname), chunks, docVec, catVecs, weights, fz, norm);
    assert scored == DocCandidates(doc, chunks, cats, catVecs, fnameCounts, fz, norm);
    scored := Rank(scored);
    if |scored| == 0 {
      return Err(NoCandidates);
    }
    var top := scored[0];
    var pick := OverrideWithRule(scored, ruleBest);
    var status := StatusOf(pick.final);
    var preview := Preview(scored, topkShow);
    r := Ok(Decision(doc.id, fname, pick.slug, pick.cat.display, pick.cat.topEntity,
                     pick.cat.stateVariant, pick.cat.orgVariant, pick.final, top.s1, top.s2, top.s3,
                     status, preview, pick.rule, weights, dup >= 2, dup, generic));
    assert r.value == Decide(doc, scored, ruleBest, dup, generic, topkShow);
    assert cats != [];
  }

  // ---------------------------------------------------------------------
  // Properties of the decision

  /** The decision's signals are the fused winner's; the confidence is never
      below the winner's fused score; without a rule hit the winner and its
      score stand. */
  lemma DecideKeepsWinner(doc: DocRow, ranked: seq<Candidate>, best: Option<Hit>, dup: int, generic: bool, topkShow: nat)
    requires ranked != []
    ensures var d := Decide(doc, ranked, best, dup, generic, topkShow);
      d.s1 == ranked[0].s1 && d.s2 == ranked[0].s2 && d.s3 == ranked[0].s3
      && d.final >= ranked[0].final
      && (best.None? ==> d.bestSlug == ranked[0].slug && d.final == ranked[0].final && d.rule.None?)
  {
    RuleNeverLowersFinal(ranked, best);
  }

  /** The reported signals are those of the first category, in catalogue
      order, whose fused score is maximal; no candidate's fused score
      exceeds the confidence; without a rule hit that category is the
      decision and its fused score the confidence. */
  lemma WinnerIsFirstBest(doc: DocRow, chunks: seq<Chunk>, cats: seq<Category>, catVecs: map<string, seq<real>>,
                          fnameCounts: map<string, int>, topkShow: nat,
                          matches: (Pattern, string) -> bool, fz: FuzzMetrics, norm: seq<real> -> real, d: Decision)
    requires WellShaped(chunks, catVecs)
    requires Categorize(doc, chunks, cats, catVecs, fnameCounts, topkShow, matches, fz, norm) == Ok(d)
    ensures var cs := DocCandidates(doc, chunks, cats, catVecs, fnameCounts, fz, norm);
      var i := FirstBest(cs);
      d.s1 == cs[i].s1 && d.s2 == cs[i].s2 && d.s3 == cs[i].s3
      && (forall j :: 0 <= j < |cs| ==> cs[j].final <= d.final)
      && (BestRule(doc, chunks, matches).None? ==> d.bestSlug == cs[i].slug && d.final == cs[i].final)
  {
    var cs := DocCandidates(doc, chunks, cats, catVecs, fnameCounts, fz, norm);
    var ranked := Rank(cs);
    DecideKeepsWinner(doc, ranked, BestRule(doc, chunks, matches), DupCount(fnameCounts, doc.documentName),
                      IsGenericFilename(doc.documentName), topkShow);
  }

  /** Any rule hit at all makes the document accepted: every hit scores at
      least 0.8, and even a partial boost gives 0.72. */
  lemma AnyRuleHitAccepts(doc: DocRow, chunks: seq<Chunk>, cats: seq<Category>, catVecs: map<string, seq<real>>,
                          fnameCounts: map<string, int>, topkShow: nat,
                          matches: (Pattern, string) -> bool, fz: FuzzMetrics, norm: seq<real> -> real, d: Decision)
    requires WellShaped(chunks, catVecs)
    requires Categorize(doc, chunks, cats, catVecs, fnameCounts, topkShow, matches, fz, norm) == Ok(d)
    requires RuleHits(Join("\n", Window(chunks)), doc.documentName, matches) != []
    ensures d.status == Accepted
  {
    HitScoresInRange(Join("\n", Window(chunks)), doc.documentName, matches);
    var ranked := Rank(DocCandidates(doc, chunks, cats, catVecs, fnameCounts, fz, norm));
    StrongRuleLiftsFinal(ranked, BestRule(doc, chunks, matches));
  }

  /** A decision is the ranked candidates, with at least one of them, read
      under the document's best rule hit and filename flags. */
  lemma CategorizeDecides(doc: DocRow, chunks: seq<Chunk>, cats: seq<Category>, catVecs: map<string, seq<real>>,
                          fnameCounts: map<string, int>, topkShow: nat,
                          matches: (Pattern, string) -> bool, fz: FuzzMetrics, norm: seq<real> -> real, d: Decision)
    requires WellShaped(chunks, catVecs)
    requires Categorize(doc, chunks, cats, catVecs, fnameCounts, topkShow, matches, fz, norm) == Ok(d)
    ensures var ranked := Rank(DocCandidates(doc, chunks, cats, catVecs, fnameCounts, fz, norm));
      |ranked| == |cats| > 0
      && d == Decide(doc, ranked, BestRule(doc, chunks, matches), DupCount(fnameCounts, doc.documentName),
                     IsGenericFilename(doc.documentName), topkShow)
  {
  }

  /** What a decision over `n` ranked candidates reports: a preview of
      `min(topkShow, n)` rows ranked from 1 with non-increasing scores, the
      duplicate flag set from two copies on, and keyword and embedding
      weights of 0.30. */
  predicate Reported(d: Decision, n: nat, topkShow: nat) {
    && |d.topk| == (if topkShow < n then topkShow else n)
    && (forall i :: 0 <= i < |d.topk| ==> d.topk[i].rank == i + 1)
    && (forall i, j :: 0 <= i < j < |d.topk| ==> d.topk[j].score <= d.topk[i].score)
    && (d.isDupName <==> d.nameDupCount >= 2)
    && d.weights.keyword == 0.30 && d.weights.embedding == 0.30
  }

  /** The preview lists the ranked candidates from rank 1 with
      non-increasing scores, as many as asked for and available; the name
      counts as duplicated from two copies on. */
  lemma PreviewAndFlags(doc: DocRow, chunks: seq<Chunk>, cats: seq<Category>, catVecs: map<string, seq<real>>,
                        fnameCounts: map<string, int>, topkShow: nat,
                        matches: (Pattern, string) -> bool, fz: FuzzMetrics, norm: seq<real> -> real, d: Decision)
    requires WellShaped(chunks, catVecs)
    requires Categorize(doc, chunks, cats, catVecs, fnameCounts, topkShow, matches, fz, norm) == Ok(d)
    ensures Reported(d, |cats|, topkShow)
  {
    CategorizeDecides(doc, chunks, cats, catVecs, fnameCounts, topkShow, matches, fz, norm, d);
    DecideReports(doc, Rank(DocCandidates(doc, chunks, cats, catVecs, fnameCounts, fz, norm)), BestRule(doc, chunks, matches),
                  DupCount(fnameCounts, doc.documentName), IsGenericFilename(doc.documentName), topkShow);
  }

  lemma DecideReports(doc: DocRow, ranked: seq<Candidate>, best: Option<Hit>, dup: int, generic: bool, topkShow: nat)
    requires ranked != []
    requires forall i, j :: 0 <= i < j < |ranked| ==> ranked[j].final <= ranked[i].final
    ensures Reported(Decide(doc, ranked, best, dup, generic, topkShow), |ranked|, topkShow)
  {
    var p := Preview(ranked, topkShow);
    assert forall i, j :: 0 <= i < j < |p| ==> p[j].score <= p[i].score by {
      forall i, j | 0 <= i < j < |p| ensures p[j].score <= p[i].score {
        assert p[i].score == ranked[i].final && p[j].score == ranked[j].final;
      }
    }
  }

}

=== FILE: rules.dfy ===
/** The rule engine: high-precision text detectors per category, a router
    for bank statements, and category hints from distinctive filename tokens.
    Each detector is a regular expression; the model names the detectors and
    leaves matching to a `matches` predicate supplied by the caller. */
module Rules {
  import opened Common

  /** The detectors the rule tables use. */
  datatype Pattern =
    | PanRx | TanRx | GstinRx | LeiRx | CinRx | LlpinRx | CoiRx | MoaRx | AoaRx
    | CompanyMarkersRx | ReraRx | HmdaRx | DcRx | BpoRx | FireRx | PcbRx | AaiRx
    | BwssbRx | HmwsRx | BescomRx | BsnlRx | EcRx | PahaniRx | PassbookRx
    | DagpaRx | JdaRx | GpaRx | NalaRx | LucRx | TdrRx | BankStmtRx
    | AadhaarRx | PartnershipDeedRx | CommencementRx

  /** Why a hit was emitted: the text detectors that matched, or a fixed note. */
  datatype Why = Detectors(matched: seq<Pattern>) | Note(text: string)

  /** One rule hit: a category slug and its score. */
  datatype Hit = Hit(slug: string, score: real, why: Why)

  /** The text rules, slug by slug in table order. */
  const TextRules: seq<(string, seq<Pattern>)> := [
    ("directors_pan_aadhaar", [PanRx, AadhaarRx]),
    ("dev_company_gst_pan", [GstinRx]),
    ("dev_company_tan", [TanRx]),
    ("dev_company_lei", [LeiRx]),
    ("dev_company_moa_aoa_incorp", [MoaRx, AoaRx]),
    ("group_company_moa_aoa_incorp", [MoaRx, AoaRx]),
    ("dev_llp_agreement_incorp", [LlpinRx, CoiRx]),
    ("dev_partnership_deed_registration", [PartnershipDeedRx]),
    ("ts_hmda_dc_letter", [HmdaRx, DcRx]),
    ("ts_building_permit_order", [BpoRx]),
    ("ts_provisional_fire_noc", [FireRx]),
    ("ts_pollution_noc", [PcbRx]),
    ("ts_airport_authority", [AaiRx]),
    ("ts_rera_certificate", [ReraRx]),
    ("ts_permission_water_supply", [HmwsRx]),
    ("ka_commencement_letter", [CommencementRx]),
    ("ka_provisional_fire_noc", [FireRx]),
    ("ka_pollution_noc", [PcbRx]),
    ("ka_airport_authority", [AaiRx]),
    ("ka_rera", [ReraRx]),
    ("ka_permission_water_supply", [BwssbRx]),
    ("ka_bescom", [BescomRx]),
    ("ka_bsnl", [BsnlRx]),
    ("legal_certified_ec", [EcRx]),
    ("legal_pahanies", [PahaniRx]),
    ("legal_passbooks", [PassbookRx]),
    ("land_ts_dagpa", [DagpaRx]),
    ("land_ka_jda", [JdaRx]),
    ("land_ka_gpa", [GpaRx]),
    ("land_ts_nala", [NalaRx]),
    ("land_ts_land_use_certificate", [LucRx]),
    ("land_ts_tdr", [TdrRx]),
    ("land_ka_tdr", [TdrRx])
  ]

  const BankSlugs: seq<string> :=
    ["dev_company_bank_stmt", "dev_llp_bank_stmt", "dev_partnership_bank_stmt", "directors_bank_stmt_1y"]

  /** Filename tokens and the slugs each suggests. */
  const FilenameHints: map<string, seq<string>> := map[
    "gst" := ["dev_company_gst_pan", "group_company_gst_pan", "dev_llp_gst_pan", "dev_partnership_gst_pan"],
    "tan" := ["dev_company_tan", "dev_llp_tan", "dev_partnership_tan"],
    "lei" := ["dev_company_lei", "dev_llp_lei", "dev_partnership_lei"],
    "rera" := ["ts_rera_certificate", "ka_rera"],
    "hmda" := ["ts_hmda_dc_letter"],
    "aai" := ["ts_airport_authority", "ka_airport_authority"],
    "moa" := ["dev_company_moa_aoa_incorp", "group_company_moa_aoa_incorp"],
    "aoa" := ["dev_company_moa_aoa_incorp", "group_company_moa_aoa_incorp"],
    "coi" := ["dev_llp_agreement_incorp"],
    "accountstatement" := BankSlugs,
    "statement" := BankSlugs
  ]

  /** The filename tokens tried, in order, each with its key into
      `FilenameHints`. */
  const TokenMap: seq<(string, string)> := [
    ("gst", "gst"), ("tan", "tan"), ("lei", "lei"), ("rera", "rera"), ("hmda", "hmda"),
    ("aai", "aai"), ("moa", "moa"), ("aoa", "aoa"), ("coi", "coi"),
    ("accountstatement", "accountstatement"), ("statement", "statement")
  ]

  /** `_add_hit`: appends the hit with its score capped at 0.95. */
  function AddHit(hits: seq<Hit>, slug: string, score: real, why: Why): (r: seq<Hit>)
    ensures |r| == |hits| + 1 && r[..|hits|] == hits
    ensures r[|hits|].slug == slug && r[|hits|].why == why
    ensures r[|hits|].score <= 0.95
    ensures score <= 0.95 ==> r[|hits|].score == score
    ensures score > 0.95 ==> r[|hits|].score == 0.95
  {
    hits + [Hit(slug, Min(0.95, score), why)]
  }

  // ---------------------------------------------------------------------
  // Text rules

  /** The detectors of `regs` that match `text`, in order. */
  function Matched(regs: seq<Pattern>, text: string, matches: (Pattern, string) -> bool): (m: seq<Pattern>)
    ensures |m| <= |regs|
  {
    if regs == [] then []
    else
      var last := regs[|regs| - 1];
      Matched(regs[..|regs| - 1], text, matches) + (if matches(last, text) then [last] else [])
  }

  /** The diminishing-returns step: 0.5 for the first match, 0.25 after. */
  function Step(local: real): real {
    local + (if local == 0.0 then 0.5 else 0.25)
  }

  /** The local score after `n` matching detectors. */
  function Local(n: nat): (r: real)
    ensures r >= 0.0
    ensures n == 0 <==> r == 0.0
  {
    if n == 0 then 0.0 else Step(Local(n - 1))
  }

  /** The local score is 0.5 for the first match plus 0.25 for each later
      one, so it reaches the emission threshold of 0.8 exactly when three or
      more detectors match. */
  lemma {:induction false} LocalClosedForm(n: nat)
    ensures n > 0 ==> Local(n) == 0.5 + 0.25 * ((n - 1) as real)
    ensures Local(n) >= 0.8 <==> n >= 3
  {
    if n > 0 {
      LocalClosedForm(n - 1);
    }
  }

  /** The hits of the text-rule layer over `rules`. */
  function TextHits(rules: seq<(string, seq<Pattern>)>, text: string, matches: (Pattern, string) -> bool): seq<Hit> {
    if rules == [] then []
    else
      var (slug, regs) := rules[|rules| - 1];
      var m := Matched(regs, text, matches);
      TextHits(rules[..|rules| - 1], text, matches)
        + (if Local(|m|) >= 0.8 then [Hit(slug, Min(0.95, Local(|m|)), Detectors(m))] else [])
  }

  /** A table whose every slug has at most two detectors never emits. */
  lemma {:induction false} ShortRulesNeverEmit(rules: seq<(string, seq<Pattern>)>, text: string, matches: (Pattern, string) -> bool)
    requires forall i :: 0 <= i < |rules| ==> |rules[i].1| <= 2
    ensures TextHits(rules, text, matches) == []
  {
    if rules != [] {
      ShortRulesNeverEmit(rules[..|rules| - 1], text, matches);
      LocalClosedForm(|Matched(rules[|rules| - 1].1, text, matches)|);
    }
  }

  /** Every slug of the shipped table has at most two detectors, so its
      local score peaks at 0.75 and the text-rule layer emits nothing,
      whatever the text. */
  lemma TextLayerSilent(text: string, matches: (Pattern, string) -> bool)
    ensures TextHits(TextRules, text, matches) == []
  {
    ShortRulesNeverEmit(TextRules, text, matches);
  }

  // ---------------------------------------------------------------------
  // Bank-statement router

  /** Corporate markers, a GSTIN, a CIN or an LLPIN anywhere in the text. */
  predicate CorporateMarkers(text: string, matches: (Pattern, string) -> bool) {
    matches(CompanyMarkersRx, text) || matches(GstinRx, text) || matches(CinRx, text) || matches(LlpinRx, text)
  }

  const EntityBankSlugs: seq<string> := BankSlugs[..3]

  /** What the router emits. */
  function RouterHits(text: string, matches: (Pattern, string) -> bool): (r: seq<Hit>)
    ensures !matches(BankStmtRx, text) ==> r == []
    ensures matches(BankStmtRx, text) && CorporateMarkers(text, matches) ==>
      |r| == 3 && forall i :: 0 <= i < 3 ==> r[i].slug == EntityBankSlugs[i] && r[i].score == 0.9
    ensures matches(BankStmtRx, text) && !CorporateMarkers(text, matches) ==>
      |r| == 1 && r[0].slug == "directors_bank_stmt_1y" && r[0].score == 0.9
  {
    if !matches(BankStmtRx, text) then []
    else if CorporateMarkers(text, matches) then
      seq(3, i requires 0 <= i < 3 => Hit(EntityBankSlugs[i], 0.9, Note("bank statement + corporate markers")))
    else [Hit("directors_bank_stmt_1y", 0.9, Note("bank statement + no corporate markers"))]
  }

  /** `_bank_router`. The state is accepted and ignored. */
  method BankRouter(text: string, state: Option<string>, matches: (Pattern, string) -> bool) returns (out: seq<Hit>)
    ensures out == RouterHits(text, matches)
  {
    out := [];
    if !matches(BankStmtRx, text) {
      return;
    }
    if CorporateMarkers(text, matches) {
      for i := 0 to 3
        invariant out == seq(i, k requires 0 <= k < i => Hit(EntityBankSlugs[k], 0.9, Note("bank statement + corporate markers")))
      {
        out := AddHit(out, EntityBankSlugs[i], 0.9, Note("bank statement + corporate markers"));
      }
    } else {
      out := AddHit(out, "directors_bank_stmt_1y", 0.9, Note("bank statement + no corporate markers"));
    }
  }

  // ---------------------------------------------------------------------
  // Filename hints

  /** The slugs a hint key names; none for an unknown key. */
  function HintSlugs(key: string): seq<string> {
    if key in FilenameHints then FilenameHints[key] else []
  }

  /** The hits one token yields for the cleaned filename `base`. */
  function TokenHits(token: string, key: string, base: string): seq<Hit> {
    if !Contains(base, token) then []
    else
      var slugs := HintSlugs(key);
      seq(|slugs|, i requires 0 <= i < |slugs| => Hit(slugs[i], 0.85, Note("filename:" + token)))
  }

  /** The hits of the filename layer over the tokens `tokens`. */
  function FilenameHits(tokens: seq<(string, string)>, base: string): seq<Hit> {
    if tokens == [] then []
    else
      var (token, key) := tokens[|tokens| - 1];
      FilenameHits(tokens[..|tokens| - 1], base) + TokenHits(token, key, base)
  }

  /** The filename as the hint layer sees it: lower-cased, one known
      extension removed; directories are kept. */
  function HintBase(filename: string): string {
    StripExtension(Lower(filename))
  }

  lemma StatementInAccountStatement(base: string)
    requires Contains(base, "accountstatement")
    ensures Contains(base, "statement")
  {
    var i :| 0 <= i <= |base| - 16 && OccursAt(base, "accountstatement", i);
    assert base[i + 7..i + 16] == base[i..i + 16][7..16];
    assert OccursAt(base, "statement", i + 7);
  }

  /** A filename with "accountstatement" also contains "statement", so the
      four bank slugs come out twice, as the last eight filename hits. */
  lemma AccountStatementHintsTwice(base: string)
    requires Contains(base, "accountstatement")
    ensures var h := FilenameHits(TokenMap, base);
      |h| >= 8 && forall i :: 0 <= i < 4 ==>
        h[|h| - 8 + i].slug == BankSlugs[i] && h[|h| - 4 + i].slug == BankSlugs[i]
        && h[|h| - 8 + i].score == 0.85 && h[|h| - 4 + i].score == 0.85
  {
    StatementInAccountStatement(base);
    var prefix := TokenMap[..10];
    assert TokenMap[..|TokenMap| - 1] == prefix;
    assert prefix[..|prefix| - 1] == TokenMap[..9];
    assert TokenMap[10] == ("statement", "statement");
    assert prefix[9] == ("accountstatement", "accountstatement");
    var a := TokenHits("accountstatement", "accountstatement", base);
    var b := TokenHits("statement", "statement", base);
    assert FilenameHits(prefix, base) == FilenameHits(TokenMap[..9], base) + a;
    assert FilenameHits(TokenMap, base) == FilenameHits(prefix, base) + b;
  }

  // ---------------------------------------------------------------------
  // The whole engine

  /** Everything the engine emits for a text and a filename. */
  function RuleHits(text: string, filename: string, matches: (Pattern, string) -> bool): seq<Hit> {
    TextHits(TextRules, text, matches) + RouterHits(text, matches) + FilenameHits(TokenMap, HintBase(filename))
  }

  /** `rules_from_text_and_filename`: the text-rule hits, then the router's,
      then the filename hints', in that order. The state plays no part. */
  method RulesFromTextAndFilename(text: string, filename: string, state: Option<string>,
                                  matches: (Pattern, string) -> bool) returns (hits: seq<Hit>)
    ensures hits == TextHits(TextRules, text, matches) + RouterHits(text, matches)
                    + FilenameHits(TokenMap, HintBase(filename))
    ensures hits == RuleHits(text, filename, matches)
  {
    hits := ApplyTextRules(TextRules, text, matches);
    var routed := BankRouter(text, state, matches);
    hits := hits + routed;
    hits := ApplyFilenameHints(hits, TokenMap, HintBase(filename));
  }

  /** Step 1: every text rule of `rules`, in order. */
  method ApplyTextRules(rules: seq<(string, seq<Pattern>)>, text: string, matches: (Pattern, string) -> bool)
    returns (hits: seq<Hit>)
    ensures hits == TextHits(rules, text, matches)
  {
    hits := [];
    for i := 0 to |rules|
      invariant hits == TextHits(rules[..i], text, matches)
    {
      assert rules[..i + 1][..i] == rules[..i];
      var (slug, regs) := rules[i];
      var local, reasons := LocalScore(regs, text, matches);
      if local >= 0.8 {
        hits := AddHit(hits, slug, local, Detectors(reasons));
      }
    }
    assert rules[..|rules|] == rules;
  }

  /** The local score of one slug's detectors and the detectors that
      matched. */
  method LocalScore(regs: seq<Pattern>, text: string, matches: (Pattern, string) -> bool)
    returns (local: real, reasons: seq<Pattern>)
    ensures reasons == Matched(regs, text, matches)
    ensures local == Local(|reasons|)
  {
    local := 0.0;
    reasons := [];
    for j := 0 to |regs|
      invariant reasons == Matched(regs[..j], text, matches)
      invariant local == Local(|reasons|)
    {
      assert regs[..j + 1][..j] == regs[..j];
      if matches(regs[j], text) {
        local := local + (if local == 0.0 then 0.5 else 0.25);
        reasons := reasons + [regs[j]];
      }
    }
    assert regs[..|regs|] == regs;
  }

  /** Step 3: appends the hints of every token of `tokens` found in
      `base`. */
  method ApplyFilenameHints(start: seq<Hit>, tokens: seq<(string, string)>, base: string) returns (hits: seq<Hit>)
    ensures hits == start + FilenameHits(tokens, base)
  {
    hits := start;
    for i := 0 to |tokens|
      invariant hits == start + FilenameHits(tokens[..i], base)
    {
      FilenameHitsSnoc(tokens, i, base);
      hits := ApplyTokenHint(hits, tokens[i].0, tokens[i].1, base);
    }
    assert tokens[..|tokens|] == tokens;
  }

  lemma FilenameHitsSnoc(tokens: seq<(string, string)>, i: nat, base: string)
    requires i < |tokens|
    ensures FilenameHits(tokens[..i + 1], base) == FilenameHits(tokens[..i], base) + TokenHits(tokens[i].0, tokens[i].1, base)
  {
    assert tokens[..i + 1][..i] == tokens[..i];
  }

  /** Appends the hints of one token when `base` contains it. */
  method ApplyTokenHint(start: seq<Hit>, token: string, key: string, base: string) returns (hits: seq<Hit>)
    ensures hits == start + TokenHits(token, key, base)
  {
    hits := start;
    if Contains(base, token) {
      var slugs := HintSlugs(key);
      for j := 0 to |slugs|
        invariant hits == start + seq(j, k requires 0 <= k < j => Hit(slugs[k], 0.85, Note("filename:" + token)))
      {
        hits := AddHit(hits, slugs[j], 0.85, Note("filename:" + token));
      }
    }
  }

  /** Every hit of the engine scores between 0.8 and 0.95. */
  lemma HitScoresInRange(text: string, filename: string, matches: (Pattern, string) -> bool)
    ensures forall i :: 0 <= i < |RuleHits(text, filename, matches)| ==> 0.8 <= RuleHits(text, filename, matches)[i].score <= 0.95
  {
    TextLayerSilent(text, matches);
    FilenameScores(TokenMap, HintBase(filename));
  }

  lemma {:induction false} FilenameScores(tokens: seq<(string, string)>, base: string)
    ensures forall i :: 0 <= i < |FilenameHits(tokens, base)| ==> FilenameHits(tokens, base)[i].score == 0.85
  {
    if tokens != [] {
      FilenameScores(tokens[..|tokens| - 1], base);
    }
  }
}

=== FILE: signals.dfy ===
/** The three per-category signals the resolver fuses: a fuzzy match of the
    filename against the category's names, the share of its keywords found in
    the opening text, and the cosine similarity of embeddings. Also the test
    for filenames too generic to carry meaning. */
module Signals {
  import opened Common
  import opened Catalogue

  /** `_norm01`: `x` clamped to `[lo, hi]` and rescaled to `[0, 1]`; zero for
      an empty or inverted interval. */
  function Norm01(x: real, lo: real, hi: real): (r: real)
    ensures hi <= lo ==> r == 0.0
    ensures 0.0 <= r <= 1.0
    ensures lo < hi && x <= lo ==> r == 0.0
    ensures lo < hi && x >= hi ==> r == 1.0
    ensures lo < hi && lo <= x <= hi ==> r * (hi - lo) == x - lo
  {
    if hi <= lo then 0.0
    else
      var c := Max(lo, Min(hi, x));
      assert x <= lo ==> c == lo;
      (c - lo) / (hi - lo)
  }

  /** Raising the input never lowers the rescaled value. */
  lemma Norm01Monotone(x: real, y: real, lo: real, hi: real)
    requires x <= y
    ensures Norm01(x, lo, hi) <= Norm01(y, lo, hi)
  {
    if lo < hi {
      var cx := Max(lo, Min(hi, x));
      var cy := Max(lo, Min(hi, y));
      assert cx - lo <= cy - lo;
      assert (cx - lo) / (hi - lo) <= (cy - lo) / (hi - lo);
    }
  }

  // ---------------------------------------------------------------------
  // Filenames

  /** `s.rsplit("/", 1)[-1]`: what follows the last slash. */
  function AfterLastSlash(s: string): (r: string)
    ensures '/' !in r
    ensures |r| <= |s| && r == s[|s| - |r|..]
    ensures '/' !in s ==> r == s
    ensures '/' in s ==> s[|s| - |r| - 1] == '/'
  {
    if s == [] then []
    else if s[|s| - 1] == '/' then []
    else
      var r := AfterLastSlash(s[..|s| - 1]);
      assert '/' in s ==> '/' in s[..|s| - 1] by {
        assert s == s[..|s| - 1] + [s[|s| - 1]];
      }
      r + [s[|s| - 1]]
  }

  /** The filename as both the fuzzy scorer and the generic test see it:
      the last path segment, lower-cased, with one known extension removed. */
  function CleanFilename(name: string): string {
    StripExtension(Lower(AfterLastSlash(name)))
  }

  /** The length of the leading run of `[A-Za-z0-9]` characters. */
  function RunLength(s: string): (n: nat)
    ensures n <= |s|
    ensures forall i :: 0 <= i < n ==> IsAlnum(s[i])
    ensures n < |s| ==> !IsAlnum(s[n])
  {
    if s == [] || !IsAlnum(s[0]) then 0 else 1 + RunLength(s[1..])
  }

  /** `re.findall(r"[A-Za-z0-9]+", s)`: the maximal alphanumeric runs, left
      to right. */
  function Words(s: string): (ws: seq<string>)
    ensures forall k :: 0 <= k < |ws| ==> ws[k] != [] && forall i :: 0 <= i < |ws[k]| ==> IsAlnum(ws[k][i])
    decreases |s|
  {
    if s == [] then []
    else if !IsAlnum(s[0]) then Words(s[1..])
    else
      var n := RunLength(s);
      [s[..n]] + Words(s[n..])
  }

  /** There is a word exactly when some character is alphanumeric. */
  lemma {:induction false} WordsEmptyIff(s: string)
    ensures Words(s) == [] <==> forall i :: 0 <= i < |s| ==> !IsAlnum(s[i])
    decreases |s|
  {
    if s != [] && !IsAlnum(s[0]) {
      WordsEmptyIff(s[1..]);
      forall i | 0 < i < |s| ensures s[i] == s[1..][i - 1] {}
    }
  }

  /** `s[i..j]` is a maximal alphanumeric run of `s`: a non-empty run of
      letters and digits that no letter or digit extends on either side. */
  predicate RunAt(s: string, i: int, j: int) {
    && 0 <= i < j <= |s|
    && (forall t :: i <= t < j ==> IsAlnum(s[t]))
    && (i == 0 || !IsAlnum(s[i - 1]))
    && (j == |s| || !IsAlnum(s[j]))
  }

  /** `w` is the maximal run of `s` that starts at `p`. */
  predicate MaximalRunAt(s: string, w: string, p: int) {
    RunAt(s, p, p + |w|) && s[p..p + |w|] == w
  }

  /** Where each word of `Words(s)` starts in `s`. */
  function WordStarts(s: string): (ps: seq<nat>)
    ensures |ps| == |Words(s)|
    decreases |s|
  {
    if s == [] then []
    else if !IsAlnum(s[0]) then Shift(WordStarts(s[1..]), 1)
    else
      var n := RunLength(s);
      [0] + Shift(WordStarts(s[n..]), n)
  }

  function Shift(ps: seq<nat>, d: nat): (qs: seq<nat>)
    ensures |qs| == |ps| && forall k :: 0 <= k < |ps| ==> qs[k] == ps[k] + d
  {
    seq(|ps|, k requires 0 <= k < |ps| => ps[k] + d)
  }

  /** A maximal run of a suffix `s[m..]` is one of `s`, when the suffix does
      not cut a run in two. */
  lemma RunShift(s: string, m: nat, i: nat, j: nat)
    requires m <= |s| && RunAt(s[m..], i, j)
    requires m == 0 || !IsAlnum(s[m - 1]) || (m < |s| && !IsAlnum(s[m]))
    ensures RunAt(s, i + m, j + m) && s[m..][i..j] == s[i + m..j + m]
  {
    var t := s[m..];
    assert forall x :: i <= x < j ==> t[x] == s[x + m];
    if j < |t| {
      assert t[j] == s[j + m];
    }
    if i > 0 {
      assert t[i - 1] == s[i + m - 1];
    }
  }

  /** Each word is the maximal run at its start. */
  lemma WordsAreRuns(s: string)
    ensures forall k :: 0 <= k < |Words(s)| ==> MaximalRunAt(s, Words(s)[k], WordStarts(s)[k])
  {
    forall k | 0 <= k < |Words(s)|
      ensures MaximalRunAt(s, Words(s)[k], WordStarts(s)[k])
    {
      WordIsRun(s, k);
    }
  }

  lemma {:induction false} WordIsRun(s: string, k: nat)
    requires k < |Words(s)|
    ensures MaximalRunAt(s, Words(s)[k], WordStarts(s)[k])
    decreases |s|, 1
  {
    if !IsAlnum(s[0]) {
      SkippedWordIsRun(s, k);
    } else if k == 0 {
      FirstWordIsRun(s);
    } else {
      LaterWordIsRun(s, k);
    }
  }

  lemma FirstWordIsRun(s: string)
    requires s != [] && IsAlnum(s[0])
    ensures MaximalRunAt(s, Words(s)[0], WordStarts(s)[0])
  {
    var n := RunLength(s);
    assert Words(s)[0] == s[..n] && WordStarts(s)[0] == 0;
    assert RunAt(s, 0, n);
    assert s[0..n] == s[..n];
  }

  lemma {:induction false} SkippedWordIsRun(s: string, k: nat)
    requires s != [] && !IsAlnum(s[0]) && k < |Words(s)|
    ensures MaximalRunAt(s, Words(s)[k], WordStarts(s)[k])
    decreases |s|, 0
  {
    WordsSkip(s);
    WordIsRun(s[1..], k);
    RunOfSuffix(s, 1, Words(s[1..]), WordStarts(s[1..]), k, Words(s), WordStarts(s), k);
  }

  lemma {:induction false} LaterWordIsRun(s: string, k: nat)
    requires s != [] && IsAlnum(s[0]) && 0 < k < |Words(s)|
    ensures MaximalRunAt(s, Words(s)[k], WordStarts(s)[k])
    decreases |s|, 0
  {
    var n := RunLength(s);
    var t := s[n..];
    WordsTake(s);
    WordIsRun(t, k - 1);
    var ws, ps := Words(s), WordStarts(s);
    assert ws[k] == Words(t)[k - 1] && ps[k] == WordStarts(t)[k - 1] + n;
    assert |Words(t)| == |ws| - 1 > 0;
    assert t != [];
    RunOfSuffix(s, n, Words(t), WordStarts(t), k - 1, ws, ps, k);
  }

  /** The `j`-th word of a suffix `s[m..]` that does not cut a run in two,
      shifted by `m`, is a maximal run of `s`. */
  lemma RunOfSuffix(s: string, m: nat, vs: seq<string>, qs: seq<nat>, j: nat,
                    ws: seq<string>, ps: seq<nat>, k: nat)
    requires m <= |s| && j < |vs| && j < |qs| && MaximalRunAt(s[m..], vs[j], qs[j])
    requires m == 0 || !IsAlnum(s[m - 1]) || (m < |s| && !IsAlnum(s[m]))
    requires k < |ws| && k < |ps| && ws[k] == vs[j] && ps[k] == qs[j] + m
    ensures MaximalRunAt(s, ws[k], ps[k])
  {
    RunShift(s, m, qs[j], qs[j] + |vs[j]|);
  }

  /** Indexing one unfolding over a leading run. */
  lemma TakeIndex(ws: seq<string>, ps: seq<nat>, a: string, vs: seq<string>, qs: seq<nat>, n: nat)
    requires ws == [a] + vs && ps == [0] + Shift(qs, n) && |qs| == |vs|
    ensures |ws| == |ps| == |vs| + 1 && ws[0] == a && ps[0] == 0
    ensures forall k :: 0 < k < |ws| ==> ws[k] == vs[k - 1] && ps[k] == qs[k - 1] + n
  {
  }

  /** Indexing one unfolding over a leading separator. */
  lemma SkipIndex(ws: seq<string>, ps: seq<nat>, vs: seq<string>, qs: seq<nat>)
    requires ws == vs && ps == Shift(qs, 1) && |qs| == |vs|
    ensures |ws| == |ps| == |vs|
    ensures forall k :: 0 <= k < |ws| ==> ws[k] == vs[k] && ps[k] == qs[k] + 1
  {
  }

  /** One unfolding of `Words` and `WordStarts` over a leading separator. */
  lemma WordsSkip(s: string)
    requires s != [] && !IsAlnum(s[0])
    ensures Words(s) == Words(s[1..])
    ensures WordStarts(s) == Shift(WordStarts(s[1..]), 1)
  {
  }

  /** One unfolding of `Words` and `WordStarts` over a leading run. */
  lemma WordsTake(s: string)
    requires s != [] && IsAlnum(s[0])
    ensures Words(s) == [s[..RunLength(s)]] + Words(s[RunLength(s)..])
    ensures WordStarts(s) == [0] + Shift(WordStarts(s[RunLength(s)..]), RunLength(s))
  {
  }

  /** The words come left to right, each ending before the next begins. */
  lemma WordsInOrder(s: string)
    ensures forall k :: 0 <= k < |Words(s)| - 1 ==> WordStarts(s)[k] + |Words(s)[k]| < WordStarts(s)[k + 1]
  {
    forall k | 0 <= k < |Words(s)| - 1
      ensures WordStarts(s)[k] + |Words(s)[k]| < WordStarts(s)[k + 1]
    {
      WordBeforeNext(s, k);
    }
  }

  lemma {:induction false} WordBeforeNext(s: string, k: nat)
    requires k + 1 < |Words(s)|
    ensures WordStarts(s)[k] + |Words(s)[k]| < WordStarts(s)[k + 1]
    decreases |s|
  {
    var ws, ps := Words(s), WordStarts(s);
    if !IsAlnum(s[0]) {
      var t := s[1..];
      WordsSkip(s);
      SkipIndex(ws, ps, Words(t), WordStarts(t));
      WordBeforeNext(t, k);
    } else {
      var n := RunLength(s);
      var t := s[n..];
      WordsTake(s);
      TakeIndex(ws, ps, s[..n], Words(t), WordStarts(t), n);
      if k == 0 {
        assert t != [] && t[0] == s[n];
        WordIsRun(t, 0);
        var p := WordStarts(t)[0];
        assert IsAlnum(t[p]) && !IsAlnum(t[0]);
        assert ps[1] == p + n;
      } else {
        WordBeforeNext(t, k - 1);
        assert ps[k] == WordStarts(t)[k - 1] + n && ws[k] == Words(t)[k - 1];
        assert ps[k + 1] == WordStarts(t)[k] + n;
      }
    }
  }

  /** Every maximal run of `s` is one of its words, found at its start. */
  lemma RunsAreWords(s: string)
    ensures forall i, j :: RunAt(s, i, j) ==>
              exists k :: 0 <= k < |Words(s)| && WordStarts(s)[k] == i && Words(s)[k] == s[i..j]
  {
    forall i, j | RunAt(s, i, j)
      ensures exists k :: 0 <= k < |Words(s)| && WordStarts(s)[k] == i && Words(s)[k] == s[i..j]
    {
      var k := RunIsWord(s, i, j);
      assert 0 <= k < |Words(s)| && WordStarts(s)[k] == i && Words(s)[k] == s[i..j];
    }
  }

  lemma {:induction false} RunIsWord(s: string, i: int, j: int) returns (k: nat)
    requires RunAt(s, i, j)
    ensures k < |Words(s)| && WordStarts(s)[k] == i && Words(s)[k] == s[i..j]
    decreases |s|, 1
  {
    if !IsAlnum(s[0]) {
      k := RunAfterSeparator(s, i, j);
    } else if i == 0 {
      var n := RunLength(s);
      WordsTake(s);
      TakeIndex(Words(s), WordStarts(s), s[..n], Words(s[n..]), WordStarts(s[n..]), n);
      assert j == n by {
        assert j < |s| ==> !IsAlnum(s[j]);
        assert n < |s| ==> !IsAlnum(s[n]);
      }
      assert s[i..j] == s[..n];
      k := 0;
    } else {
      k := RunAfterFirstWord(s, i, j);
    }
  }

  lemma {:induction false} RunAfterSeparator(s: string, i: int, j: int) returns (k: nat)
    requires RunAt(s, i, j) && !IsAlnum(s[0])
    ensures k < |Words(s)| && WordStarts(s)[k] == i && Words(s)[k] == s[i..j]
    decreases |s|, 0
  {
    var t := s[1..];
    assert i > 0 by {
      assert IsAlnum(s[i]);
    }
    RunInSuffix(s, 1, i, j);
    k := RunIsWord(t, i - 1, j - 1);
    WordsSkip(s);
    SkipIndex(Words(s), WordStarts(s), Words(t), WordStarts(t));
  }

  lemma {:induction false} RunAfterFirstWord(s: string, i: int, j: int) returns (k: nat)
    requires RunAt(s, i, j) && IsAlnum(s[0]) && i > 0
    ensures k < |Words(s)| && WordStarts(s)[k] == i && Words(s)[k] == s[i..j]
    decreases |s|, 0
  {
    var n := RunLength(s);
    var t := s[n..];
    assert i > n by {
      assert !IsAlnum(s[i - 1]);
    }
    RunInSuffix(s, n, i, j);
    var k' := RunIsWord(t, i - n, j - n);
    WordAfterFirst(s, k', i, t[i - n..j - n], s[i..j]);
    k := k' + 1;
  }

  /** Word `k'` of what follows the first word is word `k' + 1` of `s`, at
      a start shifted by the first word's length. */
  lemma WordAfterFirst(s: string, k': nat, i: int, u: string, w: string)
    requires s != [] && IsAlnum(s[0])
    requires k' < |Words(s[RunLength(s)..])| && WordStarts(s[RunLength(s)..])[k'] == i - RunLength(s)
    requires Words(s[RunLength(s)..])[k'] == u && u == w
    ensures k' + 1 < |Words(s)| && WordStarts(s)[k' + 1] == i && Words(s)[k' + 1] == w
  {
    var n := RunLength(s);
    var t := s[n..];
    WordsTake(s);
    LaterIndex(Words(s), WordStarts(s), s[..n], Words(t), WordStarts(t), n, k', i, u, w);
  }

  /** Entry `k' + 1` of a list with one entry put in front, its starts shifted
      by `n`. */
  lemma LaterIndex(ws: seq<string>, ps: seq<nat>, a: string, vs: seq<string>, qs: seq<nat>, n: nat, k': nat, i: int, u: string, w: string)
    requires ws == [a] + vs && ps == [0] + Shift(qs, n) && |qs| == |vs|
    requires k' < |vs| && qs[k'] == i - n && vs[k'] == u && u == w
    ensures k' + 1 < |ws| && ps[k' + 1] == i && ws[k' + 1] == w
  {
    TakeIndex(ws, ps, a, vs, qs, n);
  }

  /** A maximal run that starts at or after `m` is a maximal run of `s[m..]`. */
  lemma RunInSuffix(s: string, m: nat, i: int, j: int)
    requires RunAt(s, i, j) && m <= i
    ensures RunAt(s[m..], i - m, j - m) && s[m..][i - m..j - m] == s[i..j]
  {
    var t := s[m..];
    assert forall x :: i - m <= x < j - m ==> t[x] == s[x + m];
    if i > m {
      assert t[i - m - 1] == s[i - 1];
    }
    if j < |s| {
      assert t[j - m] == s[j];
    }
  }

  /** A name none of whose maximal runs is a generic token has no generic
      word: a generic token inside a longer run, like "scan" inside
      "scan0001", does not count. */
  /** No word lies in `bad` when no maximal run does. */
  lemma NoRunIn(base: string, bad: set<string>)
    requires forall i, j :: RunAt(base, i, j) ==> base[i..j] !in bad
    ensures forall w :: w in Words(base) ==> w !in bad
  {
    forall w | w in Words(base)
      ensures w !in bad
    {
      var k :| 0 <= k < |Words(base)| && Words(base)[k] == w;
      WordIsRun(base, k);
      RunNotIn(base, w, WordStarts(base)[k], bad);
    }
  }

  lemma RunNotIn(base: string, w: string, p: int, bad: set<string>)
    requires MaximalRunAt(base, w, p)
    requires forall i, j :: RunAt(base, i, j) ==> base[i..j] !in bad
    ensures w !in bad
  {
    assert RunAt(base, p, p + |w|) && base[p..p + |w|] == w;
  }

  /** A base none of whose maximal alphanumeric runs is a generic token
      has no generic word. */
  lemma NoGenericRun(base: string)
    requires forall i, j :: RunAt(base, i, j) ==> base[i..j] !in GenericTokens
    ensures forall w :: w in Words(base) ==> w !in GenericTokens
  {
    NoRunIn(base, GenericTokens);
  }

  const GenericTokens: set<string> :=
    {"scan", "scanned", "document", "doc", "file", "new", "untitled", "image", "img", "photo"}

  function DigitCount(s: string): (n: nat)
    ensures n <= |s|
  {
    if s == [] then 0 else (if IsDigit(s[0]) then 1 else 0) + DigitCount(s[1..])
  }

  /** `is_generic_filename`: no words, a word that says nothing ("scan",
      "img", ...), at most six characters, or more than 60% digits. */
  predicate IsGenericFilename(name: string) {
    IsGenericBase(CleanFilename(name))
  }

  /** The generic test on the cleaned filename. */
  predicate IsGenericBase(base: string) {
    var toks := Words(base);
    toks == []
    || (exists w :: w in toks && w in GenericTokens)
    || |base| <= 6
    || (DigitCount(base) as real) / (if |base| < 1 then 1 else |base|) as real > 0.6
  }

  /** A name with no directory part, no capital letter and a known
      extension cleans to the name without that extension. */
  lemma CleanOfPlainName(stem: string, ext: string)
    requires '/' !in stem + ext && ext in KnownExtensions
    requires forall i :: 0 <= i < |stem + ext| ==> !('A' <= (stem + ext)[i] <= 'Z')
    ensures CleanFilename(stem + ext) == stem
  {
    var s := stem + ext;
    LowerWithoutCapitals(s);
    assert s[|s| - |ext|..] == ext;
    StripExtensionFacts(s);
    assert s[..|s| - |ext|] == stem;
  }

  /** A maximal run at the start is the first word, and the words after it
      are those of the rest. */
  lemma LeadingRunIsFirstWord(s: string, n: int)
    requires RunAt(s, 0, n)
    ensures Words(s) == [s[..n]] + Words(s[n..])
  {
    var m := RunLength(s);
    assert !(m < n);
    assert !(m > n);
    WordsTake(s);
  }

  lemma DigitsScan0001()
    ensures DigitCount("scan0001") == 4
  {
    var b := "scan0001";
    assert DigitCount(b[4..]) == 4 by {
      assert b[4..] == "0001";
      assert DigitCount("1") == 1;
      assert "001"[1..] == "01" && "01"[1..] == "1";
    }
    assert b[1..] == "can0001" && b[2..] == "an0001" && b[3..] == "n0001";
  }

  /** A scanner's default name with a counter, such as "scan0001.pdf", is
      not generic: its one word is not a generic token, it is eight
      characters long and half digits. */
  lemma Scan0001IsNotGeneric()
    ensures !IsGenericFilename("scan0001.pdf")
  {
    assert "scan0001" + ".pdf" == "scan0001.pdf";
    CleanOfPlainName("scan0001", ".pdf");
    CleanedScan0001IsNotGeneric("scan0001.pdf");
  }

  lemma CleanedScan0001IsNotGeneric(name: string)
    requires CleanFilename(name) == "scan0001"
    ensures !IsGenericFilename(name)
  {
    Scan0001BaseIsNotGeneric(CleanFilename(name));
  }

  lemma Scan0001BaseIsNotGeneric(base: string)
    requires base == "scan0001"
    ensures !IsGenericBase(base)
  {
    assert "scan0001" !in GenericTokens;
    LeadingRunIsFirstWord(base, 8);
    assert base[..8] == base && base[8..] == [];
    DigitsScan0001();
    NotGenericBase(base, "scan0001", 4);
  }

  /** A base with a single non-generic word, more than six characters and at
      most 60% digits is not generic. */
  lemma NotGenericBase(base: string, word: string, digits: nat)
    requires Words(base) == [word] && word !in GenericTokens
    requires |base| > 6 && DigitCount(base) == digits && 10 * digits <= 6 * |base|
    ensures !IsGenericBase(base)
  {
    ShareAtMost(digits, |base|);
  }

  lemma ShareAtMost(d: nat, n: nat)
    requires n > 0 && 10 * d <= 6 * n
    ensures (d as real) / (n as real) <= 0.6
  {
    assert (10 * d) as real <= (6 * n) as real;
    DivAtMost(d as real, n as real, 0.6);
  }

  lemma DivAtMost(a: real, b: real, c: real)
    requires b > 0.0 && a <= c * b
    ensures a / b <= c
  {
    assert c - a / b == (c * b - a) / b;
  }

  /** A camera name such as "img_2041.jpg" is generic: "img" is a generic
      word. */
  lemma CameraNameIsGeneric()
    ensures IsGenericFilename("img_2041.jpg")
  {
    assert "img_2041" + ".jpg" == "img_2041.jpg";
    CleanOfPlainName("img_2041", ".jpg");
    CameraBaseIsGeneric("img_2041");
  }

  lemma CameraBaseIsGeneric(base: string)
    requires base == "img_2041"
    ensures IsGenericBase(base)
  {
    LeadingRunIsFirstWord(base, 3);
    assert base[..3] == "img" && "img" in GenericTokens;
  }

  /** A filename whose lower-cased form, extension removed, has at most six
      characters is generic, on its own or after any directories. */
  lemma ShortNamesAreGeneric(dir: string, name: string)
    requires |StripExtension(Lower(name))| <= 6 && '/' !in name
    ensures IsGenericFilename(name)
    ensures IsGenericFilename(dir + "/" + name)
  {
    var s := dir + "/" + name;
    var a := AfterLastSlash(s);
    assert a == name by {
      AfterLastSlashOfSuffix(dir, name);
    }
  }

  lemma {:induction false} AfterLastSlashOfSuffix(dir: string, name: string)
    requires '/' !in name
    ensures AfterLastSlash(dir + "/" + name) == name
    decreases |name|
  {
    var s := dir + "/" + name;
    if name == [] {
      assert s[|s| - 1] == '/';
    } else {
      var p := name[..|name| - 1];
      assert s[..|s| - 1] == dir + "/" + p;
      assert '/' !in p by {
        assert forall c :: c in p ==> c in name;
      }
      AfterLastSlashOfSuffix(dir, p);
      assert name == p + [name[|name| - 1]];
    }
  }

  // ---------------------------------------------------------------------
  // Filename signal

  /** The three rapidfuzz ratios, each `(text, candidate) -> [0, 100]`. */
  datatype FuzzMetrics = FuzzMetrics(
    tokenSet: (string, string) -> real,
    partial: (string, string) -> real,
    quick: (string, string) -> real)

  /** Every ratio lies in `[0, 100]`, as rapidfuzz's do. */
  ghost predicate Bounded(fz: FuzzMetrics) {
    forall a, b :: 0.0 <= fz.tokenSet(a, b) <= 100.0 && 0.0 <= fz.partial(a, b) <= 100.0
                   && 0.0 <= fz.quick(a, b) <= 100.0
  }

  /** The best of the three ratios for one candidate name. */
  function BestRatio(fz: FuzzMetrics, base: string, cand: string): real {
    Max(fz.tokenSet(base, cand), Max(fz.partial(base, cand), fz.quick(base, cand)))
  }

  /** Some element of a non-empty set. */
  ghost function Pick(names: set<string>): (n: string)
    requires names != {}
    ensures n in names
  {
    var n :| n in names; n
  }

  /** The largest best ratio over `names`, or zero when there are none. */
  ghost function MaxRatio(names: set<string>, fz: FuzzMetrics, base: string): real
    decreases names
  {
    if names == {} then 0.0
    else Max(BestRatio(fz, base, Pick(names)), MaxRatio(names - {Pick(names)}, fz, base))
  }

  /** `MaxRatio` is the maximum: non-negative, above every ratio, zero or
      attained, and at most 100 for bounded metrics. */
  lemma {:induction false} MaxRatioIsMax(names: set<string>, fz: FuzzMetrics, base: string)
    ensures MaxRatio(names, fz, base) >= 0.0
    ensures forall n :: n in names ==> BestRatio(fz, base, n) <= MaxRatio(names, fz, base)
    ensures MaxRatio(names, fz, base) == 0.0 || exists n :: n in names && MaxRatio(names, fz, base) == BestRatio(fz, base, n)
    ensures Bounded(fz) ==> MaxRatio(names, fz, base) <= 100.0
    decreases names
  {
    if names != {} {
      var n := Pick(names);
      MaxRatioIsMax(names - {n}, fz, base);
      if MaxRatio(names - {n}, fz, base) != 0.0 && MaxRatio(names, fz, base) == MaxRatio(names - {n}, fz, base) {
        var k :| k in names - {n} && MaxRatio(names - {n}, fz, base) == BestRatio(fz, base, k);
        assert k in names;
      }
    }
  }

  /** Two non-negative values that each bound every ratio and are each zero
      or attained are equal: the maximum is unique. */
  lemma MaxUnique(a: real, b: real, names: set<string>, fz: FuzzMetrics, base: string)
    requires a >= 0.0 && b >= 0.0
    requires forall n :: n in names ==> BestRatio(fz, base, n) <= a && BestRatio(fz, base, n) <= b
    requires a == 0.0 || exists n :: n in names && a == BestRatio(fz, base, n)
    requires b == 0.0 || exists n :: n in names && b == BestRatio(fz, base, n)
    ensures a == b
  {
  }

  /** The filename score of a category for the cleaned filename `base`. */
  ghost function FilenameScore(base: string, cat: Category, fz: FuzzMetrics): real {
    MaxRatio(NamesForFuzzy(cat), fz, base) / 100.0
  }

  /** `score_filename`: the best ratio over every fuzzy-match name of the
      category, over 100. */
  method ScoreFilename(fileName: string, cat: Category, fz: FuzzMetrics) returns (r: real)
    ensures r == FilenameScore(CleanFilename(fileName), cat, fz)
    ensures r >= 0.0
    ensures forall n :: n in NamesForFuzzy(cat) ==> BestRatio(fz, CleanFilename(fileName), n) <= 100.0 * r
    ensures r == 0.0 || exists n :: n in NamesForFuzzy(cat) && 100.0 * r == BestRatio(fz, CleanFilename(fileName), n)
    ensures Bounded(fz) ==> r <= 1.0
  {
    var base := CleanFilename(fileName);
    r := ScoreBase(base, cat, fz);
  }

  /** The loop of `score_filename` over the cleaned filename `base`. */
  method ScoreBase(base: string, cat: Category, fz: FuzzMetrics) returns (r: real)
    ensures r == FilenameScore(base, cat, fz)
    ensures r >= 0.0
    ensures forall n :: n in NamesForFuzzy(cat) ==> BestRatio(fz, base, n) <= 100.0 * r
    ensures r == 0.0 || exists n :: n in NamesForFuzzy(cat) && 100.0 * r == BestRatio(fz, base, n)
    ensures Bounded(fz) ==> r <= 1.0
  {
    var names := NamesForFuzzy(cat);
    var best := 0.0;
    var todo := names;
    while todo != {}
      invariant todo <= names
      invariant best >= 0.0
      invariant forall n :: n in names - todo ==> BestRatio(fz, base, n) <= best
      invariant best == 0.0 || exists n :: n in names - todo && best == BestRatio(fz, base, n)
      invariant Bounded(fz) ==> best <= 100.0
      decreases |todo|
    {
      var cand :| cand in todo;
      var s1 := fz.tokenSet(base, cand);
      var s2 := fz.partial(base, cand);
      var s3 := fz.quick(base, cand);
      var m := Max(s1, Max(s2, s3));
      assert m == BestRatio(fz, base, cand);
      if best < m {
        best := m;
      }
      todo := todo - {cand};
      assert cand in names - todo;
    }
    MaxRatioIsMax(names, fz, base);
    MaxUnique(best, MaxRatio(names, fz, base), names, fz, base);
    r := best / 100.0;
  }


  // ---------------------------------------------------------------------
  // Keyword signal

  /** What a chunk's embedding field holds. */
  datatype Embedding =
    | NoVector
    | ArrayVector(xs: seq<real>)
    | ListVector(xs: seq<real>)
    | OtherValue

  /** A stored text chunk: its index, its text and its embedding. */
  datatype Chunk = Chunk(index: int, text: string, embedding: Embedding)

  function Texts(chunks: seq<Chunk>): (ts: seq<string>)
    ensures |ts| == |chunks|
    ensures forall i :: 0 <= i < |chunks| ==> ts[i] == chunks[i].text
  {
    if chunks == [] then [] else [chunks[0].text] + Texts(chunks[1..])
  }

  /** The lower-cased opening text the keyword signal searches. */
  function OpeningText(chunks: seq<Chunk>, topK: nat): string {
    Lower(Join(" ", Texts(Take(chunks, topK))))
  }

  /** How many non-empty entries of `kws` occur, lower-cased, in `text`. */
  function Hits(kws: seq<string>, text: string): (n: nat)
    ensures n <= |kws|
  {
    if kws == [] then 0
    else
      var last := kws[|kws| - 1];
      Hits(kws[..|kws| - 1], text) + (if last != [] && Contains(text, Lower(last)) then 1 else 0)
  }

  /** The keyword score of a hit count: the hit share, reaching the full score
      at 60%. Empty entries count in the denominator but never hit. */
  function KeywordScore(hits: nat, total: nat): real {
    if total == 0 then 0.0
    else Norm01((hits as real) / (total as real), 0.0, 0.6)
  }

  /** `score_keywords`. */
  method ScoreKeywords(chunks: seq<Chunk>, cat: Category, topK: nat := 3) returns (r: real)
    ensures r == KeywordScore(Hits(cat.keywords + cat.synonyms, OpeningText(chunks, topK)), |cat.keywords + cat.synonyms|)
  {
    var kws := cat.keywords + cat.synonyms;
    if kws == [] {
      return 0.0;
    }
    var text := OpeningText(chunks, topK);
    var hits := CountHits(kws, text);
    var prop := (hits as real) / (if |kws| < 1 then 1 else |kws|) as real;
    r := Norm01(prop, 0.0, 0.6);
  }

  /** The hit-counting loop of `score_keywords`: empty entries are skipped,
      the others are looked up lower-cased in the text. */
  method CountHits(kws: seq<string>, text: string) returns (hits: nat)
    ensures hits == Hits(kws, text)
  {
    hits := 0;
    for i := 0 to |kws|
      invariant hits == Hits(kws[..i], text)
    {
      HitsStep(kws, i, text);
      var kw := kws[i];
      if kw == [] {
        continue;
      }
      if Contains(text, Lower(kw)) {
        hits := hits + 1;
      }
    }
    assert kws[..|kws|] == kws;
  }

  /** Counting one more entry adds one exactly when it is non-empty and
      found in the text. */
  lemma HitsStep(kws: seq<string>, i: nat, text: string)
    requires i < |kws|
    ensures Hits(kws[..i + 1], text) == Hits(kws[..i], text) + (if kws[i] != [] && Contains(text, Lower(kws[i])) then 1 else 0)
  {
    assert kws[..i + 1][..i] == kws[..i];
  }

  /** The keyword score lies in [0, 1], is zero with no hits, and is full
      exactly when at least 60% of the entries hit. */
  lemma KeywordScoreFacts(hits: nat, total: nat)
    requires hits <= total
    ensures 0.0 <= KeywordScore(hits, total) <= 1.0
    ensures hits == 0 ==> KeywordScore(hits, total) == 0.0
    ensures total > 0 ==> (KeywordScore(hits, total) == 1.0 <==> 10 * hits >= 6 * total)
  {
    if total > 0 {
      var p := (hits as real) / (total as real);
      assert p * (total as real) == hits as real;
      if 10 * hits >= 6 * total {
        assert hits as real >= 0.6 * (total as real);
        DivAtLeast(hits as real, total as real, 0.6);
      } else {
        assert hits as real < 0.6 * (total as real);
        DivBelow(hits as real, total as real, 0.6);
        assert Norm01(p, 0.0, 0.6) * 0.6 == p;
      }
    }
  }

  lemma DivAtLeast(a: real, b: real, c: real)
    requires b > 0.0 && a >= c * b
    ensures a / b >= c
  {
    assert a / b - c == (a - c * b) / b;
  }

  lemma DivBelow(a: real, b: real, c: real)
    requires b > 0.0 && a < c * b
    ensures a / b < c
  {
    assert c - a / b == (c * b - a) / b;
  }

  /** More hits never lower the keyword score. */
  lemma KeywordScoreMonotone(h1: nat, h2: nat, total: nat)
    requires h1 <= h2
    ensures KeywordScore(h1, total) <= KeywordScore(h2, total)
  {
    if total > 0 {
      assert (h1 as real) / (total as real) <= (h2 as real) / (total as real);
      Norm01Monotone((h1 as real) / (total as real), (h2 as real) / (total as real), 0.0, 0.6);
    }
  }

  /** Only the first `topK` chunks matter to the keyword signal. */
  lemma {:induction false} OpeningTextIgnoresLaterChunks(chunks: seq<Chunk>, more: seq<Chunk>, topK: nat)
    requires |chunks| >= topK
    ensures OpeningText(chunks + more, topK) == OpeningText(chunks, topK)
  {
    assert Take(chunks + more, topK) == Take(chunks, topK);
  }

  // ---------------------------------------------------------------------
  // Embedding signal

  /** The vector a chunk contributes to the document mean, if any. */
  function VectorOf(e: Embedding): Option<seq<real>> {
    match e
    case ArrayVector(xs) => if xs == [] then None else Some(xs)
    case ListVector(xs) => if xs == [] then None else Some(xs)
    case _ => None
  }

  /** The vectors `doc_vector_mean` collects, in chunk order. */
  function Collected(chunks: seq<Chunk>): (vs: seq<seq<real>>)
    ensures |vs| <= |chunks|
    ensures forall k :: 0 <= k < |vs| ==> vs[k] != []
  {
    if chunks == [] then []
    else
      var v := VectorOf(chunks[|chunks| - 1].embedding);
      Collected(chunks[..|chunks| - 1]) + (if v.Some? then [v.value] else [])
  }

  /** Nothing is collected exactly when no chunk holds a non-empty vector. */
  lemma {:induction false} CollectedEmptyIff(chunks: seq<Chunk>)
    ensures Collected(chunks) == [] <==> forall i :: 0 <= i < |chunks| ==> VectorOf(chunks[i].embedding).None?
  {
    if chunks != [] {
      var p := chunks[..|chunks| - 1];
      var v := VectorOf(chunks[|chunks| - 1].embedding);
      CollectedEmptyIff(p);
      assert Collected(chunks) == Collected(p) + (if v.Some? then [v.value] else []);
      assert (forall i :: 0 <= i < |chunks| ==> VectorOf(chunks[i].embedding).None?)
         <==> (forall i :: 0 <= i < |p| ==> VectorOf(p[i].embedding).None?) && v.None? by {
        assert forall i :: 0 <= i < |p| ==> p[i] == chunks[i];
      }
    }
  }

  predicate SameLength(vs: seq<seq<real>>) {
    forall i, j :: 0 <= i < |vs| && 0 <= j < |vs| ==> |vs[i]| == |vs[j]|
  }

  /** The sum of component `i` over all vectors. */
  function ColumnSum(vs: seq<seq<real>>, i: nat): real
    requires forall k :: 0 <= k < |vs| ==> i < |vs[k]|
  {
    if vs == [] then 0.0 else ColumnSum(vs[..|vs| - 1], i) + vs[|vs| - 1][i]
  }

  /** `np.mean(vs, axis=0)`: the component-wise mean. */
  function MeanVector(vs: seq<seq<real>>): (m: seq<real>)
    requires vs != [] && SameLength(vs)
    ensures |m| == |vs[0]|
  {
    seq(|vs[0]|, i requires 0 <= i < |vs[0]| => ColumnSum(vs, i) / (|vs| as real))
  }

  lemma {:induction false} ColumnSumOfCopies(vs: seq<seq<real>>, v: seq<real>, i: nat)
    requires forall k :: 0 <= k < |vs| ==> vs[k] == v
    requires i < |v|
    ensures ColumnSum(vs, i) == (|vs| as real) * v[i]
  {
    if vs != [] {
      ColumnSumOfCopies(vs[..|vs| - 1], v, i);
    }
  }

  /** The mean of copies of one vector is that vector. */
  lemma MeanOfCopies(vs: seq<seq<real>>, v: seq<real>)
    requires vs != [] && forall k :: 0 <= k < |vs| ==> vs[k] == v
    ensures SameLength(vs) && MeanVector(vs) == v
  {
    forall i | 0 <= i < |v| ensures MeanVector(vs)[i] == v[i] {
      ColumnSumOfCopies(vs, v, i);
    }
  }

  /** The document vector: the mean of the collected vectors, if any. */
  function DocVector(chunks: seq<Chunk>, maxChunks: nat): Option<seq<real>>
    requires SameLength(Collected(Take(chunks, maxChunks)))
  {
    var vs := Collected(Take(chunks, maxChunks));
    if vs == [] then None else Some(MeanVector(vs))
  }

  /** `doc_vector_mean`: the mean of the non-empty vectors among the first
      `maxChunks` chunks, or none when there are none. numpy rejects vectors
      of different lengths, so callers supply vectors of one length. */
  method DocVectorMean(chunks: seq<Chunk>, maxChunks: nat := 8) returns (m: Option<seq<real>>)
    requires SameLength(Collected(Take(chunks, maxChunks)))
    ensures m.None? <==> forall i :: 0 <= i < |Take(chunks, maxChunks)| ==> VectorOf(Take(chunks, maxChunks)[i].embedding).None?
    ensures m == DocVector(chunks, maxChunks)
  {
    var window := Take(chunks, maxChunks);
    var vecs: seq<seq<real>> := [];
    for i := 0 to |window|
      invariant vecs == Collected(window[..i])
    {
      assert window[..i + 1][..i] == window[..i];
      match window[i].embedding {
        case NoVector =>
          continue;
        case ArrayVector(xs) =>
          if xs == [] {
            continue;
          }
          vecs := vecs + [xs];
        case ListVector(xs) =>
          if xs == [] {
            continue;
          }
          vecs := vecs + [xs];
        case OtherValue =>
          continue;
      }
    }
    assert window[..|window|] == window;
    CollectedEmptyIff(window);
    if vecs == [] {
      m := None;
    } else {
      m := Some(MeanVector(vecs));
    }
  }

  function Dot(a: seq<real>, b: seq<real>): real
    requires |a| == |b|
  {
    if a == [] then 0.0 else Dot(a[..|a| - 1], b[..|b| - 1]) + a[|a| - 1] * b[|b| - 1]
  }

  lemma {:induction false} DotSymmetric(a: seq<real>, b: seq<real>)
    requires |a| == |b|
    ensures Dot(a, b) == Dot(b, a)
  {
    if a != [] {
      DotSymmetric(a[..|a| - 1], b[..|b| - 1]);
    }
  }

  /** `cosine`, with `norm` standing for `np.linalg.norm`: zero when either
      vector has zero norm. */
  function Cosine(a: seq<real>, b: seq<real>, norm: seq<real> -> real): (c: real)
    requires |a| == |b|
    ensures norm(a) * norm(b) == 0.0 ==> c == 0.0
    ensures norm(a) * norm(b) != 0.0 ==> c * (norm(a) * norm(b)) == Dot(a, b)
  {
    var denom := norm(a) * norm(b);
    if denom == 0.0 then 0.0 else Dot(a, b) / denom
  }

  /** The cosine does not depend on the order of its arguments. */
  lemma CosineSymmetric(a: seq<real>, b: seq<real>, norm: seq<real> -> real)
    requires |a| == |b|
    ensures Cosine(a, b, norm) == Cosine(b, a, norm)
  {
    DotSymmetric(a, b);
    assert norm(a) * norm(b) == norm(b) * norm(a);
  }

  /** `score_embeddings`: zero without both vectors, else the cosine rescaled
      from `[0.2, 0.9]` to `[0, 1]`. */
  function ScoreEmbeddings(docVec: Option<seq<real>>, catVec: Option<seq<real>>, norm: seq<real> -> real): (r: real)
    requires docVec.Some? && catVec.Some? ==> |docVec.value| == |catVec.value|
    ensures 0.0 <= r <= 1.0
    ensures docVec.None? || catVec.None? ==> r == 0.0
    ensures docVec.Some? && catVec.Some? ==>
      (Cosine(docVec.value, catVec.value, norm) <= 0.2 ==> r == 0.0) && (Cosine(docVec.value, catVec.value, norm) >= 0.9 ==> r == 1.0)
    ensures docVec.Some? && catVec.Some? ==>
      var c := Cosine(docVec.value, catVec.value, norm);
      0.2 <= c <= 0.9 ==> r == (c - 0.2) / 0.7
  {
    if docVec.None? || catVec.None? then 0.0
    else Norm01(Cosine(docVec.value, catVec.value, norm), 0.2, 0.9)
  }
}
